=== FILE: README.md ===
# launchpad-jia career creation, modelled in Dafny

This project models the career-creation core of the Jia recruiter dashboard:

- the `POST /api/add-career` handler. It gates on required fields, checks the organization id, looks up the plan and applies the job-slot quota, normalises the stored career document, and maps thrown errors to HTTP 500;
- the five-step "Add Career" wizard:
  - form validation and step-completion percentages;
  - the step-bar connector fill;
  - the Published/Unpublished status choice and the order in which each step refuses a save;
  - the interview-question payload;
  - the team-access panel;
  - the AI-interview question editor;
  - the pipeline board;
- the read-only tiles of the review step;
- the sidebar's active-menu resolution.

Everything is written as immutable datatypes and pure functions from old state to new state. JavaScript values are `JsValues.Json`, and truthiness, `??`, `||`, property reads, `String(v)` and `Number(s)` are spelled out once in `JsValues`. String operations (`trim`, `split`, `includes`, ASCII case mapping) live in `Text`, and list helpers (`filter`, `slice`, order-preserving selection) in `Seqs`.

Modules:

| file | module | models |
|---|---|---|
| `text.dfy` | `Text` | `trim`, `split`, `join`, `includes`, `toLowerCase`/`toUpperCase` (ASCII), `String(n)` |
| `js_values.dfy` | `JsValues` | JSON-like values, truthiness, `??`, `\|\|`, property reads, `Number(s)` |
| `seqs.dfy` | `Seqs` | `filter`, `slice(0, n)`, reversal, sub-sequences |
| `add_career.dfy` | `AddCareer` | `src/app/api/add-career/route.ts` |
| `wizard.dfy` | `Wizard` | validation, percentages, fills, status, save gating and payload of the wizard steps |
| `team_access.dfy` | `TeamAccess` | the team-access panel of `CareersTableV2.tsx` |
| `interview_questions.dfy` | `InterviewQuestions` | `AIInterviewSetup/interviewAIQuestion.tsx` |
| `pipeline.dfy` | `Pipeline` | the pipeline board of `Pipeline/PipelineStage.tsx` |
| `review_tiles.dfy` | `ReviewTiles` | `ReviewCareer/interviewAI.tsx`, `cvscreeningtile.tsx`, `careertile.tsx` |
| `sidebar.dfy` | `Sidebar` | `src/app/recruiter-dashboard/layout.tsx` |

Several wizard steps repeat the same code, and one Dafny member models every copy:

- The validation in `CareersTableV2.tsx:333-354` is repeated without the job-description check in `PipelineStage.tsx:155-172`, `AIInterviewSetup/interviewAI.tsx:172-192` and `Review-Career.tsx:157-174`.
- `setStepPercent` and the step-3 percentage appear in `PipelineStage.tsx`, `AIInterviewSetup/interviewAI.tsx` and `Review-Career.tsx`.
- The payload reducer appears in the same three files. It numbers questions in two of them and copies them verbatim in `AIInterviewSetup/interviewAI.tsx`.

I/O is not modelled; it becomes parameters:

- What the store returns, or throws, for each call is an input (`AddCareer.Store`).
- `new ObjectId(...)` validity, the fresh career id and the clock are inputs (`AddCareer.Env`).
- The fetched career document of a review tile is `Option<Json>`, with `None` when the fetch throws.
- `JSON.parse` is a parameter `string -> Option<Json>`.
- The plan limit and extra slots the wizard fetches are `Option<NumVal>` inputs: `None` when missing, `NaN` for a stored `NaN`. The active-career count is an integer input.

## Model

| member | source | states |
|---|---|---|
| AddCareer.FirstMissing | src/app/api/add-career/route.ts:11-27 | No field is reported exactly when all seven required fields are truthy. Otherwise the reported field is falsy and every field listed before it is truthy, so it is the first missing one in the order jobTitle, description, questions, location, workSetup, orgID, createdBy. |
| AddCareer.JobLimitTotal | src/app/api/add-career/route.ts:71-75 | A `NaN` plan limit gives exactly 3. Otherwise the total is the plan limit, 3 when missing, plus the extra slots, 0 when missing or `NaN`. No plan and no extra slots gives 3. |
| AddCareer.NormaliseDoc | src/app/api/add-career/route.ts:92-118 | The inserted document has the fresh id and the request time as its three dates. It copies jobTitle, description, questions, location, workSetup, orgID and createdBy from the body. Status is the body's when truthy, else "active", so it is always truthy. lastEditedBy is the body's when truthy, else createdBy. workSetupRemarks, screeningSetting, country, province and employmentType are kept when truthy and are null otherwise. Each salary is kept when it is a number and is null otherwise. teamAccess is the body's when it is an array, else `[]`. The two flags are the fields' truthiness. |
| AddCareer.MissingTitleRefused | src/app/api/add-career/route.ts:11-27 | A parsed, non-nullish body without a truthy job title gets 400 "jobTitle is required", and nothing is written, whatever the store holds. |
| AddCareer.BuildDoc | src/app/api/add-career/route.ts:92-118 | The same rules stated over the fields read from the body. |
| AddCareer.BuildDocNormalised | src/app/api/add-career/route.ts:92-118 | Every built document is in normal form: truthy status, a truthy lastEditedBy or else createdBy, number-or-null salaries, an array teamAccess, and truthy-or-null optional fields. |
| AddCareer.BuildNormalised | src/app/api/add-career/route.ts:92-118 | Building from a normal-form document's own fields, with its id and time, gives that document back. |
| AddCareer.NormaliseDocIdempotent | src/app/api/add-career/route.ts:92-118 | Normalising is idempotent: feeding an inserted document's fields through the same rules changes nothing. |
| AddCareer.ServerError | src/app/api/add-career/route.ts:131-143 | Every caught error replies 500. A message matching the network pattern gives the fixed connection text. Any other message passes through, and a missing one becomes "Internal server error". |
| AddCareer.NetworkTimeoutAlternativeRedundant | src/app/api/add-career/route.ts:134-137 | The `MongoNetworkTimeoutError` alternative of the pattern matches nothing the `timeout` alternative does not already match. |
| AddCareer.Post | src/app/api/add-career/route.ts:7-145 | At most one document is written, exactly when the reply is a success, and it is the reply's career. A missing field gives 400 naming it; a bad orgID gives 400 before the store is touched; an unknown organization gives 404, and only then. Success holds exactly when every check passes and the active count is below the limit. At or over the limit the reply is the quota 400 and nothing is written. Status is always 200, 400, 404 or 500. Whatever throws first (the parse, a null body, or the connect, lookup, count or insert call, each reached only when the steps before it passed) gives the `catch`'s 500 built from that error, and no other path gives 500. |
| AddCareer.AddedCareerCountsOnce | src/app/api/add-career/route.ts:77-80 | A request whose status is absent, "active" or "Published" raises its organization's active count by the number of careers it inserts: one when it succeeds, none when refused. |
| Text.TrimEmptyIffBlank | src/lib/components/DataTables/CareersTableV2.tsx:336 | `!x.trim()` holds exactly when every character of `x` is white space. |
| Text.ContainsIffOccurs | src/lib/components/DataTables/CareersTableV2.tsx:104 | `includes` holds exactly when the query occurs at some position. |
| JsValues.ParseIntToString | src/lib/components/DataTables/CareersTableV2.tsx:342-343 | `Number` reads the decimal form of any integer back as that integer. |
| JsValues.ParseRadixPrefix | src/lib/components/DataTables/CareersTableV2.tsx:342-343 | `Number` reads `0x`, `0o` or `0b`, in either case, followed by digits of that radix as the number they write. |
| Text.SplitCount | src/app/recruiter-dashboard/layout.tsx:59 | `split` on one character yields one more part than there are separators. |
| Text.JoinSplit | src/app/recruiter-dashboard/layout.tsx:59 | Joining the parts of a split with the separator gives back the string. |
| Wizard.FieldError | src/lib/components/DataTables/CareersTableV2.tsx:333-354 | The title errs exactly when blank, and the description exactly when checked and blank. A negotiable salary never errs. The maximum errs exactly when it is not a number, or both are numbers and max < min; in the second case the message is "Maximum must be greater than minimum.". Every other error is "This is a required field.". |
| Wizard.Validate | src/lib/components/DataTables/CareersTableV2.tsx:333-354 | A field is in the error map exactly when it is in error, with that field's message. |
| Wizard.ValidateFields | src/lib/components/DataTables/Updated-Careers/AIInterviewSetup/interviewAI.tsx:172-192 | The title, select and location fields are flagged exactly when blank or empty. The description is flagged only by the step that checks it. |
| Wizard.ValidateSalary | src/lib/components/DataTables/CareersTableV2.tsx:342-350 | Salary errors exist only when not negotiable. The minimum is flagged exactly when it is not a number. The maximum is flagged exactly when it is not a number or is below a numeric minimum, with the "Maximum must be greater than minimum." message when it is a number. |
| Wizard.NegotiableSkipsSalaryChecks | src/lib/components/DataTables/CareersTableV2.tsx:344 | For a negotiable salary, the errors do not depend on the two amounts. |
| Wizard.CountTrue | src/lib/components/DataTables/CareersTableV2.tsx:369 | The number of passing checks is at most the number of checks, and equals it exactly when all pass. |
| Wizard.RoundedPercent | src/lib/components/DataTables/CareersTableV2.tsx:370 | The result is the nearest whole percentage of k/n, with halves rounded up, and lies in 0..100. |
| Wizard.Step1Percent | src/lib/components/DataTables/CareersTableV2.tsx:359-371 | Step 1's percentage lies in 0..100. It is 100 exactly when all seven checks pass and 0 exactly when none does. |
| Wizard.CountExtremes | src/lib/components/DataTables/CareersTableV2.tsx:369 | No check passes exactly when the count is zero. |
| Wizard.Step1PercentTable | src/lib/components/DataTables/CareersTableV2.tsx:370 | The eight possible step-1 percentages are 0, 14, 29, 43, 57, 71, 86 and 100. |
| Wizard.RoundedPercentMonotone | src/lib/components/DataTables/CareersTableV2.tsx:359-371 | Passing more checks never lowers the percentage. |
| Wizard.Step3Percent | src/lib/components/DataTables/Updated-Careers/Pipeline/PipelineStage.tsx:144-148 | The step-3 percentage is at most 50. It is 50 exactly when the secret prompt is non-blank and there are at least 3 questions, and 0 exactly when the prompt is blank and there are no questions. |
| Wizard.Step3PercentMonotone | src/lib/components/DataTables/Updated-Careers/AIInterviewSetup/interviewAI.tsx:115-119 | More questions never lower the step-3 percentage. |
| Wizard.Step3CapNeverBinds | src/lib/components/DataTables/Updated-Careers/ReviewCareer/Review-Career.tsx:146-150 | The outer `min(50, ...)` never takes effect: 25 for the prompt plus at most 25 for questions. |
| Wizard.SetStepPercent | src/lib/components/DataTables/Updated-Careers/Pipeline/PipelineStage.tsx:134-137 | The stored value for the step is the percent clamped to 0..100, and every other step keeps its value. |
| Wizard.SetEachProperties | src/lib/components/DataTables/Updated-Careers/Pipeline/PipelineStage.tsx:139-141 | Setting each listed step to p gives every listed step p and leaves the others unchanged. |
| Wizard.InitialPercentsAreHalf | src/lib/components/DataTables/Updated-Careers/ReviewCareer/Review-Career.tsx:141-143 | After the first mount effect, steps 1 to 5 are all at 50, and no other step has a value. |
| Wizard.MountedStepPercents | src/lib/components/DataTables/Updated-Careers/ReviewCareer/Review-Career.tsx:141-154 | After both mount effects, steps 1, 2, 4 and 5 are at 50 and step 3 holds the AI-interview percentage of the prompt and question count. |
| Wizard.MountedPercentsAsWritten | src/lib/components/DataTables/Updated-Careers/ReviewCareer/Review-Career.tsx:74-79 | As written, with the never-set prompt and questions, the percentages after mount are exactly {1: 50, 2: 50, 3: 0, 4: 50, 5: 50}. |
| Wizard.StepFill | src/lib/components/DataTables/Updated-Careers/ReviewCareer/Review-Career.tsx:309-313 | The active step's connector shows its stored percent clamped to 0..100, or 0 when none is stored. Completed steps show 100 and upcoming steps 0. |
| Wizard.DetailsFill | src/lib/components/DataTables/CareersTableV2.tsx:481-487 | On the details bar, the active connector shows the step-1 percentage capped at 50. Completed connectors show 50 and upcoming ones 0, so the fill never exceeds 50. |
| Wizard.StepFillDescends | src/lib/components/DataTables/Updated-Careers/ReviewCareer/Review-Career.tsx:309-313 | Along a bar no connector is fuller than the one before it, whatever percents are stored. |
| Wizard.StepFillGrowsWithActive | src/lib/components/DataTables/Updated-Careers/ReviewCareer/Review-Career.tsx:309-313 | Moving the active step forward never lowers a connector's fill. |
| Wizard.DetailsFillMonotone | src/lib/components/DataTables/CareersTableV2.tsx:481-487 | On the details bar too, fills do not increase along the bar and do not decrease as the active step advances. |
| Wizard.StatusFor | src/lib/components/DataTables/CareersTableV2.tsx:405-406 | The status is Unpublished exactly when active careers ≥ available slots, and Published otherwise. |
| Wizard.WizardJobSlots | src/lib/components/DataTables/CareersTableV2.tsx:297-300 | A missing, zero or `NaN` plan limit counts as 3. Missing, zero or `NaN` extra slots count as 0. |
| Wizard.WizardAndRouteLimits | src/lib/components/DataTables/Updated-Careers/AIInterviewSetup/interviewAI.tsx:137-140 | The wizard's slot count equals the route's limit except for a plan limit of 0, or a `NaN` plan limit with extra slots. |
| Wizard.AdvanceStep | src/lib/components/DataTables/CareersTableV2.tsx:423 | The next step is step+1, never past step 5. |
| Wizard.CareerDetailsSave | src/lib/components/DataTables/CareersTableV2.tsx:386-406 | Without a context the save is refused for that reason. Otherwise form errors, description included, refuse it. Otherwise it saves, Unpublished exactly when the slots are full. |
| Wizard.CareerDetailsStepAfterSave | src/lib/components/DataTables/CareersTableV2.tsx:403-429 | The step stays in 1..5. It advances only when the save went ahead and the request succeeded. |
| Wizard.SaveAsUnpublished | src/lib/components/DataTables/CareersTableV2.tsx:432-451 | Refused only without a context; otherwise always Unpublished, whatever the form says. |
| Wizard.FullSlotsSaveAsUnpublished | src/lib/components/DataTables/CareersTableV2.tsx:386-451 | With full slots and a valid form, "Save and Continue" decides exactly what "Save as Unpublished" does. |
| Wizard.InterviewSetupSave | src/lib/components/DataTables/Updated-Careers/AIInterviewSetup/interviewAI.tsx:233-277 | The refusals, each an if-and-only-if, come in this order: no context, form errors (no description check), a blank secret prompt, fewer than 5 questions. It saves exactly when all pass. The slot-based status only picks the toast; the posted body does not carry it. |
| Wizard.ReviewSave | src/lib/components/DataTables/Updated-Careers/ReviewCareer/Review-Career.tsx:209-229 | Corrected version, in which the review step sees the prompt and questions entered in the AI-interview step. A blank prompt refuses, then fewer than 5 questions. Otherwise it saves. The status it computes, Unpublished exactly when the slots are full, is not sent. |
| Wizard.ReviewSaveAsWritten | src/lib/components/DataTables/Updated-Careers/ReviewCareer/Review-Career.tsx:74-79 | As written, the prompt is always "" and the questions always none, so "Publish" always refuses for the missing secret prompt. The step's unguarded "Save as Unpublished" button is a separate path, listed under "## Left out". |
| Wizard.ReviewNeverSaves | src/lib/components/DataTables/Updated-Careers/ReviewCareer/Review-Career.tsx:209-229 | Even when the AI-interview step saves, the as-written review step refuses, while the corrected one saves. |
| Wizard.ReviewPayloadAsWritten | src/lib/components/DataTables/Updated-Careers/ReviewCareer/Review-Career.tsx:170-186 | As written, the review step's question payload comes from the never-set list, so it is the empty object. |
| Wizard.PipelineSave | src/lib/components/DataTables/Updated-Careers/Pipeline/PipelineStage.tsx:207-236 | The pipeline step always saves. The status it computes, Unpublished exactly when the slots are full, is not sent. |
| Wizard.ReviewIgnoresFormErrors | src/lib/components/DataTables/Updated-Careers/ReviewCareer/Review-Career.tsx:209-224 | In the corrected version, with form errors, a prompt and 5 questions, the AI-interview step refuses but the review step saves. |
| Wizard.InterviewSaveImpliesReviewSave | src/lib/components/DataTables/Updated-Careers/ReviewCareer/Review-Career.tsx:209-229 | In the corrected version, whenever the AI-interview step saves, the review step saves and computes the same status. |
| Wizard.StepSaveBodyHasNoTitle | src/lib/components/DataTables/Updated-Careers/AIInterviewSetup/interviewAI.tsx:210-215 | The body the later steps post holds the video flag, screening, secret prompt and questions, and has no job title. |
| Wizard.StepSaveRefusedByRoute | src/lib/components/DataTables/Updated-Careers/AIInterviewSetup/interviewAI.tsx:217-224 | Without a career id, that body posted to the add-career route is refused with 400 "jobTitle is required" and nothing is written. |
| Wizard.Put | src/lib/components/DataTables/Updated-Careers/Pipeline/PipelineStage.tsx:181 | `acc[name] = v` leaves the key holding v, leaves every other key unchanged and keeps keys unique. It adds an entry only for a new key. |
| Wizard.CategoryName | src/lib/components/DataTables/Updated-Careers/Pipeline/PipelineStage.tsx:179 | The name is the string form of the first truthy of categoryName, name, title and categoryId, else "Other". |
| Wizard.RenderQuestions | src/lib/components/DataTables/Updated-Careers/Pipeline/PipelineStage.tsx:180-181 | One text per question of an array `questions` (none otherwise), in order. The i-th is "Question i+1: q" when numbered and the question verbatim otherwise. |
| Wizard.CategoryEntries | src/lib/components/DataTables/Updated-Careers/ReviewCareer/Review-Career.tsx:179-187 | One (name, texts) entry per category, in category order. |
| Wizard.BuildPayload | src/lib/components/DataTables/Updated-Careers/Pipeline/PipelineStage.tsx:177-185 | The payload object never holds the same category name twice. |
| Wizard.CollectKeys | src/lib/components/DataTables/Updated-Careers/Pipeline/PipelineStage.tsx:177-185 | The reduced object has a key exactly for the keys of the entries. |
| Wizard.CollectLastWins | src/lib/components/DataTables/Updated-Careers/AIInterviewSetup/interviewAI.tsx:198-209 | Each key holds the value of the last entry with that key. |
| Wizard.PayloadKeys | src/lib/components/DataTables/Updated-Careers/ReviewCareer/Review-Career.tsx:179-187 | The payload has a key exactly for the names the categories resolve to. |
| Wizard.LaterCategoryWins | src/lib/components/DataTables/Updated-Careers/AIInterviewSetup/interviewAI.tsx:198-209 | Two categories with the same name: the payload keeps the questions of the later one. |
| TeamAccess.InitialMembersWellFormed | src/lib/components/DataTables/CareersTableV2.tsx:68-71 | The starting team has distinct ids, and its only owner is the signed-in user. |
| TeamAccess.AddMember | src/lib/components/DataTables/CareersTableV2.tsx:73-76 | A person already on the team changes nothing. Otherwise the person is appended as a reviewer. Distinct ids stay distinct. |
| TeamAccess.RemoveMember | src/lib/components/DataTables/CareersTableV2.tsx:77 | Exactly the members with other ids remain, in their original order, every copy of each. Removing an absent id changes nothing. |
| Seqs.FilterCounts | src/lib/components/DataTables/CareersTableV2.tsx:77 | `filter` keeps every copy of a kept element and no copy of a dropped one. |
| TeamAccess.RemoveUndoesAdd | src/lib/components/DataTables/CareersTableV2.tsx:73-77 | Removing a person just added gives back the team as it was. |
| TeamAccess.RemoveMemberSplits | src/lib/components/DataTables/CareersTableV2.tsx:77 | Removal distributes over joining two member lists, so the survivors keep their relative order. |
| TeamAccess.UpdateRole | src/lib/components/DataTables/CareersTableV2.tsx:78-79 | The length is kept. Matching members get the new role and nothing else changes in them; every other member is unchanged. |
| TeamAccess.UpdateRoleKeepsIds | src/lib/components/DataTables/CareersTableV2.tsx:78-79 | A role change keeps the set of ids and their distinctness. |
| TeamAccess.UpdateRoleLastWins | src/lib/components/DataTables/CareersTableV2.tsx:78-79 | Of two role changes for the same member, the later one sticks. |
| TeamAccess.Hits | src/lib/components/DataTables/CareersTableV2.tsx:103-104 | Exactly the entries whose lower-cased name or e-mail contains the query, in directory order. |
| TeamAccess.Search | src/lib/components/DataTables/CareersTableV2.tsx:100-106 | A blank query gives the first 12 entries. Otherwise the first 20 matches of the trimmed, lower-cased query. There are never more than 20 results, always in directory order. |
| TeamAccess.SearchFindsMatches | src/lib/components/DataTables/CareersTableV2.tsx:100-106 | Every result matches the query. For a directory of at most 20 entries, every match is a result. |
| TeamAccess.DirectorySearchIsComplete | src/lib/components/DataTables/CareersTableV2.tsx:25-32 | For the built-in directory, a blank query lists it all and any other query lists exactly its matches. |
| InterviewQuestions.InitialEditorProperties | src/lib/components/DataTables/Updated-Careers/AIInterviewSetup/interviewAIQuestion.tsx:23-36 | Five categories with distinct ids and no questions, so the total is 0. |
| InterviewQuestions.MapCategory | src/lib/components/DataTables/Updated-Careers/AIInterviewSetup/interviewAIQuestion.tsx:51-52 | Only categories with the id are edited; ids, names and length are kept. |
| InterviewQuestions.TotalAfterAppend | src/lib/components/DataTables/Updated-Careers/AIInterviewSetup/interviewAIQuestion.tsx:36 | Appending to each matching category raises the total by the number of matching categories. |
| InterviewQuestions.CountIdUnique | src/lib/components/DataTables/Updated-Careers/AIInterviewSetup/interviewAIQuestion.tsx:48-54 | With distinct ids, an id matches at most one category. |
| InterviewQuestions.AddQuestion | src/lib/components/DataTables/Updated-Careers/AIInterviewSetup/interviewAIQuestion.tsx:48-63 | The matching category gets one question with a fresh id and the text, or "" when no text is given; other categories are unchanged. The category is expanded. A missing or empty text starts editing the new question. Ids stay fresh. |
| InterviewQuestions.AddQuestionTotal | src/lib/components/DataTables/Updated-Careers/AIInterviewSetup/interviewAIQuestion.tsx:48-54 | The total grows by 1 if the category exists and is unchanged otherwise. |
| InterviewQuestions.RemoveQuestion | src/lib/components/DataTables/Updated-Careers/AIInterviewSetup/interviewAIQuestion.tsx:65-71 | In the named category, exactly the questions with other ids remain, in order, every copy of each. Other categories and the rest of the editor are unchanged. |
| InterviewQuestions.RemoveUndoesAdd | src/lib/components/DataTables/Updated-Careers/AIInterviewSetup/interviewAIQuestion.tsx:48-71 | Removing the question just added restores the categories. |
| InterviewQuestions.SetText | src/lib/components/DataTables/Updated-Careers/AIInterviewSetup/interviewAIQuestion.tsx:76 | Ids and length are kept; only the matching question gets the new text. |
| InterviewQuestions.UpdateQuestionText | src/lib/components/DataTables/Updated-Careers/AIInterviewSetup/interviewAIQuestion.tsx:73-79 | Only the matching question of the matching category changes its text. Ids, order, counts and the other categories are kept. |
| InterviewQuestions.UpdateKeepsTotal | src/lib/components/DataTables/Updated-Careers/AIInterviewSetup/interviewAIQuestion.tsx:73-79 | Editing a text keeps the total. |
| InterviewQuestions.UpdateLastWins | src/lib/components/DataTables/Updated-Careers/AIInterviewSetup/interviewAIQuestion.tsx:73-79 | Of two edits to one question, the later text is kept. |
| InterviewQuestions.SampleIn | src/lib/components/DataTables/Updated-Careers/AIInterviewSetup/interviewAIQuestion.tsx:90 | `sample[id] \|\| []`: a known id finds one of its entries, whose samples are returned; an unknown id finds none. |
| InterviewQuestions.SampleInFirstEntry | src/lib/components/DataTables/Updated-Careers/AIInterviewSetup/interviewAIQuestion.tsx:90 | With several entries for an id, the first one wins. |
| InterviewQuestions.SampleInSizes | src/lib/components/DataTables/Updated-Careers/AIInterviewSetup/interviewAIQuestion.tsx:81-90 | In a table of two non-empty samples per entry, a lookup finds two non-empty samples for a known key and none otherwise. |
| InterviewQuestions.SampleSizes | src/lib/components/DataTables/Updated-Careers/AIInterviewSetup/interviewAIQuestion.tsx:81-87 | Each of the five category ids has two non-empty samples; any other id has none. |
| InterviewQuestions.AddAll | src/lib/components/DataTables/Updated-Careers/AIInterviewSetup/interviewAIQuestion.tsx:91 | The texts are appended in order to the matching category, whose old questions stay as a prefix. Other categories are unchanged. One fresh id is used per text. |
| InterviewQuestions.AppendThenExtend | src/lib/components/DataTables/Updated-Careers/AIInterviewSetup/interviewAIQuestion.tsx:91 | Adding the first text and then the rest leaves the old questions as a prefix, with the texts appended in order. |
| InterviewQuestions.GenerateForCategory | src/lib/components/DataTables/Updated-Careers/AIInterviewSetup/interviewAIQuestion.tsx:89-97 | The category's samples are appended in order, other categories are untouched, and the category is expanded. |
| InterviewQuestions.AppendSamples | src/lib/components/DataTables/Updated-Careers/AIInterviewSetup/interviewAIQuestion.tsx:89-97 | Given texts are appended in order to the matching category, the others are untouched, and the category is expanded. Non-blank texts leave the edit state alone. |
| InterviewQuestions.GenerateFrom | src/lib/components/DataTables/Updated-Careers/AIInterviewSetup/interviewAIQuestion.tsx:99-108 | Categories empty in the snapshot receive their samples, the others are untouched, and every snapshot id is expanded. |
| InterviewQuestions.GenerateFromWith | src/lib/components/DataTables/Updated-Careers/AIInterviewSetup/interviewAIQuestion.tsx:99-108 | For any sample lookup, categories empty in the snapshot receive their samples, the others are untouched, and every snapshot id is expanded. |
| InterviewQuestions.GenerateAll | src/lib/components/DataTables/Updated-Careers/AIInterviewSetup/interviewAIQuestion.tsx:99-108 | Every category empty at the click receives exactly its samples, every other category is unchanged, and all categories end up expanded. |
| InterviewQuestions.GenerateAllFromEmpty | src/lib/components/DataTables/Updated-Careers/AIInterviewSetup/interviewAIQuestion.tsx:99-108 | Generating for known, empty categories gives two questions each. |
| InterviewQuestions.ToggleCategory | src/lib/components/DataTables/Updated-Careers/AIInterviewSetup/interviewAIQuestion.tsx:110-116 | Flips membership of that id in the expanded set, and only that id. |
| InterviewQuestions.ToggleTwice | src/lib/components/DataTables/Updated-Careers/AIInterviewSetup/interviewAIQuestion.tsx:110-116 | Toggling twice is the identity. |
| InterviewQuestions.WarningClearedByGenerate | src/lib/components/DataTables/Updated-Careers/AIInterviewSetup/interviewAIQuestion.tsx:118 | The initial editor shows the warning when asked to. Generating all samples gives ten questions and clears it. |
| InterviewQuestions.Structure | src/lib/components/DataTables/Updated-Careers/AIInterviewSetup/interviewAIQuestion.tsx:40 | One report per category, in order, with its id, name and question texts. |
| InterviewQuestions.Emit | src/lib/components/DataTables/Updated-Careers/AIInterviewSetup/interviewAIQuestion.tsx:39-46 | The structure is sent exactly when it differs from the last one sent, and it becomes the last sent. |
| InterviewQuestions.EmitOnce | src/lib/components/DataTables/Updated-Careers/AIInterviewSetup/interviewAIQuestion.tsx:39-46 | An unchanged editor is not sent a second time. |
| Pipeline.InitialColumnsProperties | src/lib/components/DataTables/Updated-Careers/Pipeline/PipelineStage.tsx:239-244 | The four initial stages have distinct ids and are all locked and core. |
| Pipeline.AddCustomStage | src/lib/components/DataTables/Updated-Careers/Pipeline/PipelineStage.tsx:248-257 | Exactly one column is appended and the prefix is unchanged. It is unlocked and non-core, has the given title or "Custom Stage Example", and has two substages. The locked count is kept. |
| Pipeline.RemoveCustomStage | src/lib/components/DataTables/Updated-Careers/Pipeline/PipelineStage.tsx:262 | Exactly the columns with other ids remain, in order, every copy of each. An absent id changes nothing. |
| Pipeline.RemoveUndoesAdd | src/lib/components/DataTables/Updated-Careers/Pipeline/PipelineStage.tsx:248-262 | Removing a stage just added restores the board. |
| Pipeline.CoreCount | src/lib/components/DataTables/Updated-Careers/Pipeline/PipelineStage.tsx:263 | The core count equals the number of locked columns. |
| Pipeline.LockedFilterCount | src/lib/components/DataTables/Updated-Careers/Pipeline/PipelineStage.tsx:263 | The filtered list's length is the locked count. |
| Pipeline.FindIndex | src/lib/components/DataTables/Updated-Careers/Pipeline/PipelineStage.tsx:302-303 | -1 exactly when the id is absent; otherwise the first index with that id. |
| Pipeline.Move | src/lib/components/DataTables/Updated-Careers/Pipeline/PipelineStage.tsx:305-306 | The result is a permutation of the same length. The moved element lands at the target index. Removing it from there leaves the other elements in their original order. |
| Pipeline.MoveBack | src/lib/components/DataTables/Updated-Careers/Pipeline/PipelineStage.tsx:300-308 | Moving the element back undoes the move. |
| Pipeline.MoveKeepsCoreCount | src/lib/components/DataTables/Updated-Careers/Pipeline/PipelineStage.tsx:300-308 | A move keeps the number of locked columns. |
| Pipeline.DraggedId | src/lib/components/DataTables/Updated-Careers/Pipeline/PipelineStage.tsx:292-293 | The transferred id when non-empty, else the remembered one when non-empty, else nothing. |
| Pipeline.Drop | src/lib/components/DataTables/Updated-Careers/Pipeline/PipelineStage.tsx:290-312 | The columns always stay a permutation. A drop onto a column that is not unlocked for reordering changes nothing, since its `onDrop` only calls the handler when the column is draggable. Nothing changes either when nothing is dragged, on a self-drop, or when either id is absent. Otherwise the dragged column lands at the drop column's index and the rest keep their order. |
| Pipeline.LockedColumnRefusesDrop | src/lib/components/DataTables/Updated-Careers/Pipeline/PipelineStage.tsx:467-487 | A freshly added stage, a stage toggled twice, and every column after "Restore to default" refuse drops. |
| Pipeline.LastLockedIndex | src/lib/components/DataTables/Updated-Careers/Pipeline/PipelineStage.tsx:466 | The greatest index of a locked column, or -1 exactly when none is locked. |
| Pipeline.ToggleUnlock | src/lib/components/DataTables/Updated-Careers/Pipeline/PipelineStage.tsx:272-274 | Flips whether that column is unlocked; the other entries are unchanged. |
| Pipeline.ToggleUnlockTwice | src/lib/components/DataTables/Updated-Careers/Pipeline/PipelineStage.tsx:272-274 | Toggling twice restores whether every column can be dragged. |
| Pipeline.RegisterStage | src/lib/components/DataTables/Updated-Careers/Pipeline/PipelineStage.tsx:259 | A new stage starts locked for dragging; other columns keep their flag. |
| Pipeline.Restore | src/lib/components/DataTables/Updated-Careers/Pipeline/PipelineStage.tsx:438-441 | Restoring gives the four core columns, with nothing unlocked. |
| ReviewTiles.LastSetterWins | src/lib/components/DataTables/Updated-Careers/ReviewCareer/interviewAI.tsx:86-88 | A run of guarded setters ends with the last value that passes its guard, or the old value when none does. |
| ReviewTiles.TruthySetters | src/lib/components/DataTables/Updated-Careers/ReviewCareer/interviewAI.tsx:86-88 | Of three guarded setters, the last whose value is truthy decides the label, and with none truthy it is unchanged. The interview tile runs them for AIScreening, AIScreeningLabel and screeningLabel; the CV tile (cvscreeningtile.tsx:63-65) for cvScreening, screeningSetting and screeningLabel. |
| ReviewTiles.InterviewRequiresVideo | src/lib/components/DataTables/Updated-Careers/ReviewCareer/interviewAI.tsx:90 | The truthiness of the first present value of requireVideo, requriedvideo and requireVideoOnInterview; false if none is present. |
| ReviewTiles.InterviewBullets | src/lib/components/DataTables/Updated-Careers/ReviewCareer/interviewAI.tsx:92-94 | The first array among aiSecretBullets, secretBullets and AIsecretBullets, else unchanged. |
| ReviewTiles.ConvertQuestions | src/lib/components/DataTables/Updated-Careers/ReviewCareer/interviewAI.tsx:103 | One question per array element, and none for a non-array. |
| ReviewTiles.ConvertCategoriesFields | src/lib/components/DataTables/Updated-Careers/ReviewCareer/interviewAI.tsx:100-104 | One category per entry, in entry order, each built from its entry and position. |
| ReviewTiles.QuestionObjectFields | src/lib/components/DataTables/Updated-Careers/ReviewCareer/interviewAI.tsx:103 | A generated question has id key_i and the element's string form as text. |
| ReviewTiles.CategoryObjectFields | src/lib/components/DataTables/Updated-Careers/ReviewCareer/interviewAI.tsx:100-104 | A generated category has id key + index and title key. Its questions come from the value, and it counts the value's elements. |
| ReviewTiles.ConvertedCategory | src/lib/components/DataTables/Updated-Careers/ReviewCareer/interviewAI.tsx:99-105 | Category idx has id key+idx, title key, and one question per array element, with id key_i and text String(element). A non-array value gives no questions. |
| ReviewTiles.InterviewCategories | src/lib/components/DataTables/Updated-Careers/ReviewCareer/interviewAI.tsx:96-108 | An array is taken as is and an object is converted. Only otherwise is an array interviewCategories used; failing that, the categories are unchanged. |
| ReviewTiles.LoadInterviewTile | src/lib/components/DataTables/Updated-Careers/ReviewCareer/interviewAI.tsx:77-115 | Nothing changes without a career id, on a failed fetch, or for a null document. Otherwise every field is set as above. |
| ReviewTiles.TotalCount | src/lib/components/DataTables/Updated-Careers/ReviewCareer/interviewAI.tsx:122 | A total exists exactly when no category is null or undefined, since reading a property of one throws. |
| ReviewTiles.ConvertedTotal | src/lib/components/DataTables/Updated-Careers/ReviewCareer/interviewAI.tsx:99-122 | The total of a converted object is the number of elements in its array-valued entries. |
| ReviewTiles.ConvertedTotalWith | src/lib/components/DataTables/Updated-Careers/ReviewCareer/interviewAI.tsx:99-122 | Whatever ids the conversion assigns, the total is the number of elements in the array-valued entries. |
| ReviewTiles.TotalCountSnocCategory | src/lib/components/DataTables/Updated-Careers/ReviewCareer/interviewAI.tsx:100-104 | Appending one generated category adds the length of its value when that is an array, and 0 otherwise. |
| ReviewTiles.ConvertWithFields | src/lib/components/DataTables/Updated-Careers/ReviewCareer/interviewAI.tsx:100-104 | One category per entry, in entry order, with the id the id scheme gives for its key and position. |
| ReviewTiles.CategoryWithIdFields | src/lib/components/DataTables/Updated-Careers/ReviewCareer/interviewAI.tsx:100-104 | A category built from a key, an id and a value has that id and the key as title, and counts the value's elements. |
| ReviewTiles.TotalCountSnoc | src/lib/components/DataTables/Updated-Careers/ReviewCareer/interviewAI.tsx:122 | Appending a category adds its question count, with a missing list counting 0. |
| ReviewTiles.TotalCountConcat | src/lib/components/DataTables/Updated-Careers/AIInterviewSetup/interviewAI.tsx:112 | The total over two runs of categories is the sum of their totals. |
| ReviewTiles.InitialCvTile | src/lib/components/DataTables/Updated-Careers/ReviewCareer/cvscreeningtile.tsx:33-52 | Each given prop is shown as given. Absent props take the defaults: "Good Fit", the default prompt, the four default bullets and no questions. |
| ReviewTiles.DefaultsFillAbsentProps | src/lib/components/DataTables/Updated-Careers/ReviewCareer/cvscreeningtile.tsx:33-52 | Passing the default values explicitly shows the same tile as leaving those props out. |
| ReviewTiles.CvSecret | src/lib/components/DataTables/Updated-Careers/ReviewCareer/cvscreeningtile.tsx:67-68 | The first present of cvSecretPrompt, cvSecret and secretPrompt, used only when truthy. |
| ReviewTiles.CvBullets | src/lib/components/DataTables/Updated-Careers/ReviewCareer/cvscreeningtile.tsx:70-71 | An array secretBullets wins over an array cvSecretBullets; non-arrays are ignored. |
| ReviewTiles.CvQuestions | src/lib/components/DataTables/Updated-Careers/ReviewCareer/cvscreeningtile.tsx:73-82 | An array preScreenQuestions wins. Otherwise a string one is parsed and used only when it yields an array. Otherwise an array questions is used; failing that, the questions are unchanged. |
| ReviewTiles.UnparsedStringShadowsQuestions | src/lib/components/DataTables/Updated-Careers/ReviewCareer/cvscreeningtile.tsx:75-81 | A string that does not parse to an array keeps the questions, even when `questions` is an array. |
| ReviewTiles.LoadCvTile | src/lib/components/DataTables/Updated-Careers/ReviewCareer/cvscreeningtile.tsx:54-90 | Nothing changes without a career id, on a failed fetch, or for a null document. Otherwise each field is set as above. |
| ReviewTiles.LoadCvTileIdempotent | src/lib/components/DataTables/Updated-Careers/ReviewCareer/cvscreeningtile.tsx:54-90 | Loading the same document twice shows what loading it once does. |
| ReviewTiles.Initials | src/lib/components/DataTables/Updated-Careers/ReviewCareer/careertile.tsx:52-58 | As written: at most 2 characters, one per non-empty part among the first two space-separated parts. The first is the upper-cased first character of the first part, and the last that of the second part. |
| ReviewTiles.WordInitials | src/lib/components/DataTables/Updated-Careers/ReviewCareer/careertile.tsx:52-58 | Corrected: the upper-cased first characters of the first two non-empty words, one per word up to two. |
| ReviewTiles.InitialsOfPlainName | src/lib/components/DataTables/Updated-Careers/ReviewCareer/careertile.tsx:52-58 | The two agree when the first two parts are non-empty. |
| ReviewTiles.SplitDoubledSpace | src/lib/components/DataTables/Updated-Careers/ReviewCareer/careertile.tsx:54 | "a  b" splits into "a", an empty part, and "b". |
| ReviewTiles.DoubledSpaceLosesInitial | src/lib/components/DataTables/Updated-Careers/ReviewCareer/careertile.tsx:52-58 | For "a  b" the tile shows only "A", while the words' initials are "AB". |
| ReviewTiles.DisplaySalary | src/lib/components/DataTables/Updated-Careers/ReviewCareer/careertile.tsx:61-65 | "Negotiable" whenever negotiable. Otherwise "—" for a missing or blank value, and the value's string form otherwise. |
| ReviewTiles.ViewCareer | src/lib/components/DataTables/Updated-Careers/ReviewCareer/careertile.tsx:98-153 | Each field shows its value when present, else its placeholder: "Untitled", "Philippines", "No job description provided." or "—". Salaries go through DisplaySalary. |
| ReviewTiles.EmptyCareerShowsPlaceholders | src/lib/components/DataTables/Updated-Careers/ReviewCareer/careertile.tsx:98-153 | Absent data shows every placeholder. |
| ReviewTiles.ViewCareerPlaceholders | src/lib/components/DataTables/Updated-Careers/ReviewCareer/careertile.tsx:98-153 | Each text field shows its placeholder exactly when its value is null or undefined, or is the placeholder itself. Each salary shows "—" exactly when the career is not negotiable and the figure is missing, blank or itself "—". |
| ReviewTiles.RoleLabel | src/lib/components/DataTables/Updated-Careers/ReviewCareer/careertile.tsx:193 | A caption appears exactly for "owner" and "contributor". |
| ReviewTiles.RoleLabelMatchesPanel | src/lib/components/DataTables/Updated-Careers/ReviewCareer/careertile.tsx:193 | Owners and contributors get the panel's titles; reviewers get no caption. |
| Sidebar.FindByHref | src/app/recruiter-dashboard/layout.tsx:64 | The first entry with that href; nothing exactly when no entry has it. |
| Sidebar.LinkLabels | src/app/recruiter-dashboard/layout.tsx:12-55 | Every entry's label is one of the eight labels. |
| Sidebar.CareersFallbackFound | src/app/recruiter-dashboard/layout.tsx:70-74 | The careers fallback lookup always finds the Careers entry. |
| Sidebar.Resolve | src/app/recruiter-dashboard/layout.tsx:59-76 | The label is always one of the eight. With no match it is "Careers"; with a match it is the label of an entry whose href is the match path. |
| Sidebar.ActiveLink | src/app/recruiter-dashboard/layout.tsx:57-78 | An empty or absent path keeps the label; any other path gives one of the eight. |
| Sidebar.PageSegments | src/app/recruiter-dashboard/layout.tsx:59 | A dashboard page's path splits into three parts. |
| Sidebar.SectionSegments | src/app/recruiter-dashboard/layout.tsx:59 | "/a/b" splits into "", a and b. |
| Sidebar.DeepSegments | src/app/recruiter-dashboard/layout.tsx:59-66 | "/a/b/rest" splits into "", a, b and the parts of rest. |
| Sidebar.DeepPathMatchesSection | src/app/recruiter-dashboard/layout.tsx:63-66 | A longer path is matched on its first two segments, and a two-segment path whole. |
| Sidebar.DeepPathResolvesToSection | src/app/recruiter-dashboard/layout.tsx:65-68 | A path below a section highlights what the section does. |
| Sidebar.LinkSlugs | src/app/recruiter-dashboard/layout.tsx:12-55 | Every entry after the first is the page of a distinct, slash-free slug. |
| Sidebar.PageIsExact | src/app/recruiter-dashboard/layout.tsx:63-64 | A page's path has three parts, so it is matched whole. |
| Sidebar.EarlierHrefsDiffer | src/app/recruiter-dashboard/layout.tsx:60-64 | No entry before a page has that page's href. |
| Sidebar.PageSlugInjective | src/app/recruiter-dashboard/layout.tsx:12-55 | Different slugs give different page paths. |
| Sidebar.ExactPageResolves | src/app/recruiter-dashboard/layout.tsx:63-64 | Every sidebar page highlights its own entry. |
| Sidebar.CareersSubpageResolves | src/app/recruiter-dashboard/layout.tsx:65-68 | Any page below the careers list, such as the new-career form, highlights "Careers". |
| Sidebar.CareersEntry | src/app/recruiter-dashboard/layout.tsx:18-22 | The second entry is Careers at /recruiter-dashboard/careers. |

## Left out

- Numbers: JavaScript numbers are integers here. `Number()` reads signed decimal integers and the `0x`, `0o` and `0b` prefixes. Floating-point values, `Infinity`, fractional and exponent notation, and a `_` separator are not modelled. `Math.round` is applied only to integers or to k/7, where it is computed exactly.
- `toLowerCase` and `toUpperCase` map ASCII letters only. The directory and the patterns are ASCII.
- `Object.entries` is modelled in insertion order. The engine's re-ordering of integer-like keys to the front is not modelled, nor are prototype-inherited keys.
- `c.questions?.length` counts array elements and string characters. Any other value with a `length` property counts 0.
- The emission in `interviewAIQuestion.tsx:39-46` compares `JSON.stringify` output. The model compares the values, which is the same for these plain records.
- I/O is not modelled: network calls, MongoDB, `fetch`/axios, timers, toasts, localStorage, the DOM and drag-event plumbing, CSS, loading flags and the `mounted` guard. Their results are parameters.
- Dates: route.ts:100, 101 and 108 call `new Date()` three times, so the three dates may differ by a few milliseconds. The model takes one request time, `Env.now`, for all three.
- The store's `$lookup` join, `countDocuments` and `insertOne` are inputs (`AddCareer.Store`), not computed.
- Concurrency is not modelled: the check-then-act race between two add-career requests, and the stale `members` closure that `addMember` reads.
- Question and stage ids from `Date.now()`/`Math.random()` are not modelled. Question ids come from a counter, so they are fresh. Stage ids are parameters.
- The career payload of `createCareer` in `CareersTableV2.tsx:373-384` is not modelled: a `...formData` spread plus `Number(x || 0)` salaries, sent to an endpoint that is not part of this model. The AI-step payload is modelled as `Wizard.BuildPayload`.
- The "Save as Unpublished" buttons of the later steps are not modelled: `AIInterviewSetup/interviewAI.tsx:306-316`, `ReviewCareer/Review-Career.tsx:253-261` and `Pipeline/PipelineStage.tsx:390-398`. None has a guard. Each calls `createCareer("Unpublished")`, which posts the same four-field body as the step's other save. On the review step that body carries the never-set `""` prompt and `{}` questions, so this button, unlike "Publish", does post. Without a career id the add-career route refuses it like any of these bodies (`Wizard.StepSaveRefusedByRoute`).
- The `name = ""` default of `initials` for an undefined name is not modelled, since `Initials` takes a string.
- The CV tile's typed props are `Option` values; passing an explicit `undefined` is the same as omitting the prop.
- `AIinterviewtile.tsx` and `reviewpipeline.tsx` under `ReviewCareer/` are not part of this model. They are purely presentational, with hard-coded sample data.
- AddCareer.JobLimitTotal: a `NaN` plan limit yields exactly 3 and ignores the extra slots.
- Wizard.WizardJobSlots: the wizard's `(jobLimit || 3) + (extraJobSlots || 0)` differs from the route's limit for a plan limit of 0 and for a `NaN` plan limit with extra slots. Both are modelled, and `Wizard.WizardAndRouteLimits` states exactly where they differ. The stored limits are taken to be JS numbers, with `Some(NaN)` for a stored `NaN`. String limits are not modelled: the wizard applies no `Number()`, so a stored `"5"` gives `"5" + 0 == "50"` and a stored `"abc"` never fills the slots. `Wizard.WizardAndRouteLimits` holds only for number-typed stored values.
- AddCareer.Post: the replied `career` is the document as built. `insertOne` also adds `_id` to `careerDoc` in place, so the JSON reply of route.ts:120-128 carries an `_id` equal to `insertedId`, which the `Added` reply's `CareerDoc` does not hold.
- Saves after the first step: the AI-interview, review and pipeline steps compute a status but their `createCareer` never sends it. They post only the video flag, screening, secret prompt and questions. With a career id they post to `/api/update-career`, which is not part of this model. Without one they post to the add-career route, which refuses the body for its missing job title (`Wizard.StepSaveRefusedByRoute`). Their save decisions therefore state which toast or step follows, not what is stored.
- Wizard.BuildPayload: categories are assumed non-null objects, as the component's state type declares. A null category makes the reducer throw.
- ReviewTiles.TotalCount: `None` when a category is null or undefined, where the source throws during render.

## Findings

| source | as written | input that shows it | evidently intended | confidence | as-written member | corrected member |
|---|---|---|---|---|---|---|
| src/lib/components/DataTables/Updated-Careers/ReviewCareer/careertile.tsx:52-58 | `name.split(" ").map(n => n[0] \|\| "").slice(0, 2)` takes the first two parts. An empty part, from a leading or doubled space, uses up one of the two places. | the name "A  B" (two spaces) shows "A" | the initials of the first two words, "AB" | medium, not executed | ReviewTiles.Initials (counterexample ReviewTiles.DoubledSpaceLosesInitial) | ReviewTiles.WordInitials (agreement on plain names: ReviewTiles.InitialsOfPlainName) |
| src/lib/components/DataTables/Updated-Careers/ReviewCareer/Review-Career.tsx:74-79 | The review step keeps its own secret prompt and question list, both initialised empty and never set, and "Publish" (lines 209-229) checks them. | any state: "Publish" always refuses with "Please enter AI interview secret prompt.", the question payload is `{}`, and step 3 shows 0% | the review step uses the prompt and questions entered in the AI-interview step | high, not executed | Wizard.ReviewSaveAsWritten (counterexample Wizard.ReviewNeverSaves; also Wizard.ReviewPayloadAsWritten, Wizard.MountedPercentsAsWritten) | Wizard.ReviewSave (with Wizard.InterviewSaveImpliesReviewSave) |

=== FILE: add_career.dfy ===
/** The `POST /api/add-career` handler: required-field gating, organization
    lookup, the job-slot quota check, normalisation of the inserted career
    document and the mapping of thrown errors to a 500 reply.

    The store is not modelled; what the handler reads from it and whether each
    call throws are inputs (`Store`). */
module AddCareer {
  import opened Text
  import opened JsValues

  /** The body fields the handler requires, in the order it checks them. */
  const RequiredFields: seq<string> :=
    ["jobTitle", "description", "questions", "location", "workSetup", "orgID", "createdBy"]

  const InvalidOrgId := "Invalid orgID"
  const OrgNotFound := "Organization not found"
  const QuotaReached := "You have reached the maximum number of jobs for your plan"
  const DbConnectionFailed :=
    "Database connection failed. Check your MONGODB_URI and network connectivity."
  const AddedMessage := "Career added successfully"

  /** The joined organization record: its plan's `jobLimit` and its `extraJobSlots`,
      each `None` when the stored value is missing or null and otherwise the
      value after `Number(...)`. */
  datatype OrgDetails = OrgDetails(planJobLimit: Option<NumVal>, extraJobSlots: Option<NumVal>)

  /** What the store calls return, or the error each one throws. */
  datatype Store = Store(
    connect: Step<()>,
    lookup: Step<Option<OrgDetails>>,   // `None`: the aggregation found no organization
    activeCount: Step<nat>,             // careers of the organization whose status is "active" or "Published"
    insert: Step<Json>)                 // the inserted id

  /** Inputs from outside the handler's own logic: `ObjectId` parsing, the error a
      property read on a `null` body throws, the fresh career id and the clock. */
  datatype Env = Env(isObjectId: Json -> bool, nullBodyError: JsError, newId: string, now: int)

  /** The career document the handler inserts. */
  datatype CareerDoc = CareerDoc(
    id: string,
    jobTitle: Json, description: Json, questions: Json, location: Json, workSetup: Json,
    workSetupRemarks: Json,
    createdAt: int, updatedAt: int,
    lastEditedBy: Json, createdBy: Json,
    status: Json,
    screeningSetting: Json,
    orgID: Json,
    requireVideo: bool,
    lastActivityAt: int,
    salaryNegotiable: bool,
    minimumSalary: Json, maximumSalary: Json,
    country: Json, province: Json, employmentType: Json,
    teamAccess: Json)

  /** The JSON reply: an error with its HTTP status, or the added career (status 200). */
  datatype Reply =
    | Failure(status: nat, error: Json)
    | Added(message: string, career: CareerDoc, insertedId: Json)

  /** The reply together with the documents written to the careers collection. */
  datatype Outcome = Outcome(reply: Reply, inserted: seq<CareerDoc>)

  function StatusOf(r: Reply): nat {
    if r.Failure? then r.status else 200
  }

  /** The first required field whose value in `body` is falsy, if any. */
  function FirstMissing(body: Json): (r: Option<string>)
    ensures r.None? <==> forall i :: 0 <= i < |RequiredFields| ==> Truthy(Get(body, RequiredFields[i]))
    ensures r.Some? ==>
      exists i :: 0 <= i < |RequiredFields| && r.value == RequiredFields[i]
        && !Truthy(Get(body, RequiredFields[i]))
        && forall j :: 0 <= j < i ==> Truthy(Get(body, RequiredFields[j]))
  {
    FirstMissingOf(body, RequiredFields)
  }

  function FirstMissingOf(body: Json, keys: seq<string>): (r: Option<string>)
    ensures r.None? <==> forall i :: 0 <= i < |keys| ==> Truthy(Get(body, keys[i]))
    ensures r.Some? ==>
      exists i :: 0 <= i < |keys| && r.value == keys[i] && !Truthy(Get(body, keys[i]))
        && forall j :: 0 <= j < i ==> Truthy(Get(body, keys[j]))
  {
    if keys == [] then None
    else if !Truthy(Get(body, keys[0])) then Some(keys[0])
    else
      var r := FirstMissingOf(body, keys[1..]);
      if r.Some? then
        var i :| 0 <= i < |keys[1..]| && r.value == keys[1..][i] && !Truthy(Get(body, keys[1..][i]))
          && forall j :: 0 <= j < i ==> Truthy(Get(body, keys[1..][j]));
        assert keys[i + 1] == r.value;
        r
      else r
  }

  /** The organization's total job limit. A missing plan limit counts as 3; a
      plan limit that is `NaN` makes the total exactly 3, whatever the extra
      slots; otherwise the total is the plan limit plus the extra slots, where
      missing or `NaN` extra slots count as 0. */
  function JobLimitTotal(org: OrgDetails): (total: int)
    ensures org.planJobLimit == Some(NaN) ==> total == 3
    ensures org.planJobLimit != Some(NaN) ==>
      total == PlanLimitOrDefault(org) + ExtraSlotsOrZero(org)
    ensures org.planJobLimit.None? && org.extraJobSlots.None? ==> total == 3
  {
    var plan := if org.planJobLimit.None? then Finite(3) else org.planJobLimit.value;
    var extra := if org.extraJobSlots.None? then Finite(0) else org.extraJobSlots.value;
    if plan.NaN? then 3 else plan.n + (if extra.NaN? then 0 else extra.n)
  }

  function PlanLimitOrDefault(org: OrgDetails): int {
    match org.planJobLimit
    case None => 3
    case Some(NaN) => 3
    case Some(Finite(n)) => n
  }

  function ExtraSlotsOrZero(org: OrgDetails): int {
    match org.extraJobSlots
    case Some(Finite(n)) => n
    case _ => 0
  }

  /** The request body's properties that the handler copies into the document. */
  datatype CareerFields = CareerFields(
    jobTitle: Json, description: Json, questions: Json, location: Json, workSetup: Json,
    workSetupRemarks: Json, lastEditedBy: Json, createdBy: Json, status: Json,
    screeningSetting: Json, orgID: Json, requireVideo: Json, salaryNegotiable: Json,
    minimumSalary: Json, maximumSalary: Json, country: Json, province: Json,
    employmentType: Json, teamAccess: Json)

  /** `body.x` for each property the handler reads. */
  function ReadFields(body: Json): CareerFields {
    CareerFields(
      Get(body, "jobTitle"), Get(body, "description"), Get(body, "questions"),
      Get(body, "location"), Get(body, "workSetup"), Get(body, "workSetupRemarks"),
      Get(body, "lastEditedBy"), Get(body, "createdBy"), Get(body, "status"),
      Get(body, "screeningSetting"), Get(body, "orgID"), Get(body, "requireVideo"),
      Get(body, "salaryNegotiable"), Get(body, "minimumSalary"), Get(body, "maximumSalary"),
      Get(body, "country"), Get(body, "province"), Get(body, "employmentType"),
      Get(body, "teamAccess"))
  }

  /** `x || null`: a truthy value, or `null` in its place. */
  function OrNull(v: Json): (r: Json)
    ensures Truthy(v) ==> r == v
    ensures !Truthy(v) ==> r == Null
  {
    Or(v, Null)
  }

  /** The career document built from the copied properties: copied fields as
      they are, `|| null` fields truthy or null, the editor defaulting to the
      creator, the status to "active", salaries kept only when numbers, the
      team only when an array, and the flags as their truthiness. */
  function BuildDoc(f: CareerFields, env: Env): (d: CareerDoc)
    ensures d.id == env.newId && d.createdAt == d.updatedAt == d.lastActivityAt == env.now
    ensures d.jobTitle == f.jobTitle && d.orgID == f.orgID && d.createdBy == f.createdBy
    ensures d.description == f.description && d.questions == f.questions
    ensures d.location == f.location && d.workSetup == f.workSetup
    ensures Truthy(f.status) ==> d.status == f.status
    ensures !Truthy(f.status) ==> d.status == Str("active")
    ensures Truthy(f.lastEditedBy) ==> d.lastEditedBy == f.lastEditedBy
    ensures !Truthy(f.lastEditedBy) ==> d.lastEditedBy == f.createdBy
    ensures Truthy(f.workSetupRemarks) ==> d.workSetupRemarks == f.workSetupRemarks
    ensures !Truthy(f.workSetupRemarks) ==> d.workSetupRemarks == Null
    ensures Truthy(f.screeningSetting) ==> d.screeningSetting == f.screeningSetting
    ensures !Truthy(f.screeningSetting) ==> d.screeningSetting == Null
    ensures Truthy(f.country) ==> d.country == f.country
    ensures !Truthy(f.country) ==> d.country == Null
    ensures Truthy(f.province) ==> d.province == f.province
    ensures !Truthy(f.province) ==> d.province == Null
    ensures Truthy(f.employmentType) ==> d.employmentType == f.employmentType
    ensures !Truthy(f.employmentType) ==> d.employmentType == Null
    ensures f.minimumSalary.Num? ==> d.minimumSalary == f.minimumSalary
    ensures !f.minimumSalary.Num? ==> d.minimumSalary == Null
    ensures f.maximumSalary.Num? ==> d.maximumSalary == f.maximumSalary
    ensures !f.maximumSalary.Num? ==> d.maximumSalary == Null
    ensures f.teamAccess.Arr? ==> d.teamAccess == f.teamAccess
    ensures !f.teamAccess.Arr? ==> d.teamAccess == Arr([])
    ensures d.requireVideo == Truthy(f.requireVideo)
    ensures d.salaryNegotiable == Truthy(f.salaryNegotiable)
  {
    CareerDoc(
      id := env.newId,
      jobTitle := f.jobTitle,
      description := f.description,
      questions := f.questions,
      location := f.location,
      workSetup := f.workSetup,
      workSetupRemarks := OrNull(f.workSetupRemarks),
      createdAt := env.now,
      updatedAt := env.now,
      lastEditedBy := Or(f.lastEditedBy, f.createdBy),
      createdBy := f.createdBy,
      status := Or(f.status, Str("active")),
      screeningSetting := OrNull(f.screeningSetting),
      orgID := f.orgID,
      requireVideo := Truthy(f.requireVideo),
      lastActivityAt := env.now,
      salaryNegotiable := Truthy(f.salaryNegotiable),
      minimumSalary := if f.minimumSalary.Num? then f.minimumSalary else Null,
      maximumSalary := if f.maximumSalary.Num? then f.maximumSalary else Null,
      country := OrNull(f.country),
      province := OrNull(f.province),
      employmentType := OrNull(f.employmentType),
      teamAccess := if f.teamAccess.Arr? then f.teamAccess else Arr([]))
  }

  /** The career document built from a request body that passed the checks. */
  function NormaliseDoc(body: Json, env: Env): (d: CareerDoc)
    ensures d.jobTitle == Get(body, "jobTitle") && d.orgID == Get(body, "orgID")
    ensures d.createdBy == Get(body, "createdBy")
    ensures d.id == env.newId && d.createdAt == d.updatedAt == d.lastActivityAt == env.now
    ensures !Truthy(Get(body, "status")) ==> d.status == Str("active")
    ensures Truthy(Get(body, "status")) ==> d.status == Get(body, "status")
    ensures Truthy(d.status)
    ensures !Truthy(Get(body, "lastEditedBy")) ==> d.lastEditedBy == d.createdBy
    ensures Truthy(Get(body, "lastEditedBy")) ==> d.lastEditedBy == Get(body, "lastEditedBy")
    ensures d.description == Get(body, "description") && d.questions == Get(body, "questions")
    ensures d.location == Get(body, "location") && d.workSetup == Get(body, "workSetup")
    ensures d.workSetupRemarks == (if Truthy(Get(body, "workSetupRemarks")) then Get(body, "workSetupRemarks") else Null)
    ensures d.screeningSetting == (if Truthy(Get(body, "screeningSetting")) then Get(body, "screeningSetting") else Null)
    ensures d.country == (if Truthy(Get(body, "country")) then Get(body, "country") else Null)
    ensures d.province == (if Truthy(Get(body, "province")) then Get(body, "province") else Null)
    ensures d.employmentType == (if Truthy(Get(body, "employmentType")) then Get(body, "employmentType") else Null)
    ensures Get(body, "minimumSalary").Num? ==> d.minimumSalary == Get(body, "minimumSalary")
    ensures !Get(body, "minimumSalary").Num? ==> d.minimumSalary == Null
    ensures Get(body, "maximumSalary").Num? ==> d.maximumSalary == Get(body, "maximumSalary")
    ensures !Get(body, "maximumSalary").Num? ==> d.maximumSalary == Null
    ensures Get(body, "teamAccess").Arr? ==> d.teamAccess == Get(body, "teamAccess")
    ensures !Get(body, "teamAccess").Arr? ==> d.teamAccess == Arr([])
    ensures d.requireVideo == Truthy(Get(body, "requireVideo"))
    ensures d.salaryNegotiable == Truthy(Get(body, "salaryNegotiable"))
  {
    BuildDoc(ReadFields(body), env)
  }

  /** A `|| null` field: either a truthy value or `null`. */
  predicate TruthyOrNull(v: Json) {
    Truthy(v) || v == Null
  }

  /** What every inserted document satisfies: a truthy status, an editor that is
      truthy or the creator, salaries that are numbers or `null`, an array of
      team members, and the optional text fields truthy or `null`. */
  predicate Normalised(d: CareerDoc) {
    && Truthy(d.status)
    && (Truthy(d.lastEditedBy) || d.lastEditedBy == d.createdBy)
    && (d.minimumSalary.Num? || d.minimumSalary.Null?)
    && (d.maximumSalary.Num? || d.maximumSalary.Null?)
    && d.teamAccess.Arr?
    && TruthyOrNull(d.workSetupRemarks) && TruthyOrNull(d.screeningSetting)
    && TruthyOrNull(d.country) && TruthyOrNull(d.province) && TruthyOrNull(d.employmentType)
  }

  /** The stored document's properties, as a request carrying them would send
      them; the flags become booleans. */
  function DocFields(d: CareerDoc): CareerFields {
    CareerFields(
      d.jobTitle, d.description, d.questions, d.location, d.workSetup, d.workSetupRemarks,
      d.lastEditedBy, d.createdBy, d.status, d.screeningSetting, d.orgID, Bool(d.requireVideo),
      Bool(d.salaryNegotiable), d.minimumSalary, d.maximumSalary, d.country, d.province,
      d.employmentType, d.teamAccess)
  }

  /** Every document the handler builds is in normal form. */
  lemma BuildDocNormalised(f: CareerFields, env: Env)
    ensures Normalised(BuildDoc(f, env))
  {
  }

  /** A document already in normal form, sent back with the same id and clock,
      is rebuilt field for field. */
  lemma BuildNormalised(d: CareerDoc, env: Env)
    requires Normalised(d)
    requires d.id == env.newId && d.createdAt == d.updatedAt == d.lastActivityAt == env.now
    ensures BuildDoc(DocFields(d), env) == d
  {
  }

  /** Normalising is idempotent: resubmitting the properties of a document the
      handler built gives back that document. */
  lemma NormaliseDocIdempotent(body: Json, env: Env)
    ensures BuildDoc(DocFields(NormaliseDoc(body, env)), env) == NormaliseDoc(body, env)
  {
    BuildDocNormalised(ReadFields(body), env);
    BuildNormalised(NormaliseDoc(body, env), env);
  }

  /** The error message looks like a store connection failure: it matches
      `/timeout|ECONNREFUSED|MongoNetworkError|MongoNetworkTimeoutError/i`. The
      patterns are ASCII, so the `i` flag amounts to comparing ASCII-lower-cased
      text with the lower-cased alternatives. */
  predicate IsNetworkError(text: string) {
    var t := Lower(text);
    Contains(t, "timeout") || Contains(t, "econnrefused")
    || Contains(t, "mongonetworkerror") || Contains(t, "mongonetworktimeouterror")
  }

  /** The reply for an error that reached the handler's `catch`: always status
      500; connection failures get a fixed text, other errors pass their message
      through, and an error without a message gets "Internal server error". */
  function ServerError(e: JsError): (r: Reply)
    ensures r.Failure? && r.status == 500
    ensures IsNetworkError(JsString(Coalesce(e.message, Str("")))) ==> r.error == Str(DbConnectionFailed)
    ensures !IsNetworkError(JsString(Coalesce(e.message, Str("")))) ==>
      (Nullish(e.message) ==> r.error == Str("Internal server error"))
      && (!Nullish(e.message) ==> r.error == e.message)
  {
    var text := JsString(Coalesce(e.message, Str("")));
    if IsNetworkError(text) then Failure(500, Str(DbConnectionFailed))
    else Failure(500, Coalesce(e.message, Str("Internal server error")))
  }

  /** The `MongoNetworkTimeoutError` alternative adds nothing: every message it
      matches already contains `timeout`. */
  lemma NetworkTimeoutAlternativeRedundant(text: string)
    ensures IsNetworkError(text) <==>
      var t := Lower(text);
      Contains(t, "timeout") || Contains(t, "econnrefused") || Contains(t, "mongonetworkerror")
  {
    var m := "mongonetworktimeouterror";
    assert OccursAt(m, "timeout", 12);
    ContainsIffOccurs(m, "timeout");
    if Contains(Lower(text), m) {
      ContainsTransitive(Lower(text), m, "timeout");
    }
  }

  /** A parsed, non-nullish body without a truthy job title is refused for it, whatever
      else it holds and whatever the store would answer. */
  lemma MissingTitleRefused(body: Json, env: Env, store: Store)
    requires !Nullish(body) && !Truthy(Get(body, "jobTitle"))
    ensures Post(Done(body), env, store).reply == Failure(400, Str("jobTitle is required"))
    ensures Post(Done(body), env, store).inserted == []
  {
    assert RequiredFields[0] == "jobTitle";
    assert FirstMissingOf(body, RequiredFields) == Some("jobTitle");
    assert "jobTitle" + " is required" == "jobTitle is required";
  }

  /** The body parsed, is not null, has every required field and an ObjectId organization id. */
  predicate PassesChecks(body: Step<Json>, env: Env) {
    body.Done? && !Nullish(body.value) && FirstMissing(body.value).None? && env.isObjectId(Get(body.value, "orgID"))
  }

  /** Some step the handler reaches throws: the parse, reading a null body, or
      one of the four store calls, each reached only when the steps before it
      succeeded. */
  predicate SomethingThrew(body: Step<Json>, env: Env, store: Store) {
    || body.Threw?
    || (body.Done? && Nullish(body.value))
    || (PassesChecks(body, env) && (
          || store.connect.Threw?
          || (store.connect.Done? && store.lookup.Threw?)
          || (store.connect.Done? && store.lookup.Done? && store.lookup.value.Some? && (
                || store.activeCount.Threw?
                || (store.activeCount.Done? && store.activeCount.value < JobLimitTotal(store.lookup.value.value)
                    && store.insert.Threw?)))))
  }

  /** The handler. `body` is the parsed request body, or the error parsing threw. */
  function Post(body: Step<Json>, env: Env, store: Store): (out: Outcome)
    // at most one document is written, and only on success, and it is the reply's career
    ensures |out.inserted| <= 1
    ensures out.inserted != [] <==> out.reply.Added?
    ensures out.reply.Added? ==> out.inserted == [out.reply.career]
    ensures out.reply.Added? ==> out.reply.message == AddedMessage
    // a body that parsed and is missing a required field is rejected with that field's name
    ensures body.Done? && !Nullish(body.value) && FirstMissing(body.value).Some? ==>
      out.reply == Failure(400, Str(FirstMissing(body.value).value + " is required"))
    // an organization id that is not an ObjectId is rejected before the store is touched
    ensures (body.Done? && !Nullish(body.value) && FirstMissing(body.value).None?
      && !env.isObjectId(Get(body.value, "orgID"))) ==>
      out.reply == Failure(400, Str(InvalidOrgId))
    // an unknown organization is a 404
    ensures out.reply == Failure(404, Str(OrgNotFound)) <==>
      && body.Done? && !Nullish(body.value) && FirstMissing(body.value).None?
      && env.isObjectId(Get(body.value, "orgID"))
      && store.connect.Done? && store.lookup == Done(None)
    // success needs every check to pass, and the active count below the limit
    ensures out.reply.Added? <==>
      && body.Done? && !Nullish(body.value) && FirstMissing(body.value).None?
      && env.isObjectId(Get(body.value, "orgID"))
      && store.connect.Done? && store.lookup.Done? && store.lookup.value.Some?
      && store.activeCount.Done? && store.activeCount.value < JobLimitTotal(store.lookup.value.value)
      && store.insert.Done?
    ensures out.reply.Added? ==> out.reply.career == NormaliseDoc(body.value, env)
    // the quota: at or above the limit, the request is refused and nothing is written
    ensures (body.Done? && !Nullish(body.value) && FirstMissing(body.value).None?
      && env.isObjectId(Get(body.value, "orgID"))
      && store.connect.Done? && store.lookup.Done? && store.lookup.value.Some?
      && store.activeCount.Done? && store.activeCount.value >= JobLimitTotal(store.lookup.value.value)) ==>
      out.reply == Failure(400, Str(QuotaReached)) && out.inserted == []
    // every failure is a 400, a 404 or a 500
    ensures StatusOf(out.reply) in {200, 400, 404, 500}
    // whatever throws, first, is answered by the `catch`: a 500 built from that error
    ensures body.Threw? ==> out.reply == ServerError(body.error)
    ensures body.Done? && Nullish(body.value) ==> out.reply == ServerError(env.nullBodyError)
    ensures PassesChecks(body, env) && store.connect.Threw? ==> out.reply == ServerError(store.connect.error)
    ensures PassesChecks(body, env) && store.connect.Done? && store.lookup.Threw? ==>
      out.reply == ServerError(store.lookup.error)
    ensures (PassesChecks(body, env) && store.connect.Done? && store.lookup.Done? && store.lookup.value.Some?
      && store.activeCount.Threw?) ==>
      out.reply == ServerError(store.activeCount.error)
    ensures (PassesChecks(body, env) && store.connect.Done? && store.lookup.Done? && store.lookup.value.Some?
      && store.activeCount.Done? && store.activeCount.value < JobLimitTotal(store.lookup.value.value)
      && store.insert.Threw?) ==>
      out.reply == ServerError(store.insert.error)
    // and a 500 comes from nowhere else
    ensures StatusOf(out.reply) == 500 <==> SomethingThrew(body, env, store)
  {
    match body
    case Threw(e) => Outcome(ServerError(e), [])
    case Done(b) =>
      if Nullish(b) then Outcome(ServerError(env.nullBodyError), [])
      else if FirstMissing(b).Some? then
        Outcome(Failure(400, Str(FirstMissing(b).value + " is required")), [])
      else if !env.isObjectId(Get(b, "orgID")) then Outcome(Failure(400, Str(InvalidOrgId)), [])
      else if store.connect.Threw? then Outcome(ServerError(store.connect.error), [])
      else
        match store.lookup
        case Threw(e) => Outcome(ServerError(e), [])
        case Done(None) => Outcome(Failure(404, Str(OrgNotFound)), [])
        case Done(Some(org)) =>
          match store.activeCount
          case Threw(e) => Outcome(ServerError(e), [])
          case Done(count) =>
            if count >= JobLimitTotal(org) then Outcome(Failure(400, Str(QuotaReached)), [])
            else
              var doc := NormaliseDoc(b, env);
              match store.insert
              case Threw(e) => Outcome(ServerError(e), [])
              case Done(id) => Outcome(Added(AddedMessage, doc, id), [doc])
  }

  /** A career counts against the quota when it belongs to the organization and
      its status is "active" or "Published". */
  predicate CountsAgainstQuota(d: CareerDoc, orgID: Json) {
    d.orgID == orgID && (d.status == Str("active") || d.status == Str("Published"))
  }

  /** The number of careers in `docs` counting against the organization's quota. */
  function ActiveCount(docs: seq<CareerDoc>, orgID: Json): nat {
    if docs == [] then 0
    else ActiveCount(docs[..|docs| - 1], orgID) + (if CountsAgainstQuota(docs[|docs| - 1], orgID) then 1 else 0)
  }

  /** A career added without an explicit status, or with status "active" or
      "Published", raises its organization's active count by exactly one; a
      refused request leaves the count alone. */
  lemma {:induction false} AddedCareerCountsOnce(docs: seq<CareerDoc>, body: Json, env: Env, store: Store)
    requires !Truthy(Get(body, "status")) || Get(body, "status") in {Str("active"), Str("Published")}
    ensures var out := Post(Done(body), env, store);
      ActiveCount(docs + out.inserted, Get(body, "orgID")) == ActiveCount(docs, Get(body, "orgID")) + |out.inserted|
  {
    var out := Post(Done(body), env, store);
    if out.reply.Added? {
      var d := out.reply.career;
      assert (docs + out.inserted)[..|docs + out.inserted| - 1] == docs;
      assert CountsAgainstQuota(d, Get(body, "orgID"));
    } else {
      assert docs + out.inserted == docs;
    }
  }
}

=== FILE: interview_questions.dfy ===
/** The AI-interview question editor: five fixed categories, each with a list of
    questions, which the user fills by hand or from built-in samples. Question
    ids come from a counter, standing for the source's random id generator:
    each new id differs from every id handed out before. */
module InterviewQuestions {
  import opened JsValues
  import opened Seqs

  datatype Question = Question(id: nat, text: string)
  datatype Category = Category(id: string, name: string, questions: seq<Question>)

  /** The editor's state: the categories, the expanded category ids, the
      question being edited, and the next question id. */
  datatype Editor = Editor(categories: seq<Category>, expanded: set<string>, editing: Option<nat>, nextId: nat)

  /** The editor starts with five empty categories, all collapsed. */
  const InitialCategories: seq<Category> := [
    Category("cv-exp", "CV Validation / Experience", []),
    Category("technical", "Technical", []),
    Category("behavioral", "Behavioral", []),
    Category("analytical", "Analytical", []),
    Category("others", "Others", [])
  ]

  const InitialEditor := Editor(InitialCategories, {}, None, 0)

  /** The default for the least number of questions a save accepts. */
  const DefaultMinQuestions := 5

  /** The total number of questions over all categories. */
  function Total(cats: seq<Category>): nat
    decreases |cats|
  {
    if cats == [] then 0 else |cats[0].questions| + Total(cats[1..])
  }

  /** The number of categories with the id `id`. */
  function CountId(cats: seq<Category>, id: string): nat
    decreases |cats|
  {
    if cats == [] then 0 else (if cats[0].id == id then 1 else 0) + CountId(cats[1..], id)
  }

  ghost predicate UniqueCategoryIds(cats: seq<Category>) {
    forall i, j :: 0 <= i < j < |cats| ==> cats[i].id != cats[j].id
  }

  /** Every question id is below the counter, so the next id is fresh. */
  ghost predicate Fresh(e: Editor) {
    forall i, k :: 0 <= i < |e.categories| && 0 <= k < |e.categories[i].questions| ==>
      e.categories[i].questions[k].id < e.nextId
  }

  /** The question texts, in order. */
  function Texts(qs: seq<Question>): (ts: seq<string>)
    ensures |ts| == |qs|
    ensures forall k :: 0 <= k < |qs| ==> ts[k] == qs[k].text
  {
    seq(|qs|, k requires 0 <= k < |qs| => qs[k].text)
  }

  /** The initial state: five categories with distinct ids, no questions. */
  lemma InitialEditorProperties()
    ensures Total(InitialEditor.categories) == 0
    ensures |InitialEditor.categories| == 5
    ensures UniqueCategoryIds(InitialEditor.categories)
    ensures forall i :: 0 <= i < 5 ==> InitialCategories[i].questions == []
    ensures Fresh(InitialEditor)
  {
    UniqueByFirstLetters(InitialCategories, "ctbao");
  }

  /** Ids that start with pairwise different letters are distinct. */
  lemma UniqueByFirstLetters(cats: seq<Category>, firsts: string)
    requires |firsts| == |cats|
    requires forall i :: 0 <= i < |cats| ==> cats[i].id != [] && cats[i].id[0] == firsts[i]
    requires forall i, j :: 0 <= i < j < |firsts| ==> firsts[i] != firsts[j]
    ensures UniqueCategoryIds(cats)
  {
    forall i, j | 0 <= i < j < |cats| ensures cats[i].id != cats[j].id {
      assert cats[i].id[0] != cats[j].id[0];
    }
  }

  /* ------------------------ category-level edits ------------------------ */

  /** `prev.map(cat => cat.id === categoryId ? edit(cat) : cat)` on the question lists. */
  function MapCategory(cats: seq<Category>, catId: string, f: seq<Question> -> seq<Question>): (r: seq<Category>)
    ensures |r| == |cats|
    ensures forall i :: 0 <= i < |cats| ==> r[i].id == cats[i].id && r[i].name == cats[i].name
    ensures forall i :: 0 <= i < |cats| && cats[i].id != catId ==> r[i] == cats[i]
    ensures forall i :: 0 <= i < |cats| && cats[i].id == catId ==> r[i].questions == f(cats[i].questions)
  {
    seq(|cats|, i requires 0 <= i < |cats| =>
      if cats[i].id == catId then cats[i].(questions := f(cats[i].questions)) else cats[i])
  }

  /** Appending one question to each category with id `catId` adds one question per such category. */
  lemma {:induction false} TotalAfterAppend(cats: seq<Category>, catId: string, q: Question)
    ensures Total(MapCategory(cats, catId, qs => qs + [q])) == Total(cats) + CountId(cats, catId)
    decreases |cats|
  {
    if cats != [] {
      var f := (qs: seq<Question>) => qs + [q];
      TotalAfterAppend(cats[1..], catId, q);
      assert MapCategory(cats, catId, f)[1..] == MapCategory(cats[1..], catId, f);
    }
  }

  /** Category ids are distinct, so a category id occurs at most once. */
  lemma {:induction false} CountIdUnique(cats: seq<Category>, id: string)
    requires UniqueCategoryIds(cats)
    ensures CountId(cats, id) == (if exists i :: 0 <= i < |cats| && cats[i].id == id then 1 else 0)
    decreases |cats|
  {
    if cats != [] {
      CountIdUnique(cats[1..], id);
      if cats[0].id == id {
        assert forall i :: 1 <= i < |cats| ==> cats[i].id != id;
        assert forall i :: 0 <= i < |cats[1..]| ==> cats[1..][i].id != id;
      } else {
        assert forall i :: 0 <= i < |cats[1..]| ==> cats[1..][i] == cats[i + 1];
      }
    }
  }

  /** `addQuestionToCategory`: appends a question with a fresh id and the given
      text (empty when none) to the matching category, expands that category,
      and starts editing the new question when it has no text. */
  function AddQuestion(e: Editor, catId: string, text: Option<string>): (r: Editor)
    ensures |r.categories| == |e.categories|
    ensures forall i :: 0 <= i < |e.categories| ==>
      r.categories[i].id == e.categories[i].id && r.categories[i].name == e.categories[i].name
    ensures forall i :: 0 <= i < |e.categories| && e.categories[i].id != catId ==> r.categories[i] == e.categories[i]
    ensures forall i :: 0 <= i < |e.categories| && e.categories[i].id == catId ==>
      r.categories[i].questions ==
        e.categories[i].questions + [Question(e.nextId, if text.Some? then text.value else "")]
    ensures Total(r.categories) == Total(e.categories) + CountId(e.categories, catId)
    ensures r.expanded == e.expanded + {catId}
    ensures text.None? || text == Some("") ==> r.editing == Some(e.nextId)
    ensures text.Some? && text.value != "" ==> r.editing == e.editing
    ensures r.nextId == e.nextId + 1
    ensures Fresh(e) ==> Fresh(r)
  {
    var q := Question(e.nextId, if text.Some? then text.value else "");
    TotalAfterAppend(e.categories, catId, q);
    Editor(
      MapCategory(e.categories, catId, qs => qs + [q]),
      e.expanded + {catId},
      if text.None? || text.value == "" then Some(e.nextId) else e.editing,
      e.nextId + 1)
  }

  /** With distinct category ids the total grows by one exactly when the category exists. */
  lemma AddQuestionTotal(e: Editor, catId: string, text: Option<string>)
    requires UniqueCategoryIds(e.categories)
    ensures Total(AddQuestion(e, catId, text).categories) ==
      Total(e.categories) + (if exists i :: 0 <= i < |e.categories| && e.categories[i].id == catId then 1 else 0)
  {
    CountIdUnique(e.categories, catId);
  }

  /** `removeQuestion`: drops the questions with that id from the matching
      category, keeping its other questions in order; other categories are unchanged. */
  function RemoveQuestion(e: Editor, catId: string, qid: nat): (r: Editor)
    ensures r.expanded == e.expanded && r.editing == e.editing && r.nextId == e.nextId
    ensures |r.categories| == |e.categories|
    ensures forall i :: 0 <= i < |e.categories| ==>
      r.categories[i].id == e.categories[i].id && r.categories[i].name == e.categories[i].name
    ensures forall i :: 0 <= i < |e.categories| && e.categories[i].id != catId ==> r.categories[i] == e.categories[i]
    ensures forall i :: 0 <= i < |e.categories| && e.categories[i].id == catId ==>
      IsSubseq(r.categories[i].questions, e.categories[i].questions) &&
      forall q :: q in r.categories[i].questions <==> q in e.categories[i].questions && q.id != qid
    ensures forall i, q :: 0 <= i < |e.categories| && e.categories[i].id == catId ==>
      multiset(r.categories[i].questions)[q] == if q.id != qid then multiset(e.categories[i].questions)[q] else 0
    ensures Fresh(e) ==> Fresh(r)
  {
    var keep := (q: Question) => q.id != qid;
    var r := e.(categories := MapCategory(e.categories, catId, qs => Filter(qs, keep)));
    assert forall i, k :: 0 <= i < |r.categories| && 0 <= k < |r.categories[i].questions| ==>
      r.categories[i].questions[k] in r.categories[i].questions;
    forall i, q | 0 <= i < |e.categories| && e.categories[i].id == catId
      ensures multiset(r.categories[i].questions)[q] == if q.id != qid then multiset(e.categories[i].questions)[q] else 0
    {
      FilterCounts(e.categories[i].questions, keep, q);
    }
    r
  }

  /** Removing the question just added restores the categories. */
  lemma RemoveUndoesAdd(e: Editor, catId: string, text: Option<string>)
    requires Fresh(e)
    ensures RemoveQuestion(AddQuestion(e, catId, text), catId, e.nextId).categories == e.categories
  {
    var added := AddQuestion(e, catId, text);
    var r := RemoveQuestion(added, catId, e.nextId);
    var keep := (q: Question) => q.id != e.nextId;
    forall i | 0 <= i < |e.categories| && e.categories[i].id == catId
      ensures r.categories[i] == e.categories[i]
    {
      var qs := e.categories[i].questions;
      var q := Question(e.nextId, if text.Some? then text.value else "");
      FilterConcat(qs, [q], keep);
      assert Filter([q], keep) == [];
      assert Filter(qs, keep) == qs;
    }
  }

  /** The list with the text of the questions with id `qid` replaced. */
  function SetText(qs: seq<Question>, qid: nat, text: string): (r: seq<Question>)
    ensures |r| == |qs|
    ensures forall k :: 0 <= k < |qs| ==> r[k].id == qs[k].id
    ensures forall k :: 0 <= k < |qs| ==> r[k].text == (if qs[k].id == qid then text else qs[k].text)
  {
    seq(|qs|, k requires 0 <= k < |qs| => if qs[k].id == qid then qs[k].(text := text) else qs[k])
  }

  /** `updateQuestionText`: changes the text of the matching question of the
      matching category; ids, order and counts are unchanged. */
  function UpdateQuestionText(e: Editor, catId: string, qid: nat, text: string): (r: Editor)
    ensures r.expanded == e.expanded && r.editing == e.editing && r.nextId == e.nextId
    ensures |r.categories| == |e.categories|
    ensures forall i :: 0 <= i < |e.categories| ==>
      r.categories[i].id == e.categories[i].id && r.categories[i].name == e.categories[i].name &&
      |r.categories[i].questions| == |e.categories[i].questions|
    ensures forall i :: 0 <= i < |e.categories| && e.categories[i].id != catId ==> r.categories[i] == e.categories[i]
    ensures forall i, k :: 0 <= i < |e.categories| && e.categories[i].id == catId && 0 <= k < |e.categories[i].questions| ==>
      r.categories[i].questions[k] ==
        (if e.categories[i].questions[k].id == qid then Question(qid, text) else e.categories[i].questions[k])
  {
    e.(categories := MapCategory(e.categories, catId, qs => SetText(qs, qid, text)))
  }

  /** Editing a question keeps the total. */
  lemma {:induction false} UpdateKeepsTotal(cats: seq<Category>, catId: string, qid: nat, text: string)
    ensures Total(MapCategory(cats, catId, qs => SetText(qs, qid, text))) == Total(cats)
    decreases |cats|
  {
    if cats != [] {
      var f := (qs: seq<Question>) => SetText(qs, qid, text);
      UpdateKeepsTotal(cats[1..], catId, qid, text);
      assert MapCategory(cats, catId, f)[1..] == MapCategory(cats[1..], catId, f);
    }
  }

  /** Of two edits to the same question, the later text is the one kept. */
  lemma UpdateLastWins(e: Editor, catId: string, qid: nat, t1: string, t2: string)
    ensures UpdateQuestionText(UpdateQuestionText(e, catId, qid, t1), catId, qid, t2) ==
            UpdateQuestionText(e, catId, qid, t2)
  {
    var a := UpdateQuestionText(UpdateQuestionText(e, catId, qid, t1), catId, qid, t2);
    var b := UpdateQuestionText(e, catId, qid, t2);
    forall i | 0 <= i < |e.categories| ensures a.categories[i] == b.categories[i] {
      if e.categories[i].id == catId {
        assert a.categories[i].questions == b.categories[i].questions;
      }
    }
  }

  /* ----------------------------- samples ----------------------------- */

  /** The sample questions of each known category. */
  const SampleTable: seq<(string, seq<string>)> := [
    ("cv-exp", ["What specific experience do you have with Java solutions?", "Describe your experience with Java."]),
    ("technical", ["What programming languages are you most proficient in?", "Describe a challenging technical problem you solved recently."]),
    ("behavioral", ["Tell me about a time you worked in a team to achieve a goal.", "How do you handle conflicts with colleagues?"]),
    ("analytical", ["How do you approach problem-solving in your work?", "Describe a situation where you used data to make a decision."]),
    ("others", ["What motivates you in your career?", "Where do you see yourself in 5 years?"])
  ]

  /** `table[catId] || []`: the entry's samples, or none for an unknown id. The
      sample table's ids are distinct, so the entry found is the only one. */
  function SampleIn(table: seq<(string, seq<string>)>, catId: string): (r: seq<string>)
    ensures r == [] || exists k :: 0 <= k < |table| && table[k] == (catId, r)
    ensures (forall k :: 0 <= k < |table| ==> table[k].0 != catId) ==> r == []
    ensures (exists k :: 0 <= k < |table| && table[k].0 == catId) ==>
      exists k :: 0 <= k < |table| && table[k] == (catId, r)
    decreases |table|
  {
    if table == [] then []
    else if table[0].0 == catId then table[0].1
    else SampleIn(table[1..], catId)
  }

  /** The first entry with the id is the one found. */
  lemma {:induction false} SampleInFirstEntry(table: seq<(string, seq<string>)>, catId: string, k: nat)
    requires k < |table| && table[k].0 == catId
    requires forall j :: 0 <= j < k ==> table[j].0 != catId
    ensures SampleIn(table, catId) == table[k].1
    decreases k
  {
    if k > 0 {
      assert table[0].0 != catId;
      forall j | 0 <= j < k - 1
        ensures table[1..][j].0 != catId
      {
        assert table[1..][j] == table[j + 1];
      }
      SampleInFirstEntry(table[1..], catId, k - 1);
    }
  }

  function Sample(catId: string): seq<string> {
    SampleIn(SampleTable, catId)
  }

  /** A lookup in a table whose entries all hold two non-empty samples finds two
      non-empty samples for a key it has and none for any other. */
  lemma {:induction false} SampleInSizes(table: seq<(string, seq<string>)>, catId: string)
    requires forall k :: 0 <= k < |table| ==> |table[k].1| == 2 && table[k].1[0] != "" && table[k].1[1] != ""
    ensures |SampleIn(table, catId)| == (if exists k :: 0 <= k < |table| && table[k].0 == catId then 2 else 0)
    ensures forall k :: 0 <= k < |SampleIn(table, catId)| ==> SampleIn(table, catId)[k] != ""
  {
    var r := SampleIn(table, catId);
    if exists k :: 0 <= k < |table| && table[k].0 == catId {
      var k :| 0 <= k < |table| && table[k] == (catId, r);
      assert |table[k].1| == 2;
    }
  }

  /** Two non-empty samples for each of the five categories, none for any other id. */
  lemma SampleSizes(catId: string)
    ensures |Sample(catId)| == (if catId in Ids(InitialCategories) then 2 else 0)
    ensures forall k :: 0 <= k < |Sample(catId)| ==> Sample(catId)[k] != ""
  {
    assert forall k :: 0 <= k < |SampleTable| ==> SampleTable[k].0 == InitialCategories[k].id;
    SampleInSizes(SampleTable, catId);
    assert catId in Ids(InitialCategories) <==> exists k :: 0 <= k < |SampleTable| && SampleTable[k].0 == catId;
  }

  /** Adds one question per text, in order, to the matching category. */
  function AddAll(e: Editor, catId: string, texts: seq<string>): (r: Editor)
    ensures |r.categories| == |e.categories|
    ensures forall i :: 0 <= i < |e.categories| ==>
      r.categories[i].id == e.categories[i].id && r.categories[i].name == e.categories[i].name
    ensures forall i :: 0 <= i < |e.categories| && e.categories[i].id != catId ==> r.categories[i] == e.categories[i]
    ensures forall i :: 0 <= i < |e.categories| && e.categories[i].id == catId ==>
      |r.categories[i].questions| == |e.categories[i].questions| + |texts| &&
      r.categories[i].questions[..|e.categories[i].questions|] == e.categories[i].questions &&
      Texts(r.categories[i].questions) == Texts(e.categories[i].questions) + texts
    ensures r.expanded == (if texts == [] then e.expanded else e.expanded + {catId})
    ensures (forall k :: 0 <= k < |texts| ==> texts[k] != "") ==> r.editing == e.editing
    ensures r.nextId == e.nextId + |texts|
    ensures Fresh(e) ==> Fresh(r)
    decreases |texts|
  {
    if texts == [] then e
    else
      var e1 := AddQuestion(e, catId, Some(texts[0]));
      var r := AddAll(e1, catId, texts[1..]);
      forall i | 0 <= i < |e.categories| && e.categories[i].id == catId
        ensures |r.categories[i].questions| == |e.categories[i].questions| + |texts|
        ensures r.categories[i].questions[..|e.categories[i].questions|] == e.categories[i].questions
        ensures Texts(r.categories[i].questions) == Texts(e.categories[i].questions) + texts
      {
        AppendThenExtend(e.categories[i].questions, Question(e.nextId, texts[0]), r.categories[i].questions, texts);
      }
      r
  }

  /** One question appended and then `rest` more: the old questions are a
      prefix and the texts grow by the first text followed by the rest. */
  lemma AppendThenExtend(qs: seq<Question>, q: Question, final: seq<Question>, texts: seq<string>)
    requires texts != [] && q.text == texts[0]
    requires |final| == |qs| + 1 + |texts[1..]|
    requires final[..|qs| + 1] == qs + [q]
    requires Texts(final) == Texts(qs + [q]) + texts[1..]
    ensures |final| == |qs| + |texts|
    ensures final[..|qs|] == qs
    ensures Texts(final) == Texts(qs) + texts
  {
    assert final[..|qs|] == (qs + [q])[..|qs|];
    assert Texts(qs + [q]) == Texts(qs) + [texts[0]];
    assert [texts[0]] + texts[1..] == texts;
  }

  /** Appends `texts`, in order, to the matching category and expands it. */
  function AppendSamples(e: Editor, catId: string, texts: seq<string>): (r: Editor)
    ensures |r.categories| == |e.categories|
    ensures forall i :: 0 <= i < |e.categories| ==>
      r.categories[i].id == e.categories[i].id && r.categories[i].name == e.categories[i].name
    ensures forall i :: 0 <= i < |e.categories| && e.categories[i].id != catId ==> r.categories[i] == e.categories[i]
    ensures forall i :: 0 <= i < |e.categories| && e.categories[i].id == catId ==>
      |r.categories[i].questions| == |e.categories[i].questions| + |texts| &&
      r.categories[i].questions[..|e.categories[i].questions|] == e.categories[i].questions &&
      Texts(r.categories[i].questions) == Texts(e.categories[i].questions) + texts
    ensures r.expanded == e.expanded + {catId}
    ensures (forall k :: 0 <= k < |texts| ==> texts[k] != "") ==> r.editing == e.editing
    ensures Fresh(e) ==> Fresh(r)
  {
    var r := AddAll(e, catId, texts);
    r.(expanded := r.expanded + {catId})
  }

  /** `generateQuestionsForCategory`: appends the category's samples, in order,
      and expands it. */
  function GenerateForCategory(e: Editor, catId: string): (r: Editor)
    ensures |r.categories| == |e.categories|
    ensures forall i :: 0 <= i < |e.categories| ==>
      r.categories[i].id == e.categories[i].id && r.categories[i].name == e.categories[i].name
    ensures forall i :: 0 <= i < |e.categories| && e.categories[i].id != catId ==> r.categories[i] == e.categories[i]
    ensures forall i :: 0 <= i < |e.categories| && e.categories[i].id == catId ==>
      |r.categories[i].questions| == |e.categories[i].questions| + |Sample(catId)| &&
      r.categories[i].questions[..|e.categories[i].questions|] == e.categories[i].questions &&
      Texts(r.categories[i].questions) == Texts(e.categories[i].questions) + Sample(catId)
    ensures r.expanded == e.expanded + {catId}
    ensures r.editing == e.editing
    ensures Fresh(e) ==> Fresh(r)
  {
    SampleSizes(catId);
    AppendSamples(e, catId, Sample(catId))
  }

  /** Some category of the snapshot `snap` has id `id` and no questions. */
  predicate EmptyIn(snap: seq<Category>, id: string) {
    exists j :: 0 <= j < |snap| && snap[j].id == id && |snap[j].questions| == 0
  }

  function Ids(cats: seq<Category>): set<string> {
    set i | 0 <= i < |cats| :: cats[i].id
  }

  /** `generateAllQuestions`' loop over the snapshot `snap`, for any sample
      lookup: `sample(id)` is appended to each snapshot category that was
      empty, and every snapshot category is expanded. */
  function GenerateFromWith(e: Editor, snap: seq<Category>, sample: string -> seq<string>): (r: Editor)
    ensures |r.categories| == |e.categories|
    ensures forall i :: 0 <= i < |e.categories| ==>
      r.categories[i].id == e.categories[i].id && r.categories[i].name == e.categories[i].name
    ensures UniqueCategoryIds(snap) ==>
      forall i :: 0 <= i < |e.categories| && !EmptyIn(snap, e.categories[i].id) ==> r.categories[i] == e.categories[i]
    ensures UniqueCategoryIds(snap) ==>
      forall i :: 0 <= i < |e.categories| && EmptyIn(snap, e.categories[i].id) ==>
        Texts(r.categories[i].questions) == Texts(e.categories[i].questions) + sample(e.categories[i].id)
    ensures r.expanded == e.expanded + Ids(snap)
    ensures Fresh(e) ==> Fresh(r)
    decreases |snap|
  {
    if snap == [] then
      assert Ids(snap) == {};
      e
    else
      var c := snap[0];
      SnapshotCons(snap);
      if |c.questions| == 0 then
        var e1 := AppendSamples(e, c.id, sample(c.id));
        GenerateFromWith(e1.(expanded := e1.expanded + {c.id}), snap[1..], sample)
      else
        GenerateFromWith(e.(expanded := e.expanded + {c.id}), snap[1..], sample)
  }

  /** Runs `generateAllQuestions`' loop over the snapshot `snap` with the sample
      table: samples are generated for each snapshot category that was empty,
      and every snapshot category is expanded. */
  function GenerateFrom(e: Editor, snap: seq<Category>): (r: Editor)
    ensures |r.categories| == |e.categories|
    ensures forall i :: 0 <= i < |e.categories| ==>
      r.categories[i].id == e.categories[i].id && r.categories[i].name == e.categories[i].name
    ensures UniqueCategoryIds(snap) ==>
      forall i :: 0 <= i < |e.categories| && !EmptyIn(snap, e.categories[i].id) ==> r.categories[i] == e.categories[i]
    ensures UniqueCategoryIds(snap) ==>
      forall i :: 0 <= i < |e.categories| && EmptyIn(snap, e.categories[i].id) ==>
        Texts(r.categories[i].questions) == Texts(e.categories[i].questions) + Sample(e.categories[i].id)
    ensures r.expanded == e.expanded + Ids(snap)
    ensures Fresh(e) ==> Fresh(r)
  {
    GenerateFromWith(e, snap, Sample)
  }

  /** How the snapshot's first category and the rest make up its ids and empty categories. */
  lemma SnapshotCons(snap: seq<Category>)
    requires snap != []
    ensures Ids(snap) == {snap[0].id} + Ids(snap[1..])
    ensures forall id :: EmptyIn(snap, id) <==> (snap[0].id == id && |snap[0].questions| == 0) || EmptyIn(snap[1..], id)
    ensures UniqueCategoryIds(snap) ==> !EmptyIn(snap[1..], snap[0].id) && UniqueCategoryIds(snap[1..])
  {
    assert forall i :: 1 <= i < |snap| ==> snap[i] == snap[1..][i - 1];
    forall id | EmptyIn(snap, id) && !(snap[0].id == id && |snap[0].questions| == 0)
      ensures EmptyIn(snap[1..], id)
    {
      var j :| 0 <= j < |snap| && snap[j].id == id && |snap[j].questions| == 0;
      assert snap[1..][j - 1] == snap[j];
    }
  }

  /** `generateAllQuestions`: every category that was empty when it was clicked
      receives its samples, every other category is untouched, and all
      categories end up expanded. */
  function GenerateAll(e: Editor): (r: Editor)
    ensures |r.categories| == |e.categories|
    ensures UniqueCategoryIds(e.categories) ==>
      forall i :: 0 <= i < |e.categories| ==>
        r.categories[i].id == e.categories[i].id &&
        (|e.categories[i].questions| == 0 ==> Texts(r.categories[i].questions) == Sample(e.categories[i].id)) &&
        (|e.categories[i].questions| > 0 ==> r.categories[i] == e.categories[i])
    ensures r.expanded == e.expanded + Ids(e.categories)
    ensures Fresh(e) ==> Fresh(r)
  {
    var r := GenerateFrom(e, e.categories);
    EmptyInOwn(e.categories);
    assert forall i :: 0 <= i < |e.categories| && |e.categories[i].questions| == 0 ==>
      Texts(e.categories[i].questions) == [];
    r
  }

  /** With distinct ids, a category is empty in its own list exactly when it has no questions. */
  lemma EmptyInOwn(cats: seq<Category>)
    ensures UniqueCategoryIds(cats) ==>
      forall i :: 0 <= i < |cats| ==> (EmptyIn(cats, cats[i].id) <==> |cats[i].questions| == 0)
  {
  }

  /** Categories of `n` questions each hold `n` times as many questions as there are categories. */
  lemma {:induction false} TotalUniform(cats: seq<Category>, n: nat)
    requires forall i :: 0 <= i < |cats| ==> |cats[i].questions| == n
    ensures Total(cats) == n * |cats|
    decreases |cats|
  {
    if cats != [] {
      assert forall i :: 0 <= i < |cats[1..]| ==> cats[1..][i] == cats[i + 1];
      TotalUniform(cats[1..], n);
    }
  }

  /** Generating everything in an editor whose categories are the known ones,
      all empty, gives each category its two samples. */
  lemma GenerateAllFromEmpty(e: Editor)
    requires UniqueCategoryIds(e.categories)
    requires forall i :: 0 <= i < |e.categories| ==>
      |e.categories[i].questions| == 0 && e.categories[i].id in Ids(InitialCategories)
    ensures Total(GenerateAll(e).categories) == 2 * |e.categories|
  {
    var r := GenerateAll(e);
    forall i | 0 <= i < |r.categories| ensures |r.categories[i].questions| == 2 {
      var id := e.categories[i].id;
      SampleSizes(id);
      assert |Texts(r.categories[i].questions)| == |Sample(id)|;
    }
    TotalUniform(r.categories, 2);
  }

  /* -------------------------- expanded set, warning -------------------------- */

  /** `toggleCategory`: flips whether the category is expanded. */
  function ToggleCategory(e: Editor, catId: string): (r: Editor)
    ensures catId in r.expanded <==> catId !in e.expanded
    ensures forall id :: id != catId ==> (id in r.expanded <==> id in e.expanded)
    ensures r.categories == e.categories && r.editing == e.editing && r.nextId == e.nextId
  {
    e.(expanded := if catId in e.expanded then e.expanded - {catId} else e.expanded + {catId})
  }

  /** Toggling a category twice leaves the editor as it was. */
  lemma ToggleTwice(e: Editor, catId: string)
    ensures ToggleCategory(ToggleCategory(e, catId), catId) == e
  {
    var r := ToggleCategory(ToggleCategory(e, catId), catId);
    assert r.expanded == e.expanded;
  }

  /** The warning is shown only when asked for and while there are too few questions. */
  predicate ShowMinWarning(showWarning: bool, total: nat, minRequired: int) {
    showWarning && total < minRequired
  }

  /** An editor in the initial shape (the five known categories, all empty)
      shows the warning when asked to; generating all samples fills it with ten
      questions and silences the warning for the default minimum. */
  lemma WarningClearedByGenerate(e: Editor)
    requires e.categories == InitialCategories
    ensures ShowMinWarning(true, Total(e.categories), DefaultMinQuestions)
    ensures Total(GenerateAll(e).categories) == 10
    ensures !ShowMinWarning(true, Total(GenerateAll(e).categories), DefaultMinQuestions)
  {
    InitialShape(e);
    GenerateAllFromEmpty(e);
  }

  /** An editor with the initial categories has five empty categories with
      distinct, known ids. */
  lemma InitialShape(e: Editor)
    requires e.categories == InitialCategories
    ensures UniqueCategoryIds(e.categories) && |e.categories| == 5 && Total(e.categories) == 0
    ensures forall i :: 0 <= i < |e.categories| ==>
      |e.categories[i].questions| == 0 && e.categories[i].id in Ids(InitialCategories)
  {
    InitialEditorProperties();
  }

  /* --------------------------- structure emission --------------------------- */

  /** What the editor reports to the step: each category's id, name and texts. */
  datatype Reported = Reported(categoryId: string, categoryName: string, questions: seq<string>)

  function Structure(cats: seq<Category>): (s: seq<Reported>)
    ensures |s| == |cats|
    ensures forall i :: 0 <= i < |cats| ==> s[i] == Reported(cats[i].id, cats[i].name, Texts(cats[i].questions))
  {
    seq(|cats|, i requires 0 <= i < |cats| => Reported(cats[i].id, cats[i].name, Texts(cats[i].questions)))
  }

  /** The last structure sent, and what is sent now, if anything. */
  datatype Emission = Emission(lastSent: Option<seq<Reported>>, sent: Option<seq<Reported>>)

  /** The structure is sent only when it differs from the last one sent; the
      serialised form is compared, which for these values is the same as
      comparing the values. */
  function Emit(lastSent: Option<seq<Reported>>, cats: seq<Category>): (r: Emission)
    ensures r.lastSent == Some(Structure(cats))
    ensures r.sent.Some? <==> lastSent != Some(Structure(cats))
    ensures r.sent.Some? ==> r.sent.value == Structure(cats)
  {
    var s := Structure(cats);
    if lastSent != Some(s) then Emission(Some(s), Some(s)) else Emission(lastSent, None)
  }

  /** An unchanged editor is reported once, not on every render. */
  lemma EmitOnce(lastSent: Option<seq<Reported>>, cats: seq<Category>)
    ensures Emit(Emit(lastSent, cats).lastSent, cats).sent.None?
  {
  }
}

=== FILE: js_values.dfy ===
/** JavaScript values as the components see them: request bodies, stored career
    documents and form fields. Truthiness, the `??` and `||` operators, property
    reads, `String(v)` and `Number(s)` are spelled out here once and used by
    every other module. */
module JsValues {
  import opened Text

  datatype Option<+T> = None | Some(value: T)

  /** A JSON-like JavaScript value. Numbers are integers; an object keeps its
      entries in insertion order. */
  datatype Json =
    | Undefined
    | Null
    | Bool(b: bool)
    | Num(n: int)
    | Str(s: string)
    | Arr(items: seq<Json>)
    | Obj(fields: seq<(string, Json)>)

  /** The outcome of a call that may throw: its value, or the thrown error. */
  datatype Step<+T> = Done(value: T) | Threw(error: JsError)

  /** A thrown value, seen through its `message` property (`Undefined` when it has none). */
  datatype JsError = JsError(message: Json)

  /** `Boolean(v)`. */
  predicate Truthy(v: Json) {
    match v
    case Undefined => false
    case Null => false
    case Bool(b) => b
    case Num(n) => n != 0
    case Str(s) => s != ""
    case Arr(_) => true
    case Obj(_) => true
  }

  /** `v === undefined || v === null`. */
  predicate Nullish(v: Json) {
    v.Undefined? || v.Null?
  }

  /** `a ?? b`. */
  function Coalesce(a: Json, b: Json): (r: Json)
    ensures Nullish(a) ==> r == b
    ensures !Nullish(a) ==> r == a
  {
    if Nullish(a) then b else a
  }

  /** `a || b`. */
  function Or(a: Json, b: Json): (r: Json)
    ensures Truthy(a) ==> r == a
    ensures !Truthy(a) ==> r == b
  {
    if Truthy(a) then a else b
  }

  /** The value stored under `key` in an entry list (the first such entry), or `Undefined`. */
  function Lookup(fields: seq<(string, Json)>, key: string): (r: Json)
    ensures r != Undefined ==> exists i :: 0 <= i < |fields| && fields[i] == (key, r)
    ensures (forall i :: 0 <= i < |fields| ==> fields[i].0 != key) ==> r == Undefined
  {
    if fields == [] then Undefined
    else if fields[0].0 == key then fields[0].1
    else Lookup(fields[1..], key)
  }

  /** `v[key]` for a value that is not `null` or `undefined` (reading a property of
      those throws; callers deal with that first). Only objects have named properties here. */
  function Get(v: Json, key: string): Json {
    if v.Obj? then Lookup(v.fields, key) else Undefined
  }

  /** The first value of `vs` that satisfies `p`, if any. */
  function FirstWhere(vs: seq<Json>, p: Json -> bool): (r: Option<Json>)
    ensures r.Some? ==> p(r.value) && r.value in vs
    ensures r.None? <==> forall i :: 0 <= i < |vs| ==> !p(vs[i])
    decreases |vs|
  {
    if vs == [] then None
    else if p(vs[0]) then Some(vs[0])
    else FirstWhere(vs[1..], p)
  }

  /** The first truthy value of `vs`, if any: what a chain `a || b || ...` picks. */
  function FirstTruthy(vs: seq<Json>): (r: Option<Json>)
    ensures r.Some? ==> Truthy(r.value) && r.value in vs
    ensures r.None? <==> forall i :: 0 <= i < |vs| ==> !Truthy(vs[i])
  {
    FirstWhere(vs, Truthy)
  }

  /** Three alternatives tried in order. */
  lemma FirstWhereOfThree(a: Json, b: Json, c: Json, p: Json -> bool)
    ensures FirstWhere([a, b, c], p) ==
      if p(a) then Some(a) else if p(b) then Some(b) else if p(c) then Some(c) else None
  {
    assert [c][1..] == [];
    assert FirstWhere([c], p) == if p(c) then Some(c) else None;
    assert [b, c][1..] == [c];
    assert FirstWhere([b, c], p) == if p(b) then Some(b) else FirstWhere([c], p);
    assert [a, b, c][1..] == [b, c];
  }

  /** Looking up a key in an object written field by field. */
  lemma LookupCons(k: string, v: Json, rest: seq<(string, Json)>, key: string)
    ensures Lookup([(k, v)] + rest, key) == if k == key then v else Lookup(rest, key)
  {
    assert ([(k, v)] + rest)[1..] == rest;
  }

  /** The option's value, or `d` when there is none. */
  function OrElse(o: Option<Json>, d: Json): Json {
    if o.Some? then o.value else d
  }

  /** `String(v)`. Array elements that are `null` or `undefined` print as empty. */
  function JsString(v: Json): string
    decreases v
  {
    match v
    case Undefined => "undefined"
    case Null => "null"
    case Bool(b) => if b then "true" else "false"
    case Num(n) => IntToString(n)
    case Str(s) => s
    case Arr(items) =>
      Join(seq(|items|, i requires 0 <= i < |items| =>
                 if Nullish(items[i]) then "" else JsString(items[i])), ",")
    case Obj(_) => "[object Object]"
  }

  /** A JavaScript number after coercion: `NaN` or an integer. */
  datatype NumVal = NaN | Finite(n: int)

  /** `Number(s)` on a form field: surrounding white space is ignored, the empty
      string is 0, an optionally signed run of decimal digits is its value, an
      unsigned `0x`, `0o` or `0b` prefix (either case) followed by at least one
      digit of that radix is the number they write, and anything else is `NaN`. */
  function ParseNumber(s: string): (r: NumVal)
    ensures Trim(s) == "" ==> r == Finite(0)
  {
    var t := Trim(s);
    var radix := PrefixRadix(t);
    if t == "" then Finite(0)
    else if AllDigits(t) then Finite(DigitsValue(t))
    else if |t| > 1 && t[0] == '-' && AllDigits(t[1..]) then Finite(-(DigitsValue(t[1..]) as int))
    else if |t| > 1 && t[0] == '+' && AllDigits(t[1..]) then Finite(DigitsValue(t[1..]))
    else if radix > 0 && |t| > 2 && AllRadixDigits(t[2..], radix) then Finite(RadixValue(t[2..], radix))
    else NaN
  }

  /** The radix that a `0x`, `0o` or `0b` prefix names (16, 8, 2), or 0 for none. */
  function PrefixRadix(t: string): (radix: nat)
    ensures radix in {0, 2, 8, 16}
  {
    if |t| < 2 || t[0] != '0' then 0
    else if t[1] == 'x' || t[1] == 'X' then 16
    else if t[1] == 'o' || t[1] == 'O' then 8
    else if t[1] == 'b' || t[1] == 'B' then 2
    else 0
  }

  /** The value of a hexadecimal digit in either case, or -1 for any other character. */
  function HexDigitValue(c: char): (v: int)
    ensures -1 <= v < 16
  {
    if '0' <= c <= '9' then c as int - '0' as int
    else if 'a' <= c <= 'f' then c as int - 'a' as int + 10
    else if 'A' <= c <= 'F' then c as int - 'A' as int + 10
    else -1
  }

  predicate AllRadixDigits(s: string, radix: nat) {
    forall i :: 0 <= i < |s| ==> 0 <= HexDigitValue(s[i]) < radix
  }

  /** The number that a run of digits writes in the given radix. */
  function RadixValue(s: string, radix: nat): nat
    requires AllRadixDigits(s, radix)
    decreases |s|
  {
    if s == [] then 0
    else
      assert 0 <= HexDigitValue(s[|s| - 1]) < radix;
      RadixValue(s[..|s| - 1], radix) * radix + HexDigitValue(s[|s| - 1])
  }

  /** `Number` reads `0x`, `0o` and `0b` (either case) followed by digits of
      that radix as the number they write. */
  lemma ParseRadixPrefix(x: char, digits: string)
    requires PrefixRadix(['0', x]) > 0
    requires digits != [] && AllRadixDigits(digits, PrefixRadix(['0', x]))
    ensures ParseNumber(['0', x] + digits) == Finite(RadixValue(digits, PrefixRadix(['0', x])))
  {
    var t := ['0', x] + digits;
    assert 0 <= HexDigitValue(t[|t| - 1]);
    NoSpaceTrim(t);
    assert !IsDigit(t[1]);
    assert t[2..] == digits;
    assert PrefixRadix(t) == PrefixRadix(['0', x]);
  }

  predicate AllDigits(s: string) {
    forall i :: 0 <= i < |s| ==> IsDigit(s[i])
  }

  /** `Number(String(n)) === n`: the decimal form of an integer reads back as itself. */
  lemma ParseIntToString(n: int)
    ensures ParseNumber(IntToString(n)) == Finite(n)
  {
    var s := IntToString(n);
    if n < 0 {
      var d := NatToString(-n);
      assert s[1..] == d;
      assert !IsDigit(s[0]);
      assert !AllDigits(s);
      DigitsOfNatToString(-n);
      NoSpaceTrim(s);
    } else {
      DigitsOfNatToString(n);
      NoSpaceTrim(s);
    }
  }

  /** A string that starts and ends with a non-space character is its own trim. */
  lemma NoSpaceTrim(s: string)
    requires s != [] && !IsSpace(s[0]) && !IsSpace(s[|s| - 1])
    ensures Trim(s) == s
  {
  }
}

=== FILE: pipeline.dfy ===
/** The pipeline step: the ordered stage columns a candidate moves through.
    Core stages are locked; custom stages can be added and removed, and columns
    can be reordered by dragging one onto another. */
module Pipeline {
  import opened JsValues
  import opened Seqs

  datatype Column = Column(id: string, title: string, locked: bool, core: bool, substages: seq<string>)

  /** The four core stages a new career starts with. */
  const InitialColumns: seq<Column> := [
    Column("cv-screening", "CV Screening", true, true, ["Waiting Submission", "For Review"]),
    Column("ai-interview", "AI Interview", true, true, ["Waiting Interview", "For Review"]),
    Column("final-human", "Final Human Interview", true, true, ["Waiting Schedule", "Waiting Interview", "For Review"]),
    Column("job-offer", "Job Offer", true, true,
           ["For Final Review", "Waiting Offer Acceptance", "For Contract Signing", "Hired"])
  ]

  const DefaultStageTitle := "Custom Stage Example"
  const CustomSubstages: seq<string> := ["Waiting Interview", "For Review"]

  ghost predicate UniqueIds(cols: seq<Column>) {
    forall i, j :: 0 <= i < j < |cols| ==> cols[i].id != cols[j].id
  }

  predicate HasColumn(cols: seq<Column>, id: string) {
    exists i :: 0 <= i < |cols| && cols[i].id == id
  }

  /** The number of locked columns, counted one by one. */
  function CountLocked(cols: seq<Column>): nat
    decreases |cols|
  {
    if cols == [] then 0 else (if cols[0].locked then 1 else 0) + CountLocked(cols[1..])
  }

  lemma {:induction false} CountLockedConcat(a: seq<Column>, b: seq<Column>)
    ensures CountLocked(a + b) == CountLocked(a) + CountLocked(b)
    decreases |a|
  {
    if a == [] {
      assert a + b == b;
    } else {
      assert (a + b)[1..] == a[1..] + b;
      CountLockedConcat(a[1..], b);
    }
  }

  /** The initial board: four distinct core stages, all locked. */
  lemma InitialColumnsProperties()
    ensures UniqueIds(InitialColumns)
    ensures forall i :: 0 <= i < |InitialColumns| ==> InitialColumns[i].locked && InitialColumns[i].core
  {
  }

  /* -------------------------- adding and removing -------------------------- */

  /** `addCustomStage`: appends an unlocked, non-core column with the fresh id
      `newId`, the given title (or the default), and two substages. */
  function AddCustomStage(cols: seq<Column>, newId: string, title: Option<string>): (r: seq<Column>)
    ensures |r| == |cols| + 1
    ensures r[..|cols|] == cols
    ensures r[|cols|].id == newId && !r[|cols|].locked && !r[|cols|].core
    ensures r[|cols|].title == (if title.Some? then title.value else DefaultStageTitle)
    ensures |r[|cols|].substages| == 2
    ensures CountLocked(r) == CountLocked(cols)
    ensures UniqueIds(cols) && !HasColumn(cols, newId) ==> UniqueIds(r)
  {
    var col := Column(newId, if title.Some? then title.value else DefaultStageTitle, false, false, CustomSubstages);
    CountLockedConcat(cols, [col]);
    cols + [col]
  }

  /** `removeCustomStage`: drops the columns with that id and keeps the rest in order. */
  function RemoveCustomStage(cols: seq<Column>, id: string): (r: seq<Column>)
    ensures forall c :: c in r <==> c in cols && c.id != id
    ensures !HasColumn(r, id)
    ensures IsSubseq(r, cols)
    ensures !HasColumn(cols, id) ==> r == cols
    ensures forall c :: multiset(r)[c] == if c.id != id then multiset(cols)[c] else 0
  {
    var keep := (c: Column) => c.id != id;
    var r := Filter(cols, keep);
    assert forall i :: 0 <= i < |r| ==> r[i] in r;
    forall c ensures multiset(r)[c] == if c.id != id then multiset(cols)[c] else 0 {
      FilterCounts(cols, keep, c);
    }
    r
  }

  /** Removing a stage just added gives back the board as it was. */
  lemma RemoveUndoesAdd(cols: seq<Column>, newId: string, title: Option<string>)
    requires !HasColumn(cols, newId)
    ensures RemoveCustomStage(AddCustomStage(cols, newId, title), newId) == cols
  {
    var keep := (c: Column) => c.id != newId;
    var col := AddCustomStage(cols, newId, title)[|cols|];
    assert AddCustomStage(cols, newId, title) == cols + [col];
    FilterConcat(cols, [col], keep);
    assert Filter([col], keep) == [];
  }

  /** `coreCount`: the length of the list of locked columns. */
  function CoreCount(cols: seq<Column>): (n: nat)
    ensures n == CountLocked(cols)
  {
    LockedFilterCount(cols);
    |Filter(cols, (c: Column) => c.locked)|
  }

  lemma {:induction false} LockedFilterCount(cols: seq<Column>)
    ensures |Filter(cols, (c: Column) => c.locked)| == CountLocked(cols)
    decreases |cols|
  {
    if cols != [] {
      LockedFilterCount(cols[1..]);
    }
  }

  /* ------------------------------- reordering ------------------------------- */

  /** `list.findIndex(c => c.id === id)`: the first index with that id, or -1. */
  function FindIndex(cols: seq<Column>, id: string): (i: int)
    ensures -1 <= i < |cols|
    ensures i == -1 <==> !HasColumn(cols, id)
    ensures i >= 0 ==> cols[i].id == id && forall j :: 0 <= j < i ==> cols[j].id != id
    decreases |cols|
  {
    if cols == [] then -1
    else if cols[0].id == id then 0
    else
      var k := FindIndex(cols[1..], id);
      assert forall j :: 1 <= j < |cols| ==> cols[j] == cols[1..][j - 1];
      if k == -1 then -1 else k + 1
  }

  /** `list.splice(i, 1)`: the list without its `i`-th element. */
  function RemoveAt<T>(s: seq<T>, i: nat): (r: seq<T>)
    requires i < |s|
    ensures |r| == |s| - 1
  {
    s[..i] + s[i + 1..]
  }

  /** `list.splice(i, 0, x)`: the list with `x` inserted before position `i`. */
  function InsertAt<T>(s: seq<T>, i: nat, x: T): (r: seq<T>)
    requires i <= |s|
    ensures |r| == |s| + 1
    ensures r[i] == x
  {
    s[..i] + [x] + s[i..]
  }

  /** Moves the element at `from` so that it ends up at index `to`, as the two
      splices of the drop handler do. */
  function Move<T>(s: seq<T>, from: nat, to: nat): (r: seq<T>)
    requires from < |s| && to < |s|
    ensures |r| == |s|
    ensures multiset(r) == multiset(s)
    ensures r[to] == s[from]
    ensures RemoveAt(r, to) == RemoveAt(s, from)
  {
    var rest := RemoveAt(s, from);
    var r := InsertAt(rest, to, s[from]);
    assert s == s[..from] + [s[from]] + s[from + 1..];
    assert r == rest[..to] + [s[from]] + rest[to..];
    assert rest == rest[..to] + rest[to..];
    assert RemoveAt(r, to) == rest by {
      assert r[..to] == rest[..to];
      assert r[to + 1..] == rest[to..];
    }
    calc {
      multiset(r);
      multiset(rest[..to]) + multiset{s[from]} + multiset(rest[to..]);
      multiset(rest) + multiset{s[from]};
      multiset(s[..from]) + multiset(s[from + 1..]) + multiset{s[from]};
      multiset(s);
    }
    r
  }

  /** Moving an element back to where it came from undoes the move. */
  lemma MoveBack<T>(s: seq<T>, from: nat, to: nat)
    requires from < |s| && to < |s|
    ensures Move(Move(s, from, to), to, from) == s
  {
    var m := Move(s, from, to);
    assert Move(m, to, from) == InsertAt(RemoveAt(m, to), from, m[to]);
    InsertRemoved(s, from);
  }

  /** Putting a removed element back where it was restores the sequence. */
  lemma InsertRemoved<T>(s: seq<T>, i: nat)
    requires i < |s|
    ensures InsertAt(RemoveAt(s, i), i, s[i]) == s
  {
    var rest := RemoveAt(s, i);
    assert rest[..i] == s[..i];
    assert rest[i..] == s[i + 1..];
  }

  /** A move keeps the number of locked columns. */
  lemma MoveKeepsCoreCount(cols: seq<Column>, from: nat, to: nat)
    requires from < |cols| && to < |cols|
    ensures CoreCount(Move(cols, from, to)) == CoreCount(cols)
  {
    var rest := RemoveAt(cols, from);
    var r := Move(cols, from, to);
    assert cols == cols[..from] + ([cols[from]] + cols[from + 1..]);
    CountLockedConcat(cols[..from], [cols[from]] + cols[from + 1..]);
    CountLockedConcat([cols[from]], cols[from + 1..]);
    CountLockedConcat(cols[..from], cols[from + 1..]);
    assert r == rest[..to] + ([cols[from]] + rest[to..]);
    assert rest == rest[..to] + rest[to..];
    CountLockedConcat(rest[..to], [cols[from]] + rest[to..]);
    CountLockedConcat([cols[from]], rest[to..]);
    CountLockedConcat(rest[..to], rest[to..]);
  }

  /** The id being dragged: the transferred id when non-empty, else the remembered one. */
  function DraggedId(transferred: string, remembered: Option<string>): (d: Option<string>)
    ensures d.Some? ==> d.value != ""
    ensures transferred != "" ==> d == Some(transferred)
    ensures transferred == "" ==> (d.Some? <==> remembered.Some? && remembered.value != "")
  {
    if transferred != "" then Some(transferred)
    else if remembered.Some? && remembered.value != "" then remembered
    else None
  }

  /** The index of the last locked column, or -1 when none is locked. */
  method LastLockedIndex(cols: seq<Column>) returns (idx: int)
    ensures -1 <= idx < |cols|
    ensures idx == -1 <==> forall j :: 0 <= j < |cols| ==> !cols[j].locked
    ensures idx >= 0 ==> cols[idx].locked
    ensures forall j :: idx < j < |cols| ==> !cols[j].locked
  {
    idx := -1;
    var i := 0;
    while i < |cols|
      invariant 0 <= i <= |cols|
      invariant -1 <= idx < i
      invariant idx >= 0 ==> cols[idx].locked
      invariant forall j :: idx < j < i ==> !cols[j].locked
    {
      if cols[i].locked {
        idx := i;
      }
      i := i + 1;
    }
  }

  /* --------------------------- reorder unlocking --------------------------- */

  /** Which columns the user unlocked for dragging; a missing id counts as locked. */
  type UnlockMap = map<string, bool>

  function Unlocked(m: UnlockMap, id: string): bool {
    id in m && m[id]
  }

  /** `toggleUnlockForReorder`: flips one column's flag and leaves the others. */
  function ToggleUnlock(m: UnlockMap, id: string): (r: UnlockMap)
    ensures Unlocked(r, id) == !Unlocked(m, id)
    ensures forall k :: k != id ==> (k in r <==> k in m) && (k in m ==> r[k] == m[k])
  {
    m[id := !Unlocked(m, id)]
  }

  /** Toggling twice restores whether the column can be dragged. */
  lemma ToggleUnlockTwice(m: UnlockMap, id: string)
    ensures forall k :: Unlocked(ToggleUnlock(ToggleUnlock(m, id), id), k) == Unlocked(m, k)
  {
  }

  /** A new stage starts locked for dragging. */
  function RegisterStage(m: UnlockMap, newId: string): (r: UnlockMap)
    ensures !Unlocked(r, newId)
    ensures forall k :: k != newId ==> Unlocked(r, k) == Unlocked(m, k)
  {
    m[newId := false]
  }

  /** "Restore to default": the core columns again, and nothing unlocked. */
  function Restore(): (board: (seq<Column>, UnlockMap))
    ensures board.0 == InitialColumns
    ensures forall k :: !Unlocked(board.1, k)
  {
    (InitialColumns, map[])
  }
  /** A drop on a column of the board: the column's `onDrop` calls
      `onDropOnColumn` only when that column is unlocked for reordering, and
      then the dragged column moves to the drop column's index. Nothing changes
      on a column that is not unlocked, when nothing is dragged, when a column
      is dropped on itself, or when either id is not on the board. */
  function Drop(cols: seq<Column>, unlocked: UnlockMap, transferred: string, remembered: Option<string>,
                dropId: string): (r: seq<Column>)
    ensures |r| == |cols| && multiset(r) == multiset(cols)
    ensures !Unlocked(unlocked, dropId) ==> r == cols
    ensures DraggedId(transferred, remembered).None? ==> r == cols
    ensures DraggedId(transferred, remembered) == Some(dropId) ==> r == cols
    ensures (DraggedId(transferred, remembered).Some? &&
             (!HasColumn(cols, DraggedId(transferred, remembered).value) || !HasColumn(cols, dropId))) ==> r == cols
    ensures (Unlocked(unlocked, dropId) &&
             DraggedId(transferred, remembered).Some? && DraggedId(transferred, remembered).value != dropId &&
             HasColumn(cols, DraggedId(transferred, remembered).value) && HasColumn(cols, dropId)) ==>
      var from := FindIndex(cols, DraggedId(transferred, remembered).value);
      var to := FindIndex(cols, dropId);
      r[to] == cols[from] && RemoveAt(r, to) == RemoveAt(cols, from)
  {
    if !Unlocked(unlocked, dropId) then cols
    else
      match DraggedId(transferred, remembered)
      case None => cols
      case Some(dragged) =>
        if dragged == dropId then cols
        else
          var from := FindIndex(cols, dragged);
          var to := FindIndex(cols, dropId);
          if from == -1 || to == -1 then cols else Move(cols, from, to)
  }

  /** A drop onto a column that is not unlocked leaves the board as it was,
      whatever is being dragged; in particular a fresh stage and every column
      after "Restore to default" refuse drops until they are unlocked. */
  lemma LockedColumnRefusesDrop(cols: seq<Column>, m: UnlockMap, newId: string,
                                transferred: string, remembered: Option<string>)
    ensures Drop(cols, RegisterStage(m, newId), transferred, remembered, newId) == cols
    ensures forall id :: Drop(cols, Restore().1, transferred, remembered, id) == cols
    ensures Drop(cols, ToggleUnlock(ToggleUnlock(RegisterStage(m, newId), newId), newId),
                 transferred, remembered, newId) == cols
  {
    ToggleUnlockTwice(RegisterStage(m, newId), newId);
  }

}

=== FILE: review_tiles.dfy ===
/** The read-only tiles of the review step. Each tile starts from defaults and,
    once a career id is known, overwrites its fields from the career document
    the server returns. The document is loosely typed: several alternative
    field names are tried, with a fixed order of precedence. */
module ReviewTiles {
  import opened Text
  import opened JsValues
  import opened Seqs
  import TeamAccess

  predicate Present(v: Json) { !Nullish(v) }

  predicate IsArray(v: Json) { v.Arr? }

  /** The items of an array value, or `d` for anything else. */
  function ItemsOr(o: Option<Json>, d: seq<Json>): seq<Json> {
    if o.Some? && o.value.Arr? then o.value.items else d
  }

  // Setters applied in sequence

  /** A run of guarded setters `if (p(v)) x = v`, applied in order to `cur`. */
  function Override(cur: Json, vs: seq<Json>, p: Json -> bool): Json
    decreases |vs|
  {
    if vs == [] then cur
    else
      var before := Override(cur, vs[..|vs| - 1], p);
      if p(vs[|vs| - 1]) then vs[|vs| - 1] else before
  }

  /** The last setter that fires wins: a run of setters picks the first value
      satisfying the guard when read from the end, and leaves `cur` alone when
      none does. */
  lemma {:induction false} LastSetterWins(cur: Json, vs: seq<Json>, p: Json -> bool)
    ensures Override(cur, vs, p) == OrElse(FirstWhere(Reverse(vs), p), cur)
    decreases |vs|
  {
    if vs != [] {
      var n := |vs| - 1;
      LastSetterWins(cur, vs[..n], p);
      assert Reverse(vs)[0] == vs[n];
      assert Reverse(vs)[1..] == Reverse(vs[..n]);
    }
  }

  lemma ReverseTwo(a: Json, b: Json)
    ensures Reverse([a, b]) == [b, a]
  {
  }

  lemma ReverseThree(a: Json, b: Json, c: Json)
    ensures Reverse([a, b, c]) == [c, b, a]
  {
  }

  /** Three guarded setters `if (doc[k]) label = doc[k]`, run for k1, then
      k2, then k3: the last key whose value is truthy decides the label, and
      when none is truthy the label stays as it was. Both tiles set their
      screening label this way, each from its own keys. */
  function TruthySetters(cur: Json, doc: Json, k1: string, k2: string, k3: string): (r: Json)
    ensures r == OrElse(FirstTruthy([Get(doc, k3), Get(doc, k2), Get(doc, k1)]), cur)
  {
    var a, b, c := Get(doc, k1), Get(doc, k2), Get(doc, k3);
    LastSetterWins(cur, [a, b, c], Truthy);
    ReverseThree(a, b, c);
    Override(cur, [a, b, c], Truthy)
  }

  // The AI interview tile

  datatype InterviewTile = InterviewTile(
    screening: Json, requireVideo: bool, bullets: seq<Json>, categories: seq<Json>)

  const InitialInterviewTile := InterviewTile(Str("Good Fit"), false, [], [])

  /** `Boolean(requireVideo ?? requriedvideo ?? requireVideoOnInterview)`: the
      truthiness of the first of the three that is present, false if none is. */
  function InterviewRequiresVideo(doc: Json): (r: bool)
    ensures r == (match FirstWhere([Get(doc, "requireVideo"), Get(doc, "requriedvideo"),
                                    Get(doc, "requireVideoOnInterview")], Present)
                  case Some(v) => Truthy(v)
                  case None => false)
  {
    var a, b, c := Get(doc, "requireVideo"), Get(doc, "requriedvideo"), Get(doc, "requireVideoOnInterview");
    FirstWhereOfThree(a, b, c, Present);
    Truthy(Coalesce(a, Coalesce(b, c)))
  }

  /** The secret-prompt bullets: `AIsecretBullets`, `secretBullets`,
      `aiSecretBullets` each replace them when they are an array. */
  function InterviewBullets(cur: seq<Json>, doc: Json): (r: seq<Json>)
    ensures r == ItemsOr(FirstWhere([Get(doc, "aiSecretBullets"), Get(doc, "secretBullets"),
                                     Get(doc, "AIsecretBullets")], IsArray), cur)
  {
    var a, b, c := Get(doc, "AIsecretBullets"), Get(doc, "secretBullets"), Get(doc, "aiSecretBullets");
    LastSetterWins(Arr(cur), [a, b, c], IsArray);
    ReverseThree(a, b, c);
    Override(Arr(cur), [a, b, c], IsArray).items
  }

  /** A generated question of an object-shaped question store. */
  function QuestionObject(key: string, i: nat, t: Json): Json {
    Obj([("id", Str(key + "_" + NatToString(i)))] + [("text", Str(JsString(t)))])
  }

  /** The questions generated for the entry `key: v`: one per element when `v`
      is an array, none otherwise. */
  function ConvertQuestions(key: string, v: Json): (qs: seq<Json>)
    ensures |qs| == if v.Arr? then |v.items| else 0
  {
    if v.Arr? then seq(|v.items|, i requires 0 <= i < |v.items| => QuestionObject(key, i, v.items[i]))
    else []
  }

  /** The id of the category generated for entry `idx`: the key followed by the position. */
  function CategoryId(key: string, idx: nat): string {
    key + NatToString(idx)
  }

  /** A generated category with id `id`, title `key` and the questions of `v`. */
  function CategoryWithId(key: string, id: string, v: Json): Json {
    Obj([("id", Str(id))] + ([("title", Str(key))] + [("questions", Arr(ConvertQuestions(key, v)))]))
  }

  /** A generated category of an object-shaped question store. */
  function CategoryObject(key: string, idx: nat, v: Json): Json {
    CategoryWithId(key, CategoryId(key, idx), v)
  }

  /** The categories built from the entries, one per entry in entry order, with
      the ids that `idOf` gives each key and position. */
  function ConvertWith(entries: seq<(string, Json)>, idOf: (string, nat) -> string): seq<Json>
    decreases |entries|
  {
    if entries == [] then []
    else
      var n := |entries| - 1;
      ConvertWith(entries[..n], idOf) + [CategoryWithId(entries[n].0, idOf(entries[n].0, n), entries[n].1)]
  }

  /** The categories built from an object-shaped question store: one per entry,
      in entry order. */
  function ConvertCategories(entries: seq<(string, Json)>): seq<Json> {
    ConvertWith(entries, CategoryId)
  }

  /** Whatever the ids, the conversion has one category per entry, built from
      that entry and its position. */
  lemma {:induction false} ConvertWithFields(entries: seq<(string, Json)>, idOf: (string, nat) -> string)
    ensures |ConvertWith(entries, idOf)| == |entries|
    ensures forall idx :: 0 <= idx < |entries| ==>
      ConvertWith(entries, idOf)[idx] == CategoryWithId(entries[idx].0, idOf(entries[idx].0, idx), entries[idx].1)
    decreases |entries|
  {
    if entries != [] {
      var n := |entries| - 1;
      ConvertWithFields(entries[..n], idOf);
      assert forall idx :: 0 <= idx < n ==> entries[..n][idx] == entries[idx];
    }
  }

  /** The conversion has one category per entry, built from that entry and its
      position. */
  lemma ConvertCategoriesFields(entries: seq<(string, Json)>)
    ensures |ConvertCategories(entries)| == |entries|
    ensures forall idx :: 0 <= idx < |entries| ==>
      ConvertCategories(entries)[idx] == CategoryObject(entries[idx].0, idx, entries[idx].1)
  {
    ConvertWithFields(entries, CategoryId);
  }

  /** What a generated question shows: its id is the key, an underscore and its
      position; its text is the element as a string. */
  lemma QuestionObjectFields(key: string, i: nat, t: Json)
    ensures Get(QuestionObject(key, i, t), "id") == Str(key + "_" + NatToString(i))
    ensures Get(QuestionObject(key, i, t), "text") == Str(JsString(t))
  {
    var id, text := ("id", Str(key + "_" + NatToString(i))), ("text", Str(JsString(t)));
    LookupCons(id.0, id.1, [text], "text");
    LookupCons(text.0, text.1, [], "text");
  }

  /** What a generated category shows: its id is the key followed by the entry's
      position, its title is the key, and its questions come from the value. */
  lemma CategoryObjectFields(key: string, idx: nat, v: Json)
    ensures Get(CategoryObject(key, idx, v), "id") == Str(key + NatToString(idx))
    ensures Get(CategoryObject(key, idx, v), "title") == Str(key)
    ensures Get(CategoryObject(key, idx, v), "questions") == Arr(ConvertQuestions(key, v))
    ensures QuestionCount(CategoryObject(key, idx, v)) == if v.Arr? then |v.items| else 0
  {
    CategoryWithIdFields(key, CategoryId(key, idx), v);
  }

  /** The same for any id. */
  lemma CategoryWithIdFields(key: string, id: string, v: Json)
    ensures Get(CategoryWithId(key, id, v), "id") == Str(id)
    ensures Get(CategoryWithId(key, id, v), "title") == Str(key)
    ensures Get(CategoryWithId(key, id, v), "questions") == Arr(ConvertQuestions(key, v))
    ensures QuestionCount(CategoryWithId(key, id, v)) == if v.Arr? then |v.items| else 0
  {
    var title := ("title", Str(key));
    var questions := ("questions", Arr(ConvertQuestions(key, v)));
    LookupCons("id", Str(id), [title] + [questions], "title");
    LookupCons(title.0, title.1, [questions], "title");
    LookupCons("id", Str(id), [title] + [questions], "questions");
    LookupCons(title.0, title.1, [questions], "questions");
    LookupCons(questions.0, questions.1, [], "questions");
  }

  /** The category converted from entry `idx` of an object-shaped store, and
      question `i` inside it. */
  lemma ConvertedCategory(entries: seq<(string, Json)>, idx: nat, i: nat)
    requires idx < |entries|
    ensures |ConvertCategories(entries)| == |entries|
    ensures var c := ConvertCategories(entries)[idx];
      var k, v := entries[idx].0, entries[idx].1;
      && Get(c, "id") == Str(k + NatToString(idx))
      && Get(c, "title") == Str(k)
      && Get(c, "questions").Arr?
      && |Get(c, "questions").items| == (if v.Arr? then |v.items| else 0)
      && (v.Arr? && i < |v.items| ==>
            Get(Get(c, "questions").items[i], "id") == Str(k + "_" + NatToString(i)) &&
            Get(Get(c, "questions").items[i], "text") == Str(JsString(v.items[i])))
  {
    ConvertCategoriesFields(entries);
    var k, v := entries[idx].0, entries[idx].1;
    CategoryObjectFields(k, idx, v);
    if v.Arr? && i < |v.items| {
      QuestionObjectFields(k, i, v.items[i]);
    }
  }

  /** The question categories: an array `AiinterviewQuestion` is taken as is, an
      object one is converted entry by entry, and only when it is neither is an
      array `interviewCategories` used. */
  function InterviewCategories(cur: seq<Json>, doc: Json): (r: seq<Json>)
    ensures Get(doc, "AiinterviewQuestion").Arr? ==> r == Get(doc, "AiinterviewQuestion").items
    ensures Get(doc, "AiinterviewQuestion").Obj? ==>
      r == ConvertCategories(Get(doc, "AiinterviewQuestion").fields)
    ensures (!Get(doc, "AiinterviewQuestion").Arr? && !Get(doc, "AiinterviewQuestion").Obj?) ==>
      r == ItemsOr(Some(Get(doc, "interviewCategories")), cur)
  {
    var q := Get(doc, "AiinterviewQuestion");
    if q.Arr? then q.items
    else if Truthy(q) && q.Obj? then ConvertCategories(q.fields)
    else
      var ic := Get(doc, "interviewCategories");
      if ic.Arr? then ic.items else cur
  }

  /** The tile after a load: nothing changes when there is no career id, when the
      fetch fails (`None`), or when the document is null, since reading a field
      of it throws before any setter runs. */
  function LoadInterviewTile(st: InterviewTile, careerId: Json, fetched: Option<Json>): (r: InterviewTile)
    ensures (!Truthy(careerId) || fetched.None? || Nullish(fetched.value)) ==> r == st
    ensures (Truthy(careerId) && fetched.Some? && Present(fetched.value)) ==>
      r == InterviewTile(TruthySetters(st.screening, fetched.value, "AIScreening", "AIScreeningLabel", "screeningLabel"), InterviewRequiresVideo(fetched.value),
                         InterviewBullets(st.bullets, fetched.value),
                         InterviewCategories(st.categories, fetched.value))
  {
    if !Truthy(careerId) || fetched.None? || Nullish(fetched.value) then st
    else
      var doc := fetched.value;
      InterviewTile(TruthySetters(st.screening, doc, "AIScreening", "AIScreeningLabel", "screeningLabel"), InterviewRequiresVideo(doc),
                    InterviewBullets(st.bullets, doc), InterviewCategories(st.categories, doc))
  }

  /** `c.questions?.length || 0` for one category. */
  function QuestionCount(c: Json): nat {
    var q := Get(c, "questions");
    if q.Arr? then |q.items| else if q.Str? then |q.s| else 0
  }

  /** The question total shown in the header; `None` when a category is null,
      where reading its `questions` throws. */
  function TotalCount(cats: seq<Json>): (r: Option<nat>)
    ensures r.Some? <==> forall i :: 0 <= i < |cats| ==> Present(cats[i])
    decreases |cats|
  {
    if cats == [] then Some(0)
    else
      var n := |cats| - 1;
      var before := TotalCount(cats[..n]);
      assert forall i :: 0 <= i < n ==> cats[..n][i] == cats[i];
      if before.None? || Nullish(cats[n]) then None
      else Some(before.value + QuestionCount(cats[n]))
  }

  /** The number of elements over all array-valued entries. */
  function ArrayEntryTotal(entries: seq<(string, Json)>): nat
    decreases |entries|
  {
    if entries == [] then 0
    else
      var v := entries[|entries| - 1].1;
      ArrayEntryTotal(entries[..|entries| - 1]) + (if v.Arr? then |v.items| else 0)
  }

  /** Converting an object-shaped store keeps every question: the total shown is
      the number of elements in its array-valued entries. */
  lemma ConvertedTotal(entries: seq<(string, Json)>)
    ensures TotalCount(ConvertCategories(entries)) == Some(ArrayEntryTotal(entries))
  {
    ConvertedTotalWith(entries, CategoryId);
  }

  /** The total does not depend on the ids the categories get. */
  lemma {:induction false} ConvertedTotalWith(entries: seq<(string, Json)>, idOf: (string, nat) -> string)
    ensures TotalCount(ConvertWith(entries, idOf)) == Some(ArrayEntryTotal(entries))
    decreases |entries|
  {
    if entries != [] {
      var n := |entries| - 1;
      var key, v := entries[n].0, entries[n].1;
      ConvertedTotalWith(entries[..n], idOf);
      var front := ConvertWith(entries[..n], idOf);
      var last := CategoryWithId(key, idOf(key, n), v);
      var count := if v.Arr? then |v.items| else 0;
      assert ConvertWith(entries, idOf) == front + [last];
      assert ArrayEntryTotal(entries) == ArrayEntryTotal(entries[..n]) + count;
      TotalCountSnocCategory(front, key, idOf(key, n), v, ArrayEntryTotal(entries[..n]));
    }
  }

  /** Appending a generated category adds the length of its entry's array. */
  lemma TotalCountSnocCategory(front: seq<Json>, key: string, id: string, v: Json, before: nat)
    requires TotalCount(front) == Some(before)
    ensures TotalCount(front + [CategoryWithId(key, id, v)]) == Some(before + if v.Arr? then |v.items| else 0)
  {
    var c := CategoryWithId(key, id, v);
    CategoryWithIdFields(key, id, v);
    TotalCountSnoc(front + [c], front, c, before);
  }

  /** Appending a category adds its question count to the total. */
  lemma TotalCountSnoc(cats: seq<Json>, front: seq<Json>, c: Json, before: nat)
    requires cats == front + [c] && TotalCount(front) == Some(before) && Present(c)
    ensures TotalCount(cats) == Some(before + QuestionCount(c))
  {
    assert cats[..|front|] == front;
  }

  /** The total of two runs of categories is the sum of their totals. */
  lemma {:induction false} TotalCountConcat(a: seq<Json>, b: seq<Json>)
    requires TotalCount(a).Some? && TotalCount(b).Some?
    ensures TotalCount(a + b) == Some(TotalCount(a).value + TotalCount(b).value)
    decreases |b|
  {
    if b == [] {
      assert a + b == a;
    } else {
      var n := |b| - 1;
      assert forall i :: 0 <= i < n ==> b[..n][i] == b[i];
      TotalCountConcat(a, b[..n]);
      assert a + b == (a + b[..n]) + [b[n]];
      TotalCountSnoc(a + b, a + b[..n], b[n], TotalCount(a).value + TotalCount(b[..n]).value);
    }
  }

  // The CV screening tile

  /** The tile's properties; an absent one takes its default. */
  datatype CvProps = CvProps(
    screeningLabel: Option<string>, secretPrompt: Option<string>,
    secretBullets: Option<seq<string>>, questions: Option<seq<Json>>)

  datatype CvTile = CvTile(screening: Json, secret: Json, bullets: seq<Json>, questions: seq<Json>)

  const DefaultCvLabel := "Good Fit"
  const DefaultSecretPrompt := "Automatically endorse candidates who are"
  const DefaultSecretBullets: seq<string> := [
    "Prioritize candidates with strong hands-on experience in Java and object-oriented programming.",
    "Look for familiarity with frameworks like Spring Boot or Hibernate, and experience building scalable backend systems.",
    "Give extra weight to candidates who demonstrate knowledge of REST APIs, microservices, and SQL or NoSQL databases.",
    "Deprioritize resumes that only list Java as a secondary or outdated skill."
  ]

  function StrOr(o: Option<string>, d: string): (r: Json)
    ensures r == Str(if o.Some? then o.value else d)
  {
    if o.Some? then Str(o.value) else Str(d)
  }

  function Strs(ss: seq<string>): (r: seq<Json>)
    ensures |r| == |ss| && forall i :: 0 <= i < |ss| ==> r[i] == Str(ss[i])
  {
    seq(|ss|, i requires 0 <= i < |ss| => Str(ss[i]))
  }

  /** The tile before any load: each property, or its default when absent. */
  function InitialCvTile(props: CvProps): (r: CvTile)
    ensures props.screeningLabel.None? ==> r.screening == Str(DefaultCvLabel)
    ensures props.screeningLabel.Some? ==> r.screening == Str(props.screeningLabel.value)
    ensures props.secretPrompt.None? ==> r.secret == Str(DefaultSecretPrompt)
    ensures props.secretPrompt.Some? ==> r.secret == Str(props.secretPrompt.value)
    ensures props.secretBullets.None? ==> r.bullets == Strs(DefaultSecretBullets) && |r.bullets| == 4
    ensures props.secretBullets.Some? ==> r.bullets == Strs(props.secretBullets.value)
    ensures props.questions.None? ==> r.questions == []
    ensures props.questions.Some? ==> r.questions == props.questions.value
  {
    CvTile(StrOr(props.screeningLabel, DefaultCvLabel), StrOr(props.secretPrompt, DefaultSecretPrompt),
           Strs(if props.secretBullets.Some? then props.secretBullets.value else DefaultSecretBullets),
           if props.questions.Some? then props.questions.value else [])
  }

  /** The props with every absent one replaced by its default value. */
  function WithDefaults(props: CvProps): (r: CvProps)
    ensures r.screeningLabel.Some? && r.secretPrompt.Some? && r.secretBullets.Some? && r.questions.Some?
    ensures props.screeningLabel.Some? ==> r.screeningLabel == props.screeningLabel
    ensures props.secretPrompt.Some? ==> r.secretPrompt == props.secretPrompt
    ensures props.secretBullets.Some? ==> r.secretBullets == props.secretBullets
    ensures props.questions.Some? ==> r.questions == props.questions
  {
    CvProps(
      Some(if props.screeningLabel.Some? then props.screeningLabel.value else DefaultCvLabel),
      Some(if props.secretPrompt.Some? then props.secretPrompt.value else DefaultSecretPrompt),
      Some(if props.secretBullets.Some? then props.secretBullets.value else DefaultSecretBullets),
      Some(if props.questions.Some? then props.questions.value else []))
  }

  /** Default parameters: passing the default values explicitly shows the same
      tile as leaving the props out. */
  lemma DefaultsFillAbsentProps(props: CvProps)
    ensures InitialCvTile(WithDefaults(props)) == InitialCvTile(props)
  {
  }

  /** The secret prompt: the first present of `cvSecretPrompt`, `cvSecret`,
      `secretPrompt` replaces it, but only when truthy; a present but empty
      `cvSecretPrompt` therefore hides the other two. */
  function CvSecret(cur: Json, doc: Json): (r: Json)
    ensures r == (var s := FirstWhere([Get(doc, "cvSecretPrompt"), Get(doc, "cvSecret"),
                                       Get(doc, "secretPrompt")], Present);
                  if s.Some? && Truthy(s.value) then s.value else cur)
  {
    var a, b, c := Get(doc, "cvSecretPrompt"), Get(doc, "cvSecret"), Get(doc, "secretPrompt");
    FirstWhereOfThree(a, b, c, Present);
    var secret := Coalesce(a, Coalesce(b, Coalesce(c, Str(""))));
    if Truthy(secret) then secret else cur
  }

  /** The bullets: `cvSecretBullets`, then `secretBullets`, each replace them
      when they are an array. */
  function CvBullets(cur: seq<Json>, doc: Json): (r: seq<Json>)
    ensures r == ItemsOr(FirstWhere([Get(doc, "secretBullets"), Get(doc, "cvSecretBullets")], IsArray), cur)
  {
    var a, b := Get(doc, "cvSecretBullets"), Get(doc, "secretBullets");
    LastSetterWins(Arr(cur), [a, b], IsArray);
    ReverseTwo(a, b);
    Override(Arr(cur), [a, b], IsArray).items
  }

  /** The pre-screening questions. An array `preScreenQuestions` is taken as is;
      a string one is parsed (`None` when parsing throws) and used only when it
      yields an array; `questions` is consulted only when `preScreenQuestions`
      is neither an array nor a string. */
  function CvQuestions(cur: seq<Json>, doc: Json, parse: string -> Option<Json>): (r: seq<Json>)
    ensures Get(doc, "preScreenQuestions").Arr? ==> r == Get(doc, "preScreenQuestions").items
    ensures Get(doc, "preScreenQuestions").Str? ==>
      r == ItemsOr(parse(Get(doc, "preScreenQuestions").s), cur)
    ensures (!Get(doc, "preScreenQuestions").Arr? && !Get(doc, "preScreenQuestions").Str?) ==>
      r == ItemsOr(Some(Get(doc, "questions")), cur)
  {
    var p := Get(doc, "preScreenQuestions");
    if p.Arr? then p.items
    else if p.Str? then
      var parsed := parse(p.s);
      if parsed.Some? && parsed.value.Arr? then parsed.value.items else cur
    else
      var q := Get(doc, "questions");
      if q.Arr? then q.items else cur
  }

  /** A stored question string that does not parse to an array leaves the
      questions as they were, even when the document has a `questions` array. */
  lemma UnparsedStringShadowsQuestions(cur: seq<Json>, doc: Json, parse: string -> Option<Json>)
    requires Get(doc, "preScreenQuestions").Str?
    requires !(parse(Get(doc, "preScreenQuestions").s).Some? &&
               parse(Get(doc, "preScreenQuestions").s).value.Arr?)
    ensures CvQuestions(cur, doc, parse) == cur
  {
  }

  function LoadCvTile(st: CvTile, careerId: Json, fetched: Option<Json>, parse: string -> Option<Json>): (r: CvTile)
    ensures (!Truthy(careerId) || fetched.None? || Nullish(fetched.value)) ==> r == st
    ensures (Truthy(careerId) && fetched.Some? && Present(fetched.value)) ==>
      r == CvTile(TruthySetters(st.screening, fetched.value, "cvScreening", "screeningSetting", "screeningLabel"), CvSecret(st.secret, fetched.value),
                  CvBullets(st.bullets, fetched.value), CvQuestions(st.questions, fetched.value, parse))
  {
    if !Truthy(careerId) || fetched.None? || Nullish(fetched.value) then st
    else
      var doc := fetched.value;
      CvTile(TruthySetters(st.screening, doc, "cvScreening", "screeningSetting", "screeningLabel"), CvSecret(st.secret, doc), CvBullets(st.bullets, doc),
             CvQuestions(st.questions, doc, parse))
  }

  /** Loading the same document twice shows what loading it once does. */
  lemma LoadCvTileIdempotent(st: CvTile, careerId: Json, fetched: Option<Json>, parse: string -> Option<Json>)
    ensures LoadCvTile(LoadCvTile(st, careerId, fetched, parse), careerId, fetched, parse)
         == LoadCvTile(st, careerId, fetched, parse)
  {
    if Truthy(careerId) && fetched.Some? && Present(fetched.value) {
      var doc := fetched.value;
      var once := LoadCvTile(st, careerId, fetched, parse);
      assert TruthySetters(once.screening, doc, "cvScreening", "screeningSetting", "screeningLabel") == once.screening;
      assert CvBullets(once.bullets, doc) == once.bullets;
      assert CvQuestions(once.questions, doc, parse) == once.questions;
    }
  }

  // The career tile

  /** The first character of a word, or nothing for an empty word. */
  function Head(w: string): (r: string)
    ensures |r| <= 1 && (w != [] ==> r == [w[0]])
  {
    if w == [] then "" else [w[0]]
  }

  /** The avatar initials as the tile computes them: the first characters of the
      first two space-separated parts, upper-cased. An empty part (from a
      leading or doubled space) takes one of the two places. */
  function Initials(name: string): (r: string)
    ensures |r| <= 2
    ensures var parts := Split(name, ' ');
            |r| == |Head(parts[0])| + (if |parts| > 1 then |Head(parts[1])| else 0)
    ensures var parts := Split(name, ' ');
            parts[0] != [] ==> r[0] == UpperChar(parts[0][0])
    ensures var parts := Split(name, ' ');
            |parts| > 1 && parts[1] != [] ==> r[|r| - 1] == UpperChar(parts[1][0])
  {
    var parts := Split(name, ' ');
    Upper(Head(parts[0]) + (if |parts| > 1 then Head(parts[1]) else ""))
  }

  predicate NonEmpty(w: string) { w != [] }

  /** The words of a name: its non-empty space-separated parts. */
  function Words(name: string): seq<string> {
    Filter(Split(name, ' '), NonEmpty)
  }

  /** The initials of the first two words of the name, upper-cased. */
  function WordInitials(name: string): (r: string)
    ensures |r| == if |Words(name)| < 2 then |Words(name)| else 2
    ensures forall i :: 0 <= i < |r| ==> Words(name)[i] != [] && r[i] == UpperChar(Words(name)[i][0])
  {
    var ws := Words(name);
    assert forall i :: 0 <= i < |ws| ==> ws[i] in ws && NonEmpty(ws[i]);
    if ws == [] then ""
    else if |ws| == 1 then Upper([ws[0][0]])
    else Upper([ws[0][0], ws[1][0]])
  }

  /** When the name neither starts with a space nor has a doubled space before
      its second word, the tile's initials are the words' initials. */
  lemma {:induction false} InitialsOfPlainName(name: string)
    requires var parts := Split(name, ' ');
             parts[0] != [] && (|parts| > 1 ==> parts[1] != [])
    ensures Initials(name) == WordInitials(name)
  {
    var parts := Split(name, ' ');
    var ws := Words(name);
    assert Filter(parts, NonEmpty) == [parts[0]] + Filter(parts[1..], NonEmpty);
    if |parts| > 1 {
      assert Filter(parts[1..], NonEmpty) == [parts[1]] + Filter(parts[2..], NonEmpty);
      assert ws[0] == parts[0] && ws[1] == parts[1];
    } else {
      assert parts[1..] == [];
      assert ws == [parts[0]];
    }
  }

  /** The parts of "a  b" are "a", an empty part, and "b". */
  lemma SplitDoubledSpace(a: char, b: char)
    requires a != ' ' && b != ' '
    ensures Split([a, ' ', ' ', b], ' ') == [[a], [], [b]]
  {
    assert Split([], ' ') == [[]];
    SplitCons(b, [], ' ');
    assert [b] + [] == [b];
    assert Split([b], ' ') == [[b]];
    SplitCons(' ', [b], ' ');
    assert [' '] + [b] == [' ', b];
    assert Split([' ', b], ' ') == [[], [b]];
    SplitCons(' ', [' ', b], ' ');
    assert [' '] + [' ', b] == [' ', ' ', b];
    assert Split([' ', ' ', b], ' ') == [[], [], [b]];
    SplitCons(a, [' ', ' ', b], ' ');
    assert [a] + [' ', ' ', b] == [a, ' ', ' ', b];
    assert Split([a, ' ', ' ', b], ' ') == [[a] + []] + [[], [b]];
    assert [a] + [] == [a];
    assert [[a]] + [[], [b]] == [[a], [], [b]];
  }

  /** A doubled space loses the second initial: "A  B" shows "A", not "AB". */
  lemma DoubledSpaceLosesInitial(a: char, b: char)
    requires a != ' ' && b != ' '
    ensures Initials([a, ' ', ' ', b]) == [UpperChar(a)]
    ensures WordInitials([a, ' ', ' ', b]) == [UpperChar(a), UpperChar(b)]
  {
    var parts: seq<string> := [[a], [], [b]];
    SplitDoubledSpace(a, b);
    assert parts[1..] == [[], [b]] && parts[1..][1..] == [[b]] && [[b]][1..] == [];
    assert Filter([[b]], NonEmpty) == [[b]];
    assert Filter([[], [b]], NonEmpty) == [[b]];
    assert Words([a, ' ', ' ', b]) == [[a], [b]];
  }

  const EmDash: string := [0x2014 as char]

  /** A salary figure: "Negotiable" for a negotiable career, a dash when the
      figure is missing or blank, otherwise the figure as text. */
  function DisplaySalary(val: Json, negotiable: bool): (r: string)
    ensures negotiable ==> r == "Negotiable"
    ensures !negotiable && (Nullish(val) || Blank(JsString(val))) ==> r == EmDash
    ensures !negotiable && !Nullish(val) && !Blank(JsString(val)) ==> r == JsString(val)
  {
    TrimEmptyIffBlank(JsString(val));
    if negotiable then "Negotiable"
    else if Nullish(val) || Trim(JsString(val)) == "" then EmDash
    else JsString(val)
  }

  /** What the tile shows for each field of the career form. */
  datatype CareerView = CareerView(
    jobTitle: Json, employmentType: Json, arrangement: Json, country: Json,
    state: Json, city: Json, minSalary: string, maxSalary: string, description: Json)

  const UntitledJob := "Untitled"
  const DefaultCountry := "Philippines"
  const NoDescription := "No job description provided."

  /** The career tile's fields for the incoming form data (absent data counts as
      an empty form); each missing field shows its placeholder. */
  function ViewCareer(data: Json): (v: CareerView)
    ensures var d := if Nullish(data) then Obj([]) else data;
      && v.jobTitle == OrElse(FirstWhere([Get(d, "jobTitle")], Present), Str(UntitledJob))
      && v.country == OrElse(FirstWhere([Get(d, "country")], Present), Str(DefaultCountry))
      && v.description == OrElse(FirstWhere([Get(d, "jobDescription")], Present), Str(NoDescription))
      && v.employmentType == OrElse(FirstWhere([Get(d, "employmentType")], Present), Str(EmDash))
      && v.arrangement == OrElse(FirstWhere([Get(d, "arrangement")], Present), Str(EmDash))
      && v.state == OrElse(FirstWhere([Get(d, "state")], Present), Str(EmDash))
      && v.city == OrElse(FirstWhere([Get(d, "city")], Present), Str(EmDash))
      && v.minSalary == DisplaySalary(Get(d, "minSalary"), Truthy(Get(d, "negotiable")))
      && v.maxSalary == DisplaySalary(Get(d, "maxSalary"), Truthy(Get(d, "negotiable")))
  {
    var d := if Nullish(data) then Obj([]) else data;
    var negotiable := Truthy(Get(d, "negotiable"));
    CareerView(
      Coalesce(Get(d, "jobTitle"), Str(UntitledJob)),
      Coalesce(Get(d, "employmentType"), Str(EmDash)),
      Coalesce(Get(d, "arrangement"), Str(EmDash)),
      Coalesce(Get(d, "country"), Str(DefaultCountry)),
      Coalesce(Get(d, "state"), Str(EmDash)),
      Coalesce(Get(d, "city"), Str(EmDash)),
      DisplaySalary(Get(d, "minSalary"), negotiable),
      DisplaySalary(Get(d, "maxSalary"), negotiable),
      Coalesce(Get(d, "jobDescription"), Str(NoDescription)))
  }

  /** A field shows `placeholder` exactly when its value is `null` or
      `undefined`, or is the placeholder itself. */
  predicate PlaceholderExactlyWhenNullish(shown: Json, value: Json, placeholder: Json) {
    shown == placeholder <==> Nullish(value) || value == placeholder
  }

  /** Each text field of the tile falls back to its placeholder exactly for a
      missing value, and each salary shows a dash exactly when the career is not
      negotiable and the figure is missing, blank or itself a dash. */
  lemma ViewCareerPlaceholders(data: Json)
    ensures var d := if Nullish(data) then Obj([]) else data;
      var v := ViewCareer(data);
      var negotiable := Truthy(Get(d, "negotiable"));
      && PlaceholderExactlyWhenNullish(v.jobTitle, Get(d, "jobTitle"), Str(UntitledJob))
      && PlaceholderExactlyWhenNullish(v.employmentType, Get(d, "employmentType"), Str(EmDash))
      && PlaceholderExactlyWhenNullish(v.arrangement, Get(d, "arrangement"), Str(EmDash))
      && PlaceholderExactlyWhenNullish(v.country, Get(d, "country"), Str(DefaultCountry))
      && PlaceholderExactlyWhenNullish(v.state, Get(d, "state"), Str(EmDash))
      && PlaceholderExactlyWhenNullish(v.city, Get(d, "city"), Str(EmDash))
      && PlaceholderExactlyWhenNullish(v.description, Get(d, "jobDescription"), Str(NoDescription))
      && (v.minSalary == EmDash <==> !negotiable && (Nullish(Get(d, "minSalary")) || Blank(JsString(Get(d, "minSalary"))) || JsString(Get(d, "minSalary")) == EmDash))
      && (v.maxSalary == EmDash <==> !negotiable && (Nullish(Get(d, "maxSalary")) || Blank(JsString(Get(d, "maxSalary"))) || JsString(Get(d, "maxSalary")) == EmDash))
  {
    assert "Negotiable" != EmDash by { assert "Negotiable"[0] != EmDash[0]; }
  }

  /** A career with no form data shows every placeholder. */
  lemma EmptyCareerShowsPlaceholders(data: Json)
    requires Nullish(data) || data == Obj([])
    ensures ViewCareer(data) == CareerView(
      Str(UntitledJob), Str(EmDash), Str(EmDash), Str(DefaultCountry), Str(EmDash), Str(EmDash),
      EmDash, EmDash, Str(NoDescription))
  {
    assert DisplaySalary(Undefined, false) == EmDash;
  }

  /** The stored spelling of a team role. */
  function RoleKey(r: TeamAccess.Role): string {
    match r
    case Owner => "owner"
    case Contributor => "contributor"
    case Reviewer => "reviewer"
  }

  /** The role caption under a team member: only owners and contributors get one. */
  function RoleLabel(role: Json): (r: string)
    ensures r != "" <==> role == Str("owner") || role == Str("contributor")
  {
    if role == Str("owner") then "Job Owner"
    else if role == Str("contributor") then "Contributor"
    else ""
  }

  /** The review tile captions owners and contributors as the team-access panel
      does, and leaves reviewers without a caption. */
  lemma RoleLabelMatchesPanel(r: TeamAccess.Role)
    ensures RoleLabel(Str(RoleKey(r))) == if r == TeamAccess.Reviewer then "" else TeamAccess.RoleTitle(r)
  {
  }
}

=== FILE: seqs.dfy ===
/** Sequence helpers shared by the list-editing operations: `Array.prototype.filter`,
    `slice(0, n)`, and what it means for one list to keep another's order. */
module Seqs {

  /** `a` is `b` with some elements dropped: the elements of `a` appear in `b`
      in the same order. */
  predicate IsSubseq<T(==)>(a: seq<T>, b: seq<T>)
    decreases |b|
  {
    if a == [] then true
    else if b == [] then false
    else (a[0] == b[0] && IsSubseq(a[1..], b[1..])) || IsSubseq(a, b[1..])
  }

  /** Every list keeps its own order. */
  lemma {:induction false} IsSubseqRefl<T>(a: seq<T>)
    ensures IsSubseq(a, a)
    decreases |a|
  {
    if a != [] {
      IsSubseqRefl(a[1..]);
    }
  }

  /** A prefix of an order-preserving selection is one too. */
  lemma {:induction false} IsSubseqPrefix<T>(a: seq<T>, b: seq<T>, n: nat)
    requires IsSubseq(a, b) && n <= |a|
    ensures IsSubseq(a[..n], b)
    decreases |b|
  {
    if n > 0 {
      if a[0] == b[0] && IsSubseq(a[1..], b[1..]) {
        IsSubseqPrefix(a[1..], b[1..], n - 1);
        assert a[..n][1..] == a[1..][..n - 1];
      } else {
        IsSubseqPrefix(a, b[1..], n);
      }
    }
  }

  /** `s.filter(keep)`. */
  function Filter<T(==,!new)>(s: seq<T>, keep: T -> bool): (r: seq<T>)
    ensures |r| <= |s|
    ensures forall x :: x in r <==> x in s && keep(x)
    ensures IsSubseq(r, s)
    ensures (forall i :: 0 <= i < |s| ==> keep(s[i])) ==> r == s
    decreases |s|
  {
    if s == [] then []
    else
      var rest := Filter(s[1..], keep);
      if keep(s[0]) then
        [s[0]] + rest
      else
        assert forall x :: x in s[1..] ==> x in s;
        rest
  }
  /** `filter` keeps every copy of a kept element and no copy of a dropped one. */
  lemma {:induction false} FilterCounts<T(!new)>(s: seq<T>, keep: T -> bool, x: T)
    ensures multiset(Filter(s, keep))[x] == if keep(x) then multiset(s)[x] else 0
    decreases |s|
  {
    if s != [] {
      FilterCounts(s[1..], keep, x);
      assert s == [s[0]] + s[1..];
    }
  }


  /** Filtering distributes over concatenation, so it keeps the relative order
      of what it keeps. */
  lemma {:induction false} FilterConcat<T(!new)>(a: seq<T>, b: seq<T>, keep: T -> bool)
    ensures Filter(a + b, keep) == Filter(a, keep) + Filter(b, keep)
    decreases |a|
  {
    if a == [] {
      assert a + b == b;
    } else {
      assert (a + b)[1..] == a[1..] + b;
      FilterConcat(a[1..], b, keep);
    }
  }

  /** `s.slice(0, n)`. */
  function Take<T>(s: seq<T>, n: nat): (r: seq<T>)
    ensures |r| <= n && |r| <= |s|
    ensures |s| <= n ==> r == s
    ensures n <= |s| ==> |r| == n
    ensures r == s[..|r|]
  {
    if |s| <= n then s else s[..n]
  }

  /** `s` in reverse order. */
  function Reverse<T>(s: seq<T>): (r: seq<T>)
    ensures |r| == |s|
    ensures forall i :: 0 <= i < |s| ==> r[i] == s[|s| - 1 - i]
    decreases |s|
  {
    if s == [] then [] else [s[|s| - 1]] + Reverse(s[..|s| - 1])
  }
}

=== FILE: sidebar.dfy ===
/** The recruiter dashboard's sidebar: which menu entry is highlighted for the
    current URL path. */
module Sidebar {
  import opened Text
  import opened JsValues

  datatype NavItem = NavItem(title: string, href: string)

  const Root := "recruiter-dashboard"
  const Base := "/" + Root

  /** The dashboard's page named `slug`. */
  function Page(slug: string): string {
    "/" + Root + "/" + slug
  }

  const NavItems: seq<NavItem> := [
    NavItem("Dashboard", Base),
    NavItem("Careers", Page("careers")),
    NavItem("Candidates", Page("candidates")),
    NavItem("To Do", Page("to-do"))
  ]

  const FooterNavItems: seq<NavItem> := [
    NavItem("Feedback", Page("feedback")),
    NavItem("Members", Page("members")),
    NavItem("Settings", Page("settings"))
  ]

  const SuperAdminNavItems: seq<NavItem> := [NavItem("Inbox", Page("inbox"))]

  /** Every entry the sidebar can highlight, in the order they are searched. */
  const AllLinks: seq<NavItem> := NavItems + FooterNavItems + SuperAdminNavItems

  const Labels: seq<string> :=
    ["Dashboard", "Careers", "Candidates", "To Do", "Feedback", "Members", "Settings", "Inbox"]

  const CareersHref := Page("careers")

  /** `links.find(x => x.href === href)`: the first entry with that href. */
  function FindByHref(links: seq<NavItem>, href: string): (r: Option<NavItem>)
    ensures r.Some? ==> r.value in links && r.value.href == href
    ensures r.None? <==> forall i :: 0 <= i < |links| ==> links[i].href != href
    ensures forall i :: (0 <= i < |links| && links[i].href == href &&
      (forall j :: 0 <= j < i ==> links[j].href != href)) ==> r == Some(links[i])
    decreases |links|
  {
    if links == [] then None
    else if links[0].href == href then Some(links[0])
    else
      var r := FindByHref(links[1..], href);
      assert forall i :: 1 <= i < |links| ==> links[1..][i - 1] == links[i];
      r
  }

  /** The path an entry must match: the whole path when it has at most three
      `/`-separated parts (the leading empty one included), otherwise its
      first two segments. */
  function MatchPath(pathname: string): string {
    var segs := Split(pathname, '/');
    if |segs| <= 3 then pathname else "/" + segs[1] + "/" + segs[2]
  }

  lemma LinkLabels()
    ensures forall m :: m in AllLinks ==> m.title in Labels
  {
  }

  /** The fallback search for the careers page always succeeds. */
  lemma CareersFallbackFound()
    ensures FindByHref(AllLinks, CareersHref) == Some(NavItem("Careers", CareersHref))
  {
    assert AllLinks[0].href != CareersHref by {
      assert |AllLinks[0].href| < |CareersHref|;
    }
    assert AllLinks[1] == NavItem("Careers", CareersHref);
  }

  /** The label highlighted for a non-empty path: the entry matching its match
      path, or the careers entry when none does. */
  function Resolve(pathname: string): (shown: string)
    ensures shown in Labels
    ensures FindByHref(AllLinks, MatchPath(pathname)).None? ==> shown == "Careers"
    ensures FindByHref(AllLinks, MatchPath(pathname)).Some? ==>
      NavItem(shown, MatchPath(pathname)) in AllLinks
  {
    LinkLabels();
    match FindByHref(AllLinks, MatchPath(pathname))
    case Some(m) => m.title
    case None =>
      CareersFallbackFound();
      FindByHref(AllLinks, CareersHref).value.title
  }

  /** The highlighted label after the path changes; an absent or empty path
      leaves it as it was. */
  function ActiveLink(current: string, pathname: Option<string>): (r: string)
    ensures (pathname.None? || pathname.value == "") ==> r == current
    ensures (pathname.Some? && pathname.value != "") ==> r in Labels
  {
    if pathname.None? || pathname.value == "" then current else Resolve(pathname.value)
  }

  /** The parts of a dashboard page's path. */
  lemma PageSegments(slug: string)
    requires '/' !in slug
    ensures Split(Page(slug), '/') == ["", Root, slug]
  {
    assert '/' !in Root;
    SplitNoSep(slug, '/');
    SplitSep(Root, slug, '/');
    assert Page(slug) == [] + ['/'] + (Root + ['/'] + slug);
    SplitSep([], Root + ['/'] + slug, '/');
  }

  /** The parts of a two-segment path. */
  lemma SectionSegments(a: string, b: string)
    requires '/' !in a && '/' !in b
    ensures Split("/" + a + "/" + b, '/') == ["", a, b]
  {
    SplitNoSep(b, '/');
    SplitSep(a, b, '/');
    assert "/" + a + "/" + b == [] + ['/'] + (a + ['/'] + b);
    SplitSep([], a + ['/'] + b, '/');
  }

  /** The parts of a path below a two-segment section. */
  lemma DeepSegments(a: string, b: string, rest: string)
    requires '/' !in a && '/' !in b
    ensures Split("/" + a + "/" + b + "/" + rest, '/') == ["", a, b] + Split(rest, '/')
  {
    var tail := b + ['/'] + rest;
    var inner := a + ['/'] + tail;
    SplitSep(b, rest, '/');
    SplitSep(a, tail, '/');
    SplitSep([], inner, '/');
    DeepPathShape(a, b, rest);
  }

  lemma DeepPathShape(a: string, b: string, rest: string)
    ensures "/" + a + "/" + b + "/" + rest == [] + ['/'] + (a + ['/'] + (b + ['/'] + rest))
  {
    assert "/" + a + "/" + b + "/" + rest == ['/'] + (a + (['/'] + (b + (['/'] + rest))));
  }

  /** A path below a section matches on the section: only its first two
      segments count. */
  lemma DeepPathMatchesSection(a: string, b: string, rest: string)
    requires '/' !in a && '/' !in b
    ensures MatchPath("/" + a + "/" + b + "/" + rest) == "/" + a + "/" + b
    ensures MatchPath("/" + a + "/" + b) == "/" + a + "/" + b
  {
    SectionSegments(a, b);
    DeepSegments(a, b, rest);
  }

  /** A path below a section highlights what the section does. */
  lemma DeepPathResolvesToSection(a: string, b: string, rest: string)
    requires '/' !in a && '/' !in b
    ensures Resolve("/" + a + "/" + b + "/" + rest) == Resolve("/" + a + "/" + b)
  {
    DeepPathMatchesSection(a, b, rest);
  }

  /** Every sidebar page highlights its own entry. */
  lemma ExactPageResolves(i: nat)
    requires 1 <= i < |AllLinks|
    ensures Resolve(AllLinks[i].href) == AllLinks[i].title
  {
    PageIsExact(i);
    EarlierHrefsDiffer(i);
  }

  const Slugs: seq<string> := ["careers", "candidates", "to-do", "feedback", "members", "settings", "inbox"]

  lemma LinkSlugs()
    ensures |Slugs| + 1 == |AllLinks|
    ensures forall k :: 1 <= k < |AllLinks| ==> AllLinks[k].href == Page(Slugs[k - 1]) && '/' !in Slugs[k - 1]
    ensures forall j, k :: 0 <= j < k < |Slugs| ==> Slugs[j] != Slugs[k]
  {
  }

  /** A page's path has three parts, so it is matched whole. */
  lemma PageIsExact(i: nat)
    requires 1 <= i < |AllLinks|
    ensures MatchPath(AllLinks[i].href) == AllLinks[i].href
  {
    LinkSlugs();
    PageSegments(Slugs[i - 1]);
  }

  /** No entry before a page has the page's href. */
  lemma EarlierHrefsDiffer(i: nat)
    requires 1 <= i < |AllLinks|
    ensures forall j :: 0 <= j < i ==> AllLinks[j].href != AllLinks[i].href
  {
    LinkSlugs();
    forall j | 0 <= j < i
      ensures AllLinks[j].href != AllLinks[i].href
    {
      if j > 0 {
        PageSlugInjective(Slugs[j - 1], Slugs[i - 1]);
      } else {
        assert |AllLinks[j].href| < |AllLinks[i].href|;
      }
    }
  }

  lemma PageSlugInjective(a: string, b: string)
    ensures Page(a) == Page(b) ==> a == b
  {
    var n := |"/" + Root + "/"|;
    assert Page(a)[n..] == a;
    assert Page(b)[n..] == b;
  }

  /** A page below the careers list, such as the new-career form, highlights
      "Careers". */
  lemma CareersSubpageResolves(rest: string)
    ensures Resolve(CareersHref + "/" + rest) == "Careers"
  {
    assert '/' !in Root && '/' !in "careers";
    DeepPathResolvesToSection(Root, "careers", rest);
    CareersEntry();
    ExactPageResolves(1);
  }

  lemma CareersEntry()
    ensures AllLinks[1] == NavItem("Careers", CareersHref)
    ensures CareersHref == "/" + Root + "/" + "careers"
  {
  }
}

=== FILE: team_access.dfy ===
/** The team-access panel of the career-details step: the list of members who
    can work on the new career, the role each holds, and the search over the
    company directory that offers people to add. */
module TeamAccess {
  import opened Text
  import opened JsValues
  import opened Seqs

  datatype Role = Owner | Contributor | Reviewer

  /** The label a role is shown with. */
  function RoleTitle(r: Role): string {
    match r
    case Owner => "Job Owner"
    case Contributor => "Contributor"
    case Reviewer => "Reviewer"
  }

  /** A person from the directory; `you` marks the signed-in user. */
  datatype Person = Person(
    id: string, name: string, email: string,
    avatarUrl: Option<string>, avatarText: Option<string>, you: bool)

  /** A person on the career's team, with a role. */
  datatype Member = Member(
    id: string, name: string, email: string,
    avatarUrl: Option<string>, avatarText: Option<string>, role: Role, you: bool)

  /** The person, added with the default role "reviewer". */
  function Enrol(p: Person): Member {
    Member(p.id, p.name, p.email, p.avatarUrl, p.avatarText, Reviewer, p.you)
  }

  predicate HasMember(ms: seq<Member>, id: string) {
    exists i :: 0 <= i < |ms| && ms[i].id == id
  }

  ghost predicate UniqueIds(ms: seq<Member>) {
    forall i, j :: 0 <= i < j < |ms| ==> ms[i].id != ms[j].id
  }

  function DirectoryPerson(id: string, name: string, email: string, avatarText: string): Person {
    Person(id, name, email, Some(""), Some(avatarText), false)
  }

  /** The company directory the search offers people from. */
  const Directory: seq<Person> := [
    DirectoryPerson("darlene", "Darlene Santo Tomas", "darlene@whitecloak.com", "D"),
    DirectoryPerson("demi", "Demi Wilkinson", "demi@whitecloak.com", "D"),
    DirectoryPerson("drew", "Drew Cano", "drew@whitecloak.com", "D"),
    DirectoryPerson("candice", "Candice Wu", "candice@whitecloak.com", "C"),
    DirectoryPerson("lana", "Lana Steiner", "lana@whitecloak.com", "L"),
    DirectoryPerson("natali", "Natali Craig", "natali@whitecloak.com", "N")
  ]

  /** The team the panel starts with: the signed-in owner and one contributor. */
  const InitialMembers: seq<Member> := [
    Member("sabine", "Sabine Beatrix Dy", "sabine@whitecloak.com", None, Some("S"), Owner, true),
    Member("darlene", "Darlene Santo Tomas", "darlene@whitecloak.com", None, Some("D"), Contributor, false)
  ]

  /** The starting team has distinct ids, and its only owner is the signed-in user. */
  lemma InitialMembersWellFormed()
    ensures UniqueIds(InitialMembers)
    ensures forall i :: 0 <= i < |InitialMembers| && InitialMembers[i].role == Owner ==> InitialMembers[i].you
  {
  }

  /** `addMember`: nothing happens when a member with that id is already on the
      team; otherwise the person is appended as a reviewer. */
  function AddMember(ms: seq<Member>, p: Person): (r: seq<Member>)
    ensures HasMember(ms, p.id) ==> r == ms
    ensures !HasMember(ms, p.id) ==> r == ms + [Enrol(p)] && r[|ms|].role == Reviewer
    ensures |r| <= |ms| + 1
    ensures UniqueIds(ms) ==> UniqueIds(r)
  {
    if HasMember(ms, p.id) then ms else ms + [Enrol(p)]
  }

  /** `removeMember`: drops every member with that id and keeps the others in order. */
  function RemoveMember(ms: seq<Member>, id: string): (r: seq<Member>)
    ensures forall m :: m in r <==> m in ms && m.id != id
    ensures !HasMember(r, id)
    ensures IsSubseq(r, ms)
    ensures !HasMember(ms, id) ==> r == ms
    ensures forall m :: multiset(r)[m] == if m.id != id then multiset(ms)[m] else 0
  {
    var keep := (m: Member) => m.id != id;
    var r := Filter(ms, keep);
    assert forall i :: 0 <= i < |r| ==> r[i] in r;
    forall m ensures multiset(r)[m] == if m.id != id then multiset(ms)[m] else 0 {
      FilterCounts(ms, keep, m);
    }
    r
  }

  /** Removing a person just added gives back the team as it was. */
  lemma RemoveUndoesAdd(ms: seq<Member>, p: Person)
    requires !HasMember(ms, p.id)
    ensures RemoveMember(AddMember(ms, p), p.id) == ms
  {
    var keep := (m: Member) => m.id != p.id;
    FilterConcat(ms, [Enrol(p)], keep);
    assert Filter([Enrol(p)], keep) == [];
  }

  /** Removal commutes with joining two lists of members: what is left of each
      part stays in place. */
  lemma RemoveMemberSplits(a: seq<Member>, b: seq<Member>, id: string)
    ensures RemoveMember(a + b, id) == RemoveMember(a, id) + RemoveMember(b, id)
  {
    FilterConcat(a, b, (m: Member) => m.id != id);
  }

  /** `updateRole`: the members with that id get the new role; every other field
      and every other member is unchanged. */
  function UpdateRole(ms: seq<Member>, id: string, role: Role): (r: seq<Member>)
    ensures |r| == |ms|
    ensures forall i :: 0 <= i < |ms| ==> r[i] == ms[i].(role := r[i].role)
    ensures forall i :: 0 <= i < |ms| && ms[i].id == id ==> r[i].role == role
    ensures forall i :: 0 <= i < |ms| && ms[i].id != id ==> r[i] == ms[i]
  {
    seq(|ms|, i requires 0 <= i < |ms| => if ms[i].id == id then ms[i].(role := role) else ms[i])
  }

  /** Changing a role keeps the team's ids, so it keeps them distinct. */
  lemma UpdateRoleKeepsIds(ms: seq<Member>, id: string, role: Role)
    requires UniqueIds(ms)
    ensures UniqueIds(UpdateRole(ms, id, role))
    ensures forall x :: HasMember(UpdateRole(ms, id, role), x) <==> HasMember(ms, x)
  {
  }

  /** The later of two role changes for the same member is the one that sticks. */
  lemma UpdateRoleLastWins(ms: seq<Member>, id: string, first: Role, second: Role)
    ensures UpdateRole(UpdateRole(ms, id, first), id, second) == UpdateRole(ms, id, second)
  {
  }

  /** A directory entry matches a lower-cased query when its lower-cased name or
      e-mail contains it. */
  predicate Matches(p: Person, q: string) {
    Contains(Lower(p.name), q) || Contains(Lower(p.email), q)
  }

  /** The entries matching the lower-cased query `q`, in directory order. */
  function Hits(dir: seq<Person>, q: string): (r: seq<Person>)
    ensures IsSubseq(r, dir)
    ensures forall p :: p in r <==> p in dir && Matches(p, q)
  {
    Filter(dir, (p: Person) => Matches(p, q))
  }

  /** The search results: with a blank query, the first 12 entries; otherwise the
      entries matching the trimmed, lower-cased query, at most 20 of them, in
      directory order. */
  function Search(dir: seq<Person>, query: string): (r: seq<Person>)
    ensures |r| <= 20
    ensures IsSubseq(r, dir)
    ensures Blank(query) ==> r == Take(dir, 12)
    ensures !Blank(query) ==> r == Take(Hits(dir, Lower(Trim(query))), 20)
  {
    TrimEmptyIffBlank(query);
    var q := Lower(Trim(query));
    assert q == [] <==> Trim(query) == [];
    if q == "" then
      IsSubseqRefl(dir);
      IsSubseqPrefix(dir, dir, |Take(dir, 12)|);
      Take(dir, 12)
    else
      var hits := Hits(dir, q);
      IsSubseqPrefix(hits, dir, |Take(hits, 20)|);
      Take(hits, 20)
  }

  /** Every result of a non-blank query matches it, and when the directory has
      at most 20 entries every matching entry is among the results. */
  lemma SearchFindsMatches(dir: seq<Person>, query: string)
    requires !Blank(query)
    ensures forall p :: p in Search(dir, query) ==> Matches(p, Lower(Trim(query)))
    ensures |dir| <= 20 ==>
      forall p :: p in Search(dir, query) <==> p in dir && Matches(p, Lower(Trim(query)))
  {
    var hits := Hits(dir, Lower(Trim(query)));
    assert Search(dir, query) == Take(hits, 20);
    assert forall p :: p in Take(hits, 20) ==> p in hits;
  }

  /** The directory is small enough that a blank query lists all of it and any
      other query lists every matching entry. */
  lemma DirectorySearchIsComplete(query: string)
    ensures Blank(query) ==> Search(Directory, query) == Directory
    ensures !Blank(query) ==>
      forall p :: p in Search(Directory, query) <==> p in Directory && Matches(p, Lower(Trim(query)))
  {
    if !Blank(query) {
      SearchFindsMatches(Directory, query);
    }
  }
}

=== FILE: text.dfy ===
/** String operations the components rely on, written out with the JavaScript
    semantics they have in the source: `trim`, ASCII case mapping, `includes`,
    decimal formatting of integers, `split` on one character and `join`. */
module Text {

  /** The characters `String.prototype.trim` removes: the ECMAScript WhiteSpace
      and LineTerminator code points. */
  predicate IsSpace(c: char) {
    var u := c as int;
    || u == 0x09 || u == 0x0B || u == 0x0C || u == 0x20          // TAB, VT, FF, SP
    || u == 0xA0 || u == 0xFEFF                                  // NBSP, ZWNBSP
    || u == 0x1680 || (0x2000 <= u <= 0x200A) || u == 0x202F     // other Zs
    || u == 0x205F || u == 0x3000
    || u == 0x0A || u == 0x0D || u == 0x2028 || u == 0x2029      // line terminators
  }

  /** Every character of `s` is white space (the empty string included). */
  ghost predicate Blank(s: string) {
    forall i :: 0 <= i < |s| ==> IsSpace(s[i])
  }

  /** `s` with its leading white space removed. */
  function TrimStart(s: string): (r: string)
    ensures |r| <= |s| && r == s[|s| - |r|..]
    ensures r == [] || !IsSpace(r[0])
    ensures Blank(s[..|s| - |r|])
  {
    if |s| > 0 && IsSpace(s[0]) then
      var r := TrimStart(s[1..]);
      assert s[..|s| - |r|] == [s[0]] + s[1..][..|s| - 1 - |r|];
      r
    else s
  }

  /** `s` with its trailing white space removed. */
  function TrimEnd(s: string): (r: string)
    ensures |r| <= |s| && r == s[..|r|]
    ensures r == [] || !IsSpace(r[|r| - 1])
    ensures Blank(s[|r|..])
  {
    if |s| > 0 && IsSpace(s[|s| - 1]) then
      var r := TrimEnd(s[..|s| - 1]);
      assert s[|r|..] == s[..|s| - 1][|r|..] + [s[|s| - 1]];
      r
    else s
  }

  /** `s.trim()`: the part of `s` between its leading and trailing white space. */
  function Trim(s: string): (r: string)
    ensures |r| <= |s|
    ensures r == [] || (!IsSpace(r[0]) && !IsSpace(r[|r| - 1]))
  {
    TrimEnd(TrimStart(s))
  }

  /** The trimmed string is empty exactly when the string is blank: this is the
      test every `!x.trim()` in the source performs. */
  lemma TrimEmptyIffBlank(s: string)
    ensures Trim(s) == [] <==> Blank(s)
  {
    var t := TrimStart(s);
    if Trim(s) == [] {
      assert t[0..] == t;
      assert t == [];
      assert s[..|s| - |t|] == s;
    } else {
      var r := Trim(s);
      assert r[0] == t[0];
      assert t[0] == s[|s| - |t|];
      assert !IsSpace(s[|s| - |t|]);
    }
  }

  /** ASCII upper-case to lower-case; every other character is unchanged. */
  function LowerChar(c: char): char {
    if 'A' <= c <= 'Z' then (c as int + 32) as char else c
  }

  /** ASCII lower-case to upper-case; every other character is unchanged. */
  function UpperChar(c: char): char {
    if 'a' <= c <= 'z' then (c as int - 32) as char else c
  }

  /** `s.toLowerCase()` restricted to ASCII letters. */
  function Lower(s: string): (r: string)
    ensures |r| == |s|
    ensures forall i :: 0 <= i < |s| ==> r[i] == LowerChar(s[i])
  {
    if s == [] then [] else [LowerChar(s[0])] + Lower(s[1..])
  }

  /** `s.toUpperCase()` restricted to ASCII letters. */
  function Upper(s: string): (r: string)
    ensures |r| == |s|
    ensures forall i :: 0 <= i < |s| ==> r[i] == UpperChar(s[i])
  {
    if s == [] then [] else [UpperChar(s[0])] + Upper(s[1..])
  }

  /** `p` occurs in `s` at position `i`. */
  ghost predicate OccursAt(s: string, p: string, i: int) {
    0 <= i && i + |p| <= |s| && s[i..i + |p|] == p
  }

  /** `s.startsWith(p)`. */
  predicate StartsWith(s: string, p: string) {
    |p| <= |s| && s[..|p|] == p
  }

  /** `s.includes(p)`, decided by scanning the start positions in order. */
  predicate Contains(s: string, p: string)
    decreases |s|
  {
    StartsWith(s, p) || (|s| > 0 && Contains(s[1..], p))
  }

  /** `Contains` holds exactly when `p` occurs at some position of `s`. */
  lemma {:induction false} ContainsIffOccurs(s: string, p: string)
    ensures Contains(s, p) <==> exists i :: OccursAt(s, p, i)
    decreases |s|
  {
    if |p| <= |s| {
      assert s[0..|p|] == s[..|p|];
    }
    assert OccursAt(s, p, 0) <==> StartsWith(s, p);
    if |s| > 0 {
      ContainsIffOccurs(s[1..], p);
      forall i | OccursAt(s[1..], p, i) ensures OccursAt(s, p, i + 1) {
        assert s[i + 1..i + 1 + |p|] == s[1..][i..i + |p|];
      }
      forall i | OccursAt(s, p, i) && i >= 1 ensures OccursAt(s[1..], p, i - 1) {
        assert s[1..][i - 1..i - 1 + |p|] == s[i..i + |p|];
      }
    }
  }

  /** Containment is transitive: whatever contains `m` contains every substring of `m`. */
  lemma ContainsTransitive(s: string, m: string, p: string)
    requires Contains(s, m) && Contains(m, p)
    ensures Contains(s, p)
  {
    ContainsIffOccurs(s, m);
    ContainsIffOccurs(m, p);
    var i :| OccursAt(s, m, i);
    var j :| OccursAt(m, p, j);
    forall k | 0 <= k < |p| ensures s[i + j + k] == p[k] {
      assert s[i..i + |m|][j + k] == s[i + j + k];
      assert m[j..j + |p|][k] == m[j + k];
    }
    assert s[i + j..i + j + |p|] == p;
    assert OccursAt(s, p, i + j);
    ContainsIffOccurs(s, p);
  }

  /** The decimal digit for `d`: '0' to '9'. */
  function DigitChar(d: nat): char
    requires d < 10
  {
    ('0' as int + d) as char
  }

  predicate IsDigit(c: char) {
    '0' as int <= c as int <= '9' as int
  }

  /** Decimal notation of a natural number, as `String(n)` writes it. */
  function NatToString(n: nat): (r: string)
    ensures |r| >= 1
    ensures forall i :: 0 <= i < |r| ==> IsDigit(r[i])
    ensures r[0] == '0' ==> n == 0
    decreases n
  {
    if n < 10 then [DigitChar(n)] else NatToString(n / 10) + [DigitChar(n % 10)]
  }

  /** Decimal notation of an integer, with a leading `-` when it is negative. */
  function IntToString(n: int): string {
    if n < 0 then "-" + NatToString(-n) else NatToString(n)
  }

  /** The value of a non-empty string of decimal digits. */
  function DigitsValue(s: string): nat
    requires forall i :: 0 <= i < |s| ==> IsDigit(s[i])
    decreases |s|
  {
    if s == [] then 0
    else
      assert IsDigit(s[|s| - 1]);
      DigitsValue(s[..|s| - 1]) * 10 + (s[|s| - 1] as int - '0' as int)
  }

  /** Reading back the decimal notation of `n` gives `n`. */
  lemma {:induction false} DigitsOfNatToString(n: nat)
    ensures DigitsValue(NatToString(n)) == n
    decreases n
  {
    var r := NatToString(n);
    if n >= 10 {
      DigitsOfNatToString(n / 10);
      assert r[..|r| - 1] == NatToString(n / 10);
    }
  }

  /** The digit strings of two different numbers differ. */
  lemma NatToStringInjective(m: nat, n: nat)
    requires NatToString(m) == NatToString(n)
    ensures m == n
  {
    DigitsOfNatToString(m);
    DigitsOfNatToString(n);
  }

  /** `parts.join(sep)`. */
  function Join(parts: seq<string>, sep: string): string
    decreases |parts|
  {
    if parts == [] then ""
    else if |parts| == 1 then parts[0]
    else parts[0] + sep + Join(parts[1..], sep)
  }

  /** Number of occurrences of the character `c` in `s`. */
  function CountChar(s: string, c: char): nat {
    if s == [] then 0 else (if s[0] == c then 1 else 0) + CountChar(s[1..], c)
  }

  /** `s.split(sep)` for a one-character separator: the maximal runs between
      separators, empty runs included. */
  function Split(s: string, sep: char): (parts: seq<string>)
    ensures |parts| >= 1
    ensures forall k, i :: 0 <= k < |parts| && 0 <= i < |parts[k]| ==> parts[k][i] != sep
    decreases |s|
  {
    if s == [] then [""]
    else
      var rest := Split(s[1..], sep);
      if s[0] == sep then [""] + rest else [[s[0]] + rest[0]] + rest[1..]
  }

  /** One step of `Split`: a separator opens a new part, any other character
      joins the first part. */
  lemma SplitCons(c: char, t: string, sep: char)
    ensures Split([c] + t, sep) ==
      if c == sep then [""] + Split(t, sep) else [[c] + Split(t, sep)[0]] + Split(t, sep)[1..]
  {
    assert ([c] + t)[1..] == t;
  }

  /** A string without the separator is a single part. */
  lemma {:induction false} SplitNoSep(a: string, sep: char)
    requires sep !in a
    ensures Split(a, sep) == [a]
    decreases |a|
  {
    if a != [] {
      SplitNoSep(a[1..], sep);
      SplitCons(a[0], a[1..], sep);
      assert [a[0]] + a[1..] == a;
    }
  }

  /** A leading run without the separator, then the separator, is the first
      part and the rest is split on its own. */
  lemma {:induction false} SplitSep(a: string, b: string, sep: char)
    requires sep !in a
    ensures Split(a + [sep] + b, sep) == [a] + Split(b, sep)
    decreases |a|
  {
    if a == [] {
      assert a + [sep] + b == [sep] + b;
      SplitCons(sep, b, sep);
    } else {
      SplitSep(a[1..], b, sep);
      assert a + [sep] + b == [a[0]] + (a[1..] + [sep] + b);
      SplitCons(a[0], a[1..] + [sep] + b, sep);
      assert [a[0]] + a[1..] == a;
    }
  }

  /** `split` yields one more part than there are separators. */
  lemma {:induction false} SplitCount(s: string, sep: char)
    ensures |Split(s, sep)| == CountChar(s, sep) + 1
    decreases |s|
  {
    if s != [] {
      SplitCount(s[1..], sep);
    }
  }

  /** Joining the parts of a split with the separator restores the string. */
  lemma {:induction false} JoinSplit(s: string, sep: char)
    ensures Join(Split(s, sep), [sep]) == s
    decreases |s|
  {
    if s != [] {
      var rest := Split(s[1..], sep);
      JoinSplit(s[1..], sep);
      if s[0] == sep {
        assert Split(s, sep) == [""] + rest;
        assert ([""] + rest)[1..] == rest;
      } else {
        var parts := [[s[0]] + rest[0]] + rest[1..];
        if |rest| > 1 {
          assert parts[1..] == rest[1..];
          assert Join(rest, [sep]) == rest[0] + [sep] + Join(rest[1..], [sep]);
        }
      }
    }
  }
}

=== FILE: wizard.dfy ===
/** Decision logic shared by the steps of the "Add Career" wizard: form
    validation, step-completion percentages, the connector fill of the step bar,
    the publish-or-unpublished status choice, the order in which a save is
    refused, and the interview-question payload sent with a save. */
module Wizard {
  import opened Text
  import opened JsValues
  import AddCareer

  /** The number of wizard steps; steps are numbered 1 to 5. */
  const StepCount := 5
  /** A save needs at least this many interview questions. */
  const MinQuestions := 5

  const RequiredMessage := "This is a required field."
  const MaxBelowMinMessage := "Maximum must be greater than minimum."

  /** The career-details form. Salaries are kept as typed. */
  datatype FormData = FormData(
    jobTitle: string, employmentType: string, arrangement: string, country: string,
    state: string, city: string, minSalary: string, maxSalary: string,
    negotiable: bool, jobDescription: string)

  datatype FormField =
    | JobTitle | EmploymentType | Arrangement | State | City | MinSalary | MaxSalary | JobDescription

  function Clamp(x: int, lo: int, hi: int): int
    requires lo <= hi
  {
    if x < lo then lo else if x > hi then hi else x
  }

  /* ---------------------------- validation ---------------------------- */

  /** The error message for one field of the form, if that field is in error.
      The salary pair is checked only when the salary is not negotiable; the
      maximum is compared with the minimum only when both are numbers. */
  function FieldError(f: FormData, withDescription: bool, k: FormField): (e: Option<string>)
    ensures k == JobTitle ==> (e.Some? <==> Blank(f.jobTitle))
    ensures k == JobDescription ==> (e.Some? <==> withDescription && Blank(f.jobDescription))
    ensures f.negotiable && (k == MinSalary || k == MaxSalary) ==> e.None?
    ensures k == MaxSalary ==>
      (e.Some? <==>
         !f.negotiable &&
         (ParseNumber(f.maxSalary).NaN?
          || (ParseNumber(f.minSalary).Finite? && ParseNumber(f.maxSalary).n < ParseNumber(f.minSalary).n)))
    ensures k == MaxSalary && e.Some? && ParseNumber(f.maxSalary).Finite? ==> e.value == MaxBelowMinMessage
    ensures e.Some? && k != MaxSalary ==> e.value == RequiredMessage
  {
    TrimEmptyIffBlank(f.jobTitle);
    TrimEmptyIffBlank(f.jobDescription);
    match k
    case JobTitle => if Trim(f.jobTitle) == "" then Some(RequiredMessage) else None
    case EmploymentType => if f.employmentType == "" then Some(RequiredMessage) else None
    case Arrangement => if f.arrangement == "" then Some(RequiredMessage) else None
    case State => if f.state == "" then Some(RequiredMessage) else None
    case City => if f.city == "" then Some(RequiredMessage) else None
    case MinSalary =>
      if !f.negotiable && ParseNumber(f.minSalary).NaN? then Some(RequiredMessage) else None
    case MaxSalary =>
      var min := ParseNumber(f.minSalary);
      var max := ParseNumber(f.maxSalary);
      if f.negotiable then None
      else if max.NaN? then Some(RequiredMessage)
      // comparisons with NaN are false, so only two numbers are compared
      else if min.Finite? && max.n < min.n then Some(MaxBelowMinMessage)
      else None
    case JobDescription =>
      if withDescription && Trim(f.jobDescription) == "" then Some(RequiredMessage) else None
  }

  const AllFields: set<FormField> :=
    {JobTitle, EmploymentType, Arrangement, State, City, MinSalary, MaxSalary, JobDescription}

  /** The form's errors by field: every field that `FieldError` flags, with its
      message. The career-details step also requires a job description
      (`withDescription`); the later steps do not check it. */
  function Validate(f: FormData, withDescription: bool): (errors: map<FormField, string>)
    ensures forall k :: k in errors <==> FieldError(f, withDescription, k).Some?
    ensures forall k :: k in errors ==> errors[k] == FieldError(f, withDescription, k).value
  {
    map k | k in AllFields && FieldError(f, withDescription, k).Some? :: FieldError(f, withDescription, k).value
  }

  /** Which fields the form flags, and why: blank title or description, an
      empty select or location, and, unless the salary is negotiable, an amount
      that is not a number or a maximum below the minimum. */
  lemma ValidateFields(f: FormData, withDescription: bool)
    ensures JobTitle in Validate(f, withDescription) <==> Blank(f.jobTitle)
    ensures EmploymentType in Validate(f, withDescription) <==> f.employmentType == ""
    ensures Arrangement in Validate(f, withDescription) <==> f.arrangement == ""
    ensures State in Validate(f, withDescription) <==> f.state == ""
    ensures City in Validate(f, withDescription) <==> f.city == ""
    ensures JobDescription in Validate(f, withDescription) <==> withDescription && Blank(f.jobDescription)
  {
  }

  lemma ValidateSalary(f: FormData, withDescription: bool)
    ensures f.negotiable ==> MinSalary !in Validate(f, withDescription) && MaxSalary !in Validate(f, withDescription)
    ensures MinSalary in Validate(f, withDescription) <==> !f.negotiable && ParseNumber(f.minSalary).NaN?
    ensures MaxSalary in Validate(f, withDescription) <==>
      !f.negotiable &&
      (ParseNumber(f.maxSalary).NaN?
       || (ParseNumber(f.minSalary).Finite? && ParseNumber(f.maxSalary).n < ParseNumber(f.minSalary).n))
    ensures MaxSalary in Validate(f, withDescription) && ParseNumber(f.maxSalary).Finite? ==>
      Validate(f, withDescription)[MaxSalary] == MaxBelowMinMessage
    ensures forall k :: k in Validate(f, withDescription) && k != MaxSalary ==>
      Validate(f, withDescription)[k] == RequiredMessage
  {
  }

  predicate HasErrors(f: FormData, withDescription: bool) {
    |Validate(f, withDescription)| > 0
  }

  /** A negotiable salary is never an error, whatever the two amounts say. */
  lemma NegotiableSkipsSalaryChecks(f: FormData, withDescription: bool, lo: string, hi: string)
    requires f.negotiable
    ensures Validate(f, withDescription) == Validate(f.(minSalary := lo, maxSalary := hi), withDescription)
  {
    var g := f.(minSalary := lo, maxSalary := hi);
    forall k: FormField
      ensures FieldError(f, withDescription, k) == FieldError(g, withDescription, k)
    {
    }
    assert Validate(f, withDescription).Keys == Validate(g, withDescription).Keys;
  }

  /* ---------------------- step-completion percentages ---------------------- */

  /** The seven checks behind the career-details progress. */
  function DetailChecks(f: FormData): seq<bool> {
    [ Trim(f.jobTitle) != "",
      f.employmentType != "",
      f.arrangement != "",
      f.state != "",
      f.city != "",
      if f.negotiable then true else f.minSalary != "" && f.maxSalary != "",
      Trim(f.jobDescription) != "" ]
  }

  function CountTrue(bs: seq<bool>): (n: nat)
    ensures n <= |bs|
    ensures n == |bs| <==> forall i :: 0 <= i < |bs| ==> bs[i]
  {
    if bs == [] then 0 else (if bs[0] then 1 else 0) + CountTrue(bs[1..])
  }

  /** `Math.round(k / n * 100)` for `0 <= k <= n`, in integers: the nearest whole
      percentage, halves rounded up. */
  function RoundedPercent(k: nat, n: nat): (p: nat)
    requires 0 < n && k <= n
    ensures 0 <= p <= 100
    ensures p * 2 * n <= 200 * k + n < (p + 1) * 2 * n
  {
    var p := (200 * k + n) / (2 * n);
    DivisionBounds(200 * k + n, 2 * n);
    assert p * 2 * n == p * (2 * n) && (p + 1) * 2 * n == p * (2 * n) + 2 * n;
    CancelDoubled(p, 101, n);
    p
  }

  /** The quotient times the divisor is at most the dividend, and less than a divisor below it. */
  lemma DivisionBounds(a: nat, b: nat)
    requires 0 < b
    ensures (a / b) * b <= a < (a / b) * b + b
  {
  }

  /** Completion of the career-details step: the share of the seven checks that
      pass, as a rounded percentage. */
  function Step1Percent(f: FormData): (p: nat)
    ensures 0 <= p <= 100
    ensures p == 100 <==> forall i :: 0 <= i < 7 ==> DetailChecks(f)[i]
    ensures p == 0 <==> forall i :: 0 <= i < 7 ==> !DetailChecks(f)[i]
  {
    var k := CountTrue(DetailChecks(f));
    CountExtremes(DetailChecks(f));
    RoundedPercent(k, 7)
  }

  /** No check passes exactly when the count is zero. */
  lemma CountExtremes(bs: seq<bool>)
    ensures CountTrue(bs) == 0 <==> forall i :: 0 <= i < |bs| ==> !bs[i]
  {
    if CountTrue(bs) == 0 {
      CountZero(bs);
    } else {
      CountPositive(bs);
    }
  }

  lemma {:induction false} CountZero(bs: seq<bool>)
    requires CountTrue(bs) == 0
    ensures forall i :: 0 <= i < |bs| ==> !bs[i]
  {
    if bs != [] {
      CountZero(bs[1..]);
      assert forall i :: 1 <= i < |bs| ==> bs[i] == bs[1..][i - 1];
    }
  }

  lemma {:induction false} CountPositive(bs: seq<bool>)
    requires CountTrue(bs) > 0
    ensures exists i :: 0 <= i < |bs| && bs[i]
  {
    if !bs[0] {
      CountPositive(bs[1..]);
      var i :| 0 <= i < |bs[1..]| && bs[1..][i];
      assert bs[i + 1];
    }
  }

  /** The rounded percentages for 0..7 passing checks, as the source's floating
      point computes them. */
  lemma Step1PercentTable()
    ensures RoundedPercent(0, 7) == 0 && RoundedPercent(1, 7) == 14
    ensures RoundedPercent(2, 7) == 29 && RoundedPercent(3, 7) == 43
    ensures RoundedPercent(4, 7) == 57 && RoundedPercent(5, 7) == 71
    ensures RoundedPercent(6, 7) == 86 && RoundedPercent(7, 7) == 100
  {
  }

  /** Passing more checks never lowers the rounded percentage. */
  lemma RoundedPercentMonotone(k: nat, m: nat, n: nat)
    requires 0 < n && k <= m <= n
    ensures RoundedPercent(k, n) <= RoundedPercent(m, n)
  {
    var p, q := RoundedPercent(k, n), RoundedPercent(m, n);
    assert p * 2 * n < (q + 1) * 2 * n;
    CancelDoubled(p, q + 1, n);
  }

  /** A positive factor `2 * c` on both sides of `<` cancels. */
  lemma CancelDoubled(a: nat, b: nat, c: nat)
    requires 0 < c && a * 2 * c < b * 2 * c
    ensures a < b
  {
    assert a * 2 * c == a * (2 * c) && b * 2 * c == b * (2 * c);
    MulMonotone(a, b, 2 * c);
  }

  lemma MulMonotone(a: nat, b: nat, c: nat)
    ensures a >= b ==> a * c >= b * c
  {
    assert a * c - b * c == (a - b) * c;
  }

  /** Completion of the AI-interview step: 25 for a non-blank secret prompt plus 10
      per question up to 25, capped at 50. */
  function Step3Percent(secret: string, totalQuestions: nat): (p: nat)
    ensures p <= 50
    ensures p == 50 <==> !Blank(secret) && totalQuestions >= 3
    ensures p == 0 <==> Blank(secret) && totalQuestions == 0
  {
    TrimEmptyIffBlank(secret);
    var base := if Trim(secret) != "" then 25 else 0;
    var questionPoints := if totalQuestions * 10 < 25 then totalQuestions * 10 else 25;
    if base + questionPoints < 50 then base + questionPoints else 50
  }

  /** More questions never lower the AI-interview percentage. */
  lemma Step3PercentMonotone(secret: string, n: nat, m: nat)
    requires n <= m
    ensures Step3Percent(secret, n) <= Step3Percent(secret, m)
  {
  }

  /** The outer cap of 50 never takes effect: the two parts already sum to at most 50. */
  lemma Step3CapNeverBinds(secret: string, n: nat)
    ensures Step3Percent(secret, n) == (if Trim(secret) != "" then 25 else 0) + (if n * 10 < 25 then n * 10 else 25)
  {
  }

  /** Per-step stored percentages, keyed by step number. */
  type StepPercents = map<int, int>

  /** `setStepPercent`: stores the percentage for one step, clamped to 0..100, and
      leaves every other step alone. Call sites pass whole numbers, so rounding is
      the identity. */
  function SetStepPercent(m: StepPercents, step: int, percent: int): (r: StepPercents)
    ensures r.Keys == m.Keys + {step}
    ensures 0 <= r[step] <= 100
    ensures 0 <= percent <= 100 ==> r[step] == percent
    ensures percent < 0 ==> r[step] == 0
    ensures percent > 100 ==> r[step] == 100
    ensures forall s :: s in m && s != step ==> r[s] == m[s]
  {
    m[step := Clamp(percent, 0, 100)]
  }

  /** Sets each of `steps` to `percent`, in order. */
  function SetEach(m: StepPercents, steps: seq<int>, percent: int): (r: StepPercents)
    decreases |steps|
  {
    if steps == [] then m else SetEach(SetStepPercent(m, steps[0], percent), steps[1..], percent)
  }

  /** What a step component does on mount when it marks every step at 50%. */
  function InitialStepPercents(): StepPercents {
    SetEach(map[], [1, 2, 3, 4, 5], 50)
  }

  lemma {:induction false} SetEachProperties(m: StepPercents, steps: seq<int>, percent: int)
    requires 0 <= percent <= 100
    ensures SetEach(m, steps, percent).Keys == m.Keys + set s | s in steps
    ensures forall s :: s in steps ==> SetEach(m, steps, percent)[s] == percent
    ensures forall s :: s in m && s !in steps ==> SetEach(m, steps, percent)[s] == m[s]
    decreases |steps|
  {
    if steps != [] {
      SetEachProperties(SetStepPercent(m, steps[0], percent), steps[1..], percent);
      assert forall s :: s in steps <==> s == steps[0] || s in steps[1..];
    }
  }

  /** After the first mount effect every one of the five steps is at 50%. */
  lemma InitialPercentsAreHalf()
    ensures InitialStepPercents().Keys == {1, 2, 3, 4, 5}
    ensures forall s :: s in InitialStepPercents() ==> InitialStepPercents()[s] == 50
  {
    SetEachProperties(map[], [1, 2, 3, 4, 5], 50);
    assert (set s | s in [1, 2, 3, 4, 5]) == {1, 2, 3, 4, 5};
  }

  /** The review and pipeline steps after both mount effects: every step at
      50, then step 3 set to the AI-interview percentage of the component's
      prompt and question count. */
  function MountedStepPercents(secret: string, totalQuestions: nat): (r: StepPercents)
    ensures r.Keys == {1, 2, 3, 4, 5}
    ensures r[3] == Step3Percent(secret, totalQuestions)
    ensures forall s :: s in r && s != 3 ==> r[s] == 50
  {
    InitialPercentsAreHalf();
    SetStepPercent(InitialStepPercents(), 3, Step3Percent(secret, totalQuestions))
  }

  /** With the never-set prompt and questions, step 3 ends at 0 and the others at 50. */
  lemma MountedPercentsAsWritten()
    ensures MountedStepPercents(UnsetSecret, UnsetTotal) == map[1 := 50, 2 := 50, 3 := 0, 4 := 50, 5 := 50]
  {
    var r := MountedStepPercents(UnsetSecret, UnsetTotal);
    assert Step3Percent(UnsetSecret, UnsetTotal) == 0;
    assert r.Keys == map[1 := 50, 2 := 50, 3 := 0, 4 := 50, 5 := 50].Keys;
  }

  /* --------------------------- step-bar connectors --------------------------- */

  /** The fill of the connector after `step` in the later steps' bars: the stored
      percent (0 when none) clamped to 0..100 for the active step, 100 for a
      completed step, 0 for an upcoming one. */
  function StepFill(step: int, active: int, percents: StepPercents): (fill: int)
    ensures 0 <= fill <= 100
    ensures step < active ==> fill == 100
    ensures step > active ==> fill == 0
    ensures step == active && step in percents ==> fill == Clamp(percents[step], 0, 100)
    ensures step == active && step !in percents ==> fill == 0
  {
    var stored := if step in percents then percents[step] else if step < active then 100 else 0;
    if step == active then Clamp(stored, 0, 100) else if step < active then 100 else 0
  }

  /** The fill of the connector after `step` in the career-details bar: the
      step-1 percentage capped at 50 for the active step, 50 for a completed
      step, 0 for an upcoming one. It never exceeds half. */
  function DetailsFill(step: int, active: int, step1Percent: int): (fill: int)
    ensures 0 <= fill <= 50
    ensures step < active ==> fill == 50
    ensures step > active ==> fill == 0
    ensures step == active && 0 <= step1Percent <= 50 ==> fill == step1Percent
  {
    if step == active then Clamp(step1Percent, 0, 50) else if step < active then 50 else 0
  }

  /** Along one bar the connectors fill from left to right: a connector is never
      fuller than the one before it, whatever percents are stored. */
  lemma StepFillDescends(s1: int, s2: int, active: int, percents: StepPercents)
    requires s1 <= s2
    ensures StepFill(s2, active, percents) <= StepFill(s1, active, percents)
  {
  }

  /** Moving the active step forward never empties a connector. */
  lemma StepFillGrowsWithActive(step: int, a1: int, a2: int, percents: StepPercents)
    requires a1 <= a2
    ensures StepFill(step, a1, percents) <= StepFill(step, a2, percents)
  {
  }

  /** The same two orderings for the career-details bar. */
  lemma DetailsFillMonotone(s1: int, s2: int, a1: int, a2: int, p: int)
    requires s1 <= s2 && a1 <= a2
    ensures DetailsFill(s2, a1, p) <= DetailsFill(s1, a1, p)
    ensures DetailsFill(s1, a1, p) <= DetailsFill(s1, a2, p)
  {
  }

  /* --------------------------- status and saving --------------------------- */

  datatype Status = Published | Unpublished

  /** Slots are full when the active careers reach the available slots, and the
      status is then Unpublished. The career-details step sends this status with
      the career. The AI-interview step only chooses its toast by it, and the
      review and pipeline steps compute it without using it. */
  function StatusFor(totalActiveCareers: int, availableJobSlots: int): (s: Status)
    ensures s == Unpublished <==> totalActiveCareers >= availableJobSlots
    ensures s == Published <==> totalActiveCareers < availableJobSlots
  {
    if totalActiveCareers >= availableJobSlots then Unpublished else Published
  }

  /** The wizard's own slot count, `(plan.jobLimit || 3) + (extraJobSlots || 0)`:
      a missing, zero or `NaN` plan limit counts as 3 and missing, zero or `NaN`
      extra slots as 0. The stored limits are taken to be numbers: the wizard
      applies no `Number()`, and a stored string is not modelled. */
  function WizardJobSlots(org: AddCareer.OrgDetails): (slots: int)
    ensures (org.planJobLimit.None? || org.planJobLimit.value.NaN? || org.planJobLimit.value.n == 0) ==>
      slots == 3 + AddCareer.ExtraSlotsOrZero(org)
    ensures org.planJobLimit.Some? && org.planJobLimit.value.Finite? && org.planJobLimit.value.n != 0 ==>
      slots == org.planJobLimit.value.n + AddCareer.ExtraSlotsOrZero(org)
  {
    var plan := match org.planJobLimit
      case Some(Finite(n)) => if n != 0 then n else 3
      case _ => 3;
    var extra := match org.extraJobSlots
      case Some(Finite(n)) => n
      case _ => 0;
    plan + extra
  }

  /** The wizard and the add-career route compute the same limit except for a
      plan limit of 0 (the wizard reads it as 3) and a `NaN` plan limit with
      extra slots (the route ignores the extra slots). */
  lemma WizardAndRouteLimits(org: AddCareer.OrgDetails)
    ensures WizardJobSlots(org) == AddCareer.JobLimitTotal(org) <==>
      !(org.planJobLimit == Some(Finite(0))
        || (org.planJobLimit == Some(NaN) && AddCareer.ExtraSlotsOrZero(org) != 0))
  {
  }

  /** After a successful save the career-details step advances by one, never past the last step. */
  function AdvanceStep(step: int): (next: int)
    ensures next <= StepCount
    ensures step < StepCount ==> next == step + 1
    ensures step >= StepCount ==> next == StepCount
  {
    if step + 1 < StepCount then step + 1 else StepCount
  }

  /** Why a save was refused. */
  datatype Blocker = MissingContext | FormIncomplete | SecretMissing | TooFewQuestions

  function BlockerMessage(b: Blocker): string {
    match b
    case MissingContext => "Missing organization or user context"
    case FormIncomplete => "Please complete required fields."
    case SecretMissing => "Please enter AI interview secret prompt."
    case TooFewQuestions => "Please add at least " + NatToString(MinQuestions) + " interview questions."
  }

  /** A save is refused for a reason, or goes ahead with a status. */
  datatype SaveDecision = Blocked(reason: Blocker) | Save(status: Status)

  /** The signed-in context: organization id and user e-mail, empty when missing. */
  datatype Context = Context(orgID: string, email: string)

  predicate HasContext(c: Context) {
    c.orgID != "" && c.email != ""
  }

  /** "Save and Continue" on the career-details step: refused without a context,
      then refused while the form (job description included) has errors;
      otherwise saved, unpublished when the slots are full. */
  function CareerDetailsSave(c: Context, f: FormData, totalActive: int, slots: int): (d: SaveDecision)
    ensures d == Blocked(MissingContext) <==> !HasContext(c)
    ensures d == Blocked(FormIncomplete) <==> HasContext(c) && HasErrors(f, true)
    ensures d.Save? <==> HasContext(c) && !HasErrors(f, true)
    ensures d.Save? ==> (d.status == Unpublished <==> totalActive >= slots)
  {
    if !HasContext(c) then Blocked(MissingContext)
    else if HasErrors(f, true) then Blocked(FormIncomplete)
    else Save(StatusFor(totalActive, slots))
  }

  /** The career-details step after "Save and Continue": it advances only when the
      save went ahead and the request succeeded. */
  function CareerDetailsStepAfterSave(step: int, d: SaveDecision, requestSucceeded: bool): (next: int)
    requires 1 <= step <= StepCount
    ensures 1 <= next <= StepCount
    ensures d.Blocked? || !requestSucceeded ==> next == step
    ensures d.Save? && requestSucceeded ==> next == AdvanceStep(step)
  {
    if d.Save? && requestSucceeded then AdvanceStep(step) else step
  }

  /** "Save and Continue" on the AI-interview step. The refusals come in this
      order: no context, form errors (no job-description check), a blank secret
      prompt, fewer than five questions. The status of a save only chooses the
      toast; the posted body does not carry it (see `StepSaveBody`). */
  function InterviewSetupSave(c: Context, f: FormData, secret: string, totalQuestions: nat,
                              totalActive: int, slots: int): (d: SaveDecision)
    ensures d == Blocked(MissingContext) <==> !HasContext(c)
    ensures d == Blocked(FormIncomplete) <==> HasContext(c) && HasErrors(f, false)
    ensures d == Blocked(SecretMissing) <==> HasContext(c) && !HasErrors(f, false) && Blank(secret)
    ensures d == Blocked(TooFewQuestions) <==>
      HasContext(c) && !HasErrors(f, false) && !Blank(secret) && totalQuestions < MinQuestions
    ensures d.Save? <==>
      HasContext(c) && !HasErrors(f, false) && !Blank(secret) && totalQuestions >= MinQuestions
    ensures d.Save? ==> d.status == StatusFor(totalActive, slots)
  {
    TrimEmptyIffBlank(secret);
    if !HasContext(c) then Blocked(MissingContext)
    else if HasErrors(f, false) then Blocked(FormIncomplete)
    else if Trim(secret) == "" then Blocked(SecretMissing)
    else if totalQuestions < MinQuestions then Blocked(TooFewQuestions)
    else Save(StatusFor(totalActive, slots))
  }

  /** "Publish" on the review step: refused for a blank secret prompt, then for
      fewer than five questions; neither the context nor the form is checked.
      The status of a save is computed but not sent. */
  function ReviewSave(secret: string, totalQuestions: nat, totalActive: int, slots: int): (d: SaveDecision)
    ensures d == Blocked(SecretMissing) <==> Blank(secret)
    ensures d == Blocked(TooFewQuestions) <==> !Blank(secret) && totalQuestions < MinQuestions
    ensures d.Save? <==> !Blank(secret) && totalQuestions >= MinQuestions
    ensures d.Save? ==> (d.status == Unpublished <==> totalActive >= slots)
  {
    TrimEmptyIffBlank(secret);
    if Trim(secret) == "" then Blocked(SecretMissing)
    else if totalQuestions < MinQuestions then Blocked(TooFewQuestions)
    else Save(StatusFor(totalActive, slots))
  }

  /** "Save and Continue" on the pipeline step: never refused. The status is
      computed but not sent. */
  function PipelineSave(totalActive: int, slots: int): (d: SaveDecision)
    ensures d.Save?
    ensures d.status == Unpublished <==> totalActive >= slots
  {
    Save(StatusFor(totalActive, slots))
  }

  /** "Save as Unpublished" on the career-details step: refused only without a
      context; the form is not checked and the status is always Unpublished. */
  function SaveAsUnpublished(c: Context): (d: SaveDecision)
    ensures d.Blocked? <==> !HasContext(c)
    ensures d.Blocked? ==> d.reason == MissingContext
    ensures d.Save? ==> d.status == Unpublished
  {
    if !HasContext(c) then Blocked(MissingContext) else Save(Unpublished)
  }

  /** With the slots full, "Save and Continue" saves exactly what "Save as
      Unpublished" does, whenever the form lets it save at all. */
  lemma FullSlotsSaveAsUnpublished(c: Context, f: FormData, totalActive: int, slots: int)
    requires totalActive >= slots && !HasErrors(f, true)
    ensures CareerDetailsSave(c, f, totalActive, slots) == SaveAsUnpublished(c)
  {
  }

  /** Form errors block the AI-interview step but not the review step: with the
      same prompt and questions, the review step saves where the AI-interview
      step refuses. */
  lemma ReviewIgnoresFormErrors(c: Context, f: FormData, secret: string, n: nat, active: int, slots: int)
    requires HasContext(c) && HasErrors(f, false) && !Blank(secret) && n >= MinQuestions
    ensures InterviewSetupSave(c, f, secret, n, active, slots) == Blocked(FormIncomplete)
    ensures ReviewSave(secret, n, active, slots) == Save(StatusFor(active, slots))
  {
  }

  /** Whenever the AI-interview step saves, the review step saves with the same status. */
  lemma InterviewSaveImpliesReviewSave(c: Context, f: FormData, secret: string, n: nat, active: int, slots: int)
    requires InterviewSetupSave(c, f, secret, n, active, slots).Save?
    ensures ReviewSave(secret, n, active, slots) == InterviewSetupSave(c, f, secret, n, active, slots)
  {
  }

  /* The review and pipeline steps declare their own interview state, a secret
     prompt `""` and a category list `[]`, and never call its setters, so the
     state stays as declared. */

  const UnsetSecret := ""

  /** `[].reduce(...)` over the never-set category list: no questions. */
  const UnsetTotal: nat := 0

  /** "Publish" on the review step as the component is written: it checks its
      own never-set prompt, so it always refuses for a missing secret prompt. */
  function ReviewSaveAsWritten(totalActive: int, slots: int): (d: SaveDecision)
    ensures d == Blocked(SecretMissing)
  {
    ReviewSave(UnsetSecret, UnsetTotal, totalActive, slots)
  }

  /** As written, the review step refuses even when the AI-interview step, given
      a prompt and enough questions, saves. */
  lemma ReviewNeverSaves(c: Context, f: FormData, secret: string, n: nat, active: int, slots: int)
    requires InterviewSetupSave(c, f, secret, n, active, slots).Save?
    ensures ReviewSaveAsWritten(active, slots) == Blocked(SecretMissing)
    ensures ReviewSave(secret, n, active, slots).Save?
  {
  }

  /** The body that the AI-interview, review and pipeline steps post: the video
      flag, the CV screening setting, the secret prompt and the question payload.
      It carries no status, title, organization or creator. */
  function StepSaveBody(requireVideo: bool, screening: string, secret: string, questions: Json): Json {
    Obj([("requriedvideo", Bool(requireVideo)), ("AIScreening", Str(screening)),
         ("AIinterviewsecretprompt", Str(secret)), ("AiinterviewQuestion", questions)])
  }

  /** Without a career id these steps post their body to the add-career route,
      which refuses it for the missing job title and writes nothing. */
  lemma StepSaveRefusedByRoute(requireVideo: bool, screening: string, secret: string, questions: Json,
                               env: AddCareer.Env, store: AddCareer.Store)
    ensures var out := AddCareer.Post(Done(StepSaveBody(requireVideo, screening, secret, questions)), env, store);
      out.reply == AddCareer.Failure(400, Str("jobTitle is required")) && out.inserted == []
  {
    StepSaveBodyHasNoTitle(requireVideo, screening, secret, questions);
    AddCareer.MissingTitleRefused(StepSaveBody(requireVideo, screening, secret, questions), env, store);
  }

  lemma StepSaveBodyHasNoTitle(requireVideo: bool, screening: string, secret: string, questions: Json)
    ensures Get(StepSaveBody(requireVideo, screening, secret, questions), "jobTitle") == Undefined
  {
    var fields := StepSaveBody(requireVideo, screening, secret, questions).fields;
    LookupCons(fields[0].0, fields[0].1, fields[1..], "jobTitle");
    LookupCons(fields[1].0, fields[1].1, fields[2..], "jobTitle");
    LookupCons(fields[2].0, fields[2].1, fields[3..], "jobTitle");
    LookupCons(fields[3].0, fields[3].1, fields[4..], "jobTitle");
  }

  /* ------------------------ interview-question payload ------------------------ */

  /** A payload entry list: category name to question texts, keys in first-insertion order. */
  type Payload = seq<(string, seq<string>)>

  ghost predicate UniqueKeys(p: Payload) {
    forall i, j :: 0 <= i < j < |p| ==> p[i].0 != p[j].0
  }

  /** The questions stored under `key`, if any. */
  function Find(p: Payload, key: string): (r: Option<seq<string>>)
    ensures r.None? <==> forall i :: 0 <= i < |p| ==> p[i].0 != key
  {
    if p == [] then None else if p[0].0 == key then Some(p[0].1) else Find(p[1..], key)
  }

  /** `acc[key] = value` on an object: an existing key keeps its position and gets the new value. */
  function Put(p: Payload, key: string, value: seq<string>): (r: Payload)
    requires UniqueKeys(p)
    ensures UniqueKeys(r)
    ensures Find(r, key) == Some(value)
    ensures forall k :: k != key ==> Find(r, k) == Find(p, k)
    ensures |r| == |p| + (if Find(p, key).None? then 1 else 0)
  {
    if p == [] then [(key, value)]
    else if p[0].0 == key then
      assert forall i :: 1 <= i < |p| ==> p[i].0 != key;
      [(key, value)] + p[1..]
    else
      var rest := Put(p[1..], key, value);
      assert forall k :: Find(p, k) == (if p[0].0 == k then Some(p[0].1) else Find(p[1..], k));
      assert Find(rest, p[0].0) == Find(p[1..], p[0].0) == None;
      [p[0]] + rest
  }

  /** The category name the payload uses: the first truthy of `categoryName`,
      `name`, `title`, `categoryId`, else "Other", as an object key. */
  function CategoryName(cat: Json): (name: string)
    ensures FirstTruthy(CategoryNameSources(cat)).None? ==> name == "Other"
    ensures FirstTruthy(CategoryNameSources(cat)).Some? ==> name == JsString(FirstTruthy(CategoryNameSources(cat)).value)
  {
    var v := Or(Get(cat, "categoryName"), Or(Get(cat, "name"), Or(Get(cat, "title"), Or(Get(cat, "categoryId"), Str("Other")))));
    FirstTruthyOfFour(Get(cat, "categoryName"), Get(cat, "name"), Get(cat, "title"), Get(cat, "categoryId"));
    JsString(v)
  }

  lemma FirstTruthyOfFour(a: Json, b: Json, c: Json, d: Json)
    ensures FirstTruthy([a, b, c, d]) ==
      if Truthy(a) then Some(a) else if Truthy(b) then Some(b)
      else if Truthy(c) then Some(c) else if Truthy(d) then Some(d) else None
  {
    assert [d][1..] == [];
    assert FirstTruthy([d]) == if Truthy(d) then Some(d) else None;
    assert [c, d][1..] == [d];
    assert FirstTruthy([c, d]) == if Truthy(c) then Some(c) else FirstTruthy([d]);
    assert [b, c, d][1..] == [c, d];
    assert FirstTruthy([b, c, d]) == if Truthy(b) then Some(b) else FirstTruthy([c, d]);
    assert [a, b, c, d][1..] == [b, c, d];
  }

  function CategoryNameSources(cat: Json): seq<Json> {
    [Get(cat, "categoryName"), Get(cat, "name"), Get(cat, "title"), Get(cat, "categoryId")]
  }

  /** The category's questions when they are an array, else none. */
  function QuestionItems(cat: Json): seq<Json> {
    var qs := Get(cat, "questions");
    if qs.Arr? then qs.items else []
  }

  /** The text of the `i`-th question: `Question i+1: <q>` when numbered, `<q>` when verbatim. */
  function QuestionText(q: Json, i: nat, numbered: bool): string {
    if numbered then "Question " + NatToString(i + 1) + ": " + JsString(q) else JsString(q)
  }

  /** The payload texts for one category, in order. */
  function RenderQuestions(cat: Json, numbered: bool): (texts: seq<string>)
    ensures |texts| == |QuestionItems(cat)|
    ensures forall i :: 0 <= i < |texts| ==> texts[i] == QuestionText(QuestionItems(cat)[i], i, numbered)
    ensures !numbered ==> forall i :: 0 <= i < |texts| ==> texts[i] == JsString(QuestionItems(cat)[i])
  {
    var qs := QuestionItems(cat);
    seq(|qs|, i requires 0 <= i < |qs| => QuestionText(qs[i], i, numbered))
  }

  /** No later entry of `es` has the same key as the one at `i`. */
  ghost predicate LastWithKey(es: Payload, i: int) {
    0 <= i < |es| && forall j :: i < j < |es| ==> es[j].0 != es[i].0
  }

  /** `entries.reduce((acc, [k, v]) => { acc[k] = v; return acc }, {})`: folds the
      entries in order into an entry list whose keys stay unique. */
  function Collect(es: Payload): (p: Payload)
    ensures UniqueKeys(p)
    decreases |es|
  {
    if es == [] then [] else Put(Collect(es[..|es| - 1]), es[|es| - 1].0, es[|es| - 1].1)
  }

  /** Some entry of `es` has key `k`. */
  ghost predicate HasKey(es: Payload, k: string) {
    exists i :: 0 <= i < |es| && es[i].0 == k
  }

  /** An entry list has a key exactly when its prefix or its last entry does. */
  lemma HasKeySnoc(es: Payload, k: string)
    requires es != []
    ensures HasKey(es, k) <==> HasKey(es[..|es| - 1], k) || es[|es| - 1].0 == k
  {
    var init := es[..|es| - 1];
    if HasKey(es, k) && es[|es| - 1].0 != k {
      var i :| 0 <= i < |es| && es[i].0 == k;
      assert init[i].0 == k;
    }
    if HasKey(init, k) {
      var i :| 0 <= i < |init| && init[i].0 == k;
      assert es[i].0 == k;
    }
  }

  /** After `acc[key] = v`, a key is present exactly when it is `key` or was present before. */
  lemma PutKeys(p: Payload, key: string, value: seq<string>, k: string)
    requires UniqueKeys(p)
    ensures Find(Put(p, key, value), k).Some? <==> k == key || Find(p, k).Some?
  {
  }

  /** The collected list has a key exactly for the keys of the entries. */
  lemma {:induction false} CollectKeys(es: Payload, k: string)
    ensures Find(Collect(es), k).Some? <==> HasKey(es, k)
    decreases |es|
  {
    if es != [] {
      var n := |es| - 1;
      CollectKeys(es[..n], k);
      PutKeys(Collect(es[..n]), es[n].0, es[n].1, k);
      HasKeySnoc(es, k);
    }
  }

  /** Each key holds the value of the last entry with that key. */
  lemma {:induction false} CollectLastWins(es: Payload, i: int)
    requires LastWithKey(es, i)
    ensures Find(Collect(es), es[i].0) == Some(es[i].1)
    decreases |es|
  {
    var n := |es| - 1;
    if i < n {
      var init := es[..n];
      assert forall j :: 0 <= j < n ==> init[j] == es[j];
      assert LastWithKey(init, i);
      CollectLastWins(init, i);
    }
  }

  /** The (name, questions) entry of every category, in order. */
  function CategoryEntries(cats: seq<Json>, numbered: bool): (es: Payload)
    ensures |es| == |cats|
    ensures forall i :: 0 <= i < |cats| ==> es[i] == (CategoryName(cats[i]), RenderQuestions(cats[i], numbered))
  {
    seq(|cats|, i requires 0 <= i < |cats| => (CategoryName(cats[i]), RenderQuestions(cats[i], numbered)))
  }

  /** The interview-question payload sent with a save: one key per category
      name, in first-appearance order. Categories are objects, as the
      component's state type declares. */
  function BuildPayload(cats: seq<Json>, numbered: bool): (p: Payload)
    requires forall i :: 0 <= i < |cats| ==> !Nullish(cats[i])
    ensures UniqueKeys(p)
  {
    Collect(CategoryEntries(cats, numbered))
  }

  /** As written, the review step's payload is built from the never-set
      category list, so it is the empty object. */
  lemma ReviewPayloadAsWritten(numbered: bool)
    ensures BuildPayload([], numbered) == []
  {
  }

  /** The payload has a key exactly for the names the categories resolve to. */
  lemma PayloadKeys(cats: seq<Json>, numbered: bool, k: string)
    requires forall i :: 0 <= i < |cats| ==> !Nullish(cats[i])
    ensures Find(BuildPayload(cats, numbered), k).Some? <==>
      exists i :: 0 <= i < |cats| && CategoryName(cats[i]) == k
  {
    var es := CategoryEntries(cats, numbered);
    CollectKeys(es, k);
    assert (exists i :: 0 <= i < |es| && es[i].0 == k) <==> (exists i :: 0 <= i < |cats| && CategoryName(cats[i]) == k);
  }

  /** Two categories that resolve to the same name: the payload keeps only the
      questions of the later one, the last with that name. */
  lemma LaterCategoryWins(cats: seq<Json>, i: int, j: int, numbered: bool)
    requires forall k :: 0 <= k < |cats| ==> !Nullish(cats[k])
    requires 0 <= i <= j < |cats| && CategoryName(cats[i]) == CategoryName(cats[j])
    requires forall k :: j < k < |cats| ==> CategoryName(cats[k]) != CategoryName(cats[j])
    ensures Find(BuildPayload(cats, numbered), CategoryName(cats[i])) == Some(RenderQuestions(cats[j], numbered))
  {
    var es := CategoryEntries(cats, numbered);
    assert LastWithKey(es, j);
    CollectLastWins(es, j);
  }
}
